=== FILE: README.md ===
# commandv2: a Dafny model of the cooperative command framework

This project models the `commandv2` package of an FRC robot library. The
package has three cooperating parts:

- **Triggers** (`Trigger.kt`). A trigger is a boolean input polled once per
  scheduler tick. It keeps its previous level, a "hold started" flag and a
  toggle flag. On each poll it starts or cancels the commands bound to its
  five slots: press, release, hold, cancel-on-press and toggle.
  `updateTriggers` polls every registered trigger in registration order,
  unless the global `enabled` switch is off.
- **Commands** (`Command.kt`). `start()` launches a coroutine job. The job
  does the following:
  - pushes itself onto its subsystem's command stack, marks the scheduler
    dirty and calls `initialize()`;
  - then loops once per period. Each pass peeks at the stack; if another
    job owns the top, a Terminate command cancels itself and a Suspend
    command calls `interrupted()`, waits for the owner, then calls
    `resumed()` and `execute()`; otherwise it calls `execute()`. The pass
    ends with the end-of-period delay;
  - leaves the loop when `isFinished()` holds or its timeout expires;
  - finally, in its `finally` block, calls `end()`, leaves the stack, marks
    the scheduler dirty and clears its handle.

  `cancel()`, `isRunning()` and the factories `lambda`, `waitFor` and
  `delay` are modelled as well.
- **Scheduler** (`Scheduler.kt`). One `update` tick runs each subsystem's
  `pump`/`periodic` (only `periodic` in test mode), polls the triggers,
  then reaps dead commands from the running list and their jobs from the
  subsystem stacks. `killAllCommands` resets every subsystem's command
  queue.

## How the model is built

- **One context object.** Everything the framework keeps is one immutable
  `Commands.World` record, passed to every operation. That is the command
  objects, one stack per subsystem, every job ever created, the running
  list, the dirty flag, the triggers and the trigger switch.
- **Jobs.** Job ids are positions in an append-only sequence. A command's
  `job` field is an `Option<JobId>`.
- **Stacks.** A stack is a `seq` of job ids whose last element is the top.
  Removal takes out the first occurrence.
- **The coroutine.** The coroutine is cut at its suspension points:
  - `Pending`: started, body not entered;
  - `Delaying(startTime)`: waiting out the period;
  - `Joining(startTime, peer)`: Suspend policy, waiting for `peer`;
  - `Done(ranBody)`: finished.

  `Commands.StepJob` resumes one job and runs it to its next suspension
  point. It returns the new world and the hooks called. It is the
  corrected body: each job pushes, compares with and removes itself, and a
  Suspend job woken by its peer looks at the stack again before executing.
  `Commands.StepWith(w, j, o, false)` keeps the first correction but takes
  the source's resume path. `AsWritten.Step` is the body exactly as
  written, naming its job through the command's shared `job` and
  `startTime` fields; `AsWritten.StepAgrees` shows that it takes the same
  step as the source's resume path while the command has that one job.
  The two Findings below are where they part.
- **Outside inputs.** The clock, the value `isFinished()` returns and the
  set of hooks that throw during a step all come in as `Commands.Obs`. A
  thrown exception (including cancellation) leaves the loop through
  `finally`, as the `catch` does.
- **Whole runs.** `Framework.Exec` runs a trace of events: start, cancel,
  resume one job, tick, kill all. It logs every hook call with the job that
  made it.
- **The protocol.** `Lifecycle` is an independent automaton for the order of
  hook calls: `initialize` first, then execute, interrupted or resumed in the
  loop, `end` last. `Traces` proves that every job's log in every run follows
  it, with `end()` called once for every job whose body ran to completion
  and never for a job cancelled before dispatch.
- **Arbitration.** `Exclusion` proves an invariant over every event: no job
  is on a stack twice, stacks hold only jobs inside their loop, and every
  uncancelled job inside its loop is on its subsystem's stack. The invariant
  is proved for the model's body, in which each job names itself. It also
  proves the mutual-exclusion property that the corrected resume path gains
  and the source's resume path lacks.
- **Scenarios.** `Scenarios` replays two concrete runs event by event, on
  both resume paths and as written, and exhibits the two Findings.

Where the documented intent and the code differ, the model follows the code:

- `start()` on a running command launches a second job and overwrites the
  handle; it does not guard against a running command. The first job keeps
  running, and as written it then reads the second job out of the shared
  field (second Findings row).
- The hold command first starts on the first *held* tick (high then high),
  not on the rising edge.
- The timeout is checked regardless of the interrupt policy, although the
  constructor's KDoc says it is ignored for commands that do not terminate
  on suspension.
- Reaping does not set `commandsChanged`; only body entry and `finally` do.
- `killAllCommands` cancels and drops only jobs that are on some subsystem
  stack. Commands with no subsystem, and jobs not yet dispatched, keep
  running. The running list is left to the next reap.
- A job cancelled between `start()` and its dispatch never runs its body,
  so it calls neither `initialize()` nor `end()`, although `end()` is
  documented as the hook of every finished command; the command's handle
  keeps the cancelled job (`CommandLemmas.CancelBeforeDispatch`).

## Model

| member | source | states |
|---|---|---|
| Triggers.Bind | src/org/usfirst/frc/team4322/commandv2/Trigger.kt:37-56 | a setter binds exactly its own slot; the other four slots and the edge state (previous level, hold flag, toggle flag) are untouched |
| Triggers.Poll | src/org/usfirst/frc/team4322/commandv2/Trigger.kt:58-84 | after a poll the previous level is the level just read and bindings are unchanged; low-to-low emits nothing and changes nothing; a rising edge flips the toggle flag and keeps the hold flag; a held tick sets the hold flag; a falling edge clears it; neither held nor falling touches the toggle flag |
| Triggers.PollFollowsTable | src/org/usfirst/frc/team4322/commandv2/Trigger.kt:60-82 | the actions of a poll are exactly those of an independent per-slot reaction table (press starts on rising, release starts on falling, hold starts on the first held tick or when not running and is cancelled on falling, cancel-on-press cancels on rising, toggle starts or cancels on rising by the flag), in slot order |
| Triggers.PollActsOnlyOnBound | src/org/usfirst/frc/team4322/commandv2/Trigger.kt:63-81 | every start or cancel a poll emits names a bound command; an unbound slot never acts |
| Triggers.HeldNeverRestartsRunningHold | src/org/usfirst/frc/team4322/commandv2/Trigger.kt:64-67 | on a held tick after the first, a hold command that is still running is not started again and the trigger state is unchanged |
| Triggers.ToggleFollowsFlag | src/org/usfirst/frc/team4322/commandv2/Trigger.kt:71-75 | on a rising edge the toggle command is started when the flag is off and cancelled when it is on |
| Triggers.ToggleTwice | src/org/usfirst/frc/team4322/commandv2/Trigger.kt:69-77 | two rising edges with a fall between start and then cancel the toggle command, and the toggle flag returns to its old value |
| Triggers.PressHoldRelease | src/org/usfirst/frc/team4322/commandv2/Trigger.kt:58-84 | for levels low, high, high, low with all five slots bound: nothing, then press start + toggle start + cancel-on-press cancel, then hold start, then hold cancel + release start; the trigger ends with only the toggle flag changed |
| Triggers.AfterActions | src/org/usfirst/frc/team4322/commandv2/Command.kt:106-117 | after a start the command is running and after a cancel it is not (the effect of the trigger's calls on `isRunning()`) |
| Triggers.PollAllAppend | src/org/usfirst/frc/team4322/commandv2/Trigger.kt:11-14 | registration order: polling `ts1 + ts2` polls all of `ts1` first, and `ts2` sees the running set that `ts1`'s starts and cancels left |
| Triggers.PollAllStates | src/org/usfirst/frc/team4322/commandv2/Trigger.kt:13 | each trigger's new state is that of its own poll alone, whatever the other triggers did |
| Triggers.UpdateTriggers | src/org/usfirst/frc/team4322/commandv2/Trigger.kt:11-14 | with the switch off no trigger changes and nothing is emitted; with it on every trigger is polled with its own level and records it |
| CommandStack.Peek | src/org/usfirst/frc/team4322/commandv2/Command.kt:136 | the top is absent exactly when the stack is empty, and is a member otherwise |
| CommandStack.Push | src/org/usfirst/frc/team4322/commandv2/Command.kt:128 | the pushed job becomes the top, everything below stays in order, and a fresh job keeps the stack duplicate-free |
| CommandStack.Remove | src/org/usfirst/frc/team4322/commandv2/Command.kt:158 | removing an absent job changes nothing; otherwise exactly one entry goes, other members stay, and a duplicate-free stack no longer holds the job |
| CommandStack.RemoveFirstOccurrence | src/org/usfirst/frc/team4322/commandv2/Command.kt:158 | removal cuts the stack at the first occurrence and keeps both sides in order |
| CommandStack.RemoveMultiset | src/org/usfirst/frc/team4322/commandv2/Command.kt:158 | removal takes exactly one copy of the job out of the stack's contents |
| CommandStack.PushThenRemove | src/org/usfirst/frc/team4322/commandv2/Command.kt:128-158 | a job that pushes itself and is later removed leaves the stack as it found it |
| CommandStack.RemoveBelowTop | src/org/usfirst/frc/team4322/commandv2/Command.kt:158 | removing a job that is not the top leaves the top in place |
| Commands.IsRunning | src/org/usfirst/frc/team4322/commandv2/Command.kt:98-100 | a command with no job handle is not running |
| Commands.CancelJob | src/org/usfirst/frc/team4322/commandv2/Command.kt:108 | cancelling a job makes it inactive and touches no other job, no program point and no stack |
| Commands.Cancel | src/org/usfirst/frc/team4322/commandv2/Command.kt:106-111 | `cancel()` returns true in every case; a command not running is left exactly as it was; afterwards the command is not running; only its own job is touched, and no program point moves |
| Commands.Start | src/org/usfirst/frc/team4322/commandv2/Command.kt:113-117 | `start()` creates a new dispatched job, points the command's handle at it (forgetting any earlier job), leaves other commands alone, and the command is then running |
| Commands.Enter | src/org/usfirst/frc/team4322/commandv2/Command.kt:128-130 | body entry, each job pushing itself (corrected; see Findings): the job goes onto exactly its own subsystem's stack, the dirty flag is set, and the start time is recorded in the job's program point and in the command's `startTime`; no other job, command field or stack changes |
| Commands.Finally | src/org/usfirst/frc/team4322/commandv2/Command.kt:156-160 | the `finally` block, each job removing itself (corrected; see Findings): the job leaves exactly its own subsystem's stack, the dirty flag is set, the command's handle is cleared if and only if it still holds this job (a later `start()` keeps its own), and the job completes; other jobs and commands are untouched |
| Commands.CallHooks | src/org/usfirst/frc/team4322/commandv2/Command.kt:151-155 | the hooks called are a prefix of those planned; the sequence stops exactly at the first hook that throws, and runs to the end when none does |
| Commands.Yield | src/org/usfirst/frc/team4322/commandv2/Command.kt:138-139 | a displaced Terminate job cancels its own job (corrected: the source's `cancel()` cancels the job in the handle, see `AsWritten.Yield`); it moves no other job's program point and either leaves through `finally` (`end()` last, its stack entry gone, the handle released if it holds the job, dirty) or changes no shared structure |
| Commands.Interrupt | src/org/usfirst/frc/team4322/commandv2/Command.kt:140-142 | a displaced Suspend command moves no other job's program point and either leaves through `finally` or changes no shared structure |
| Commands.Iterate | src/org/usfirst/frc/team4322/commandv2/Command.kt:135-150 | one loop pass that compares the top of the stack with the job itself (corrected; see Findings) only changes the job's own program point, raises no one else's flag, and either completes the exit protocol or changes no stack, handle or dirty flag |
| Commands.StepPending | src/org/usfirst/frc/team4322/commandv2/Command.kt:123-150 | a dispatched job's first step, each job naming itself, either leaves stacks, handles and the dirty flag as body entry left them (no entry at all when it was cancelled first), or completes the exit protocol with `end()` called once and last and only its own entry and handle released |
| Commands.StepJoining | src/org/usfirst/frc/team4322/commandv2/Command.kt:142-150 | a waiting Suspend job moves no other job's program point, and either completes the exit protocol or changes no shared structure |
| Commands.StepJob | src/org/usfirst/frc/team4322/commandv2/Command.kt:122-164 | the corrected step (each job names itself; a woken Suspend job looks at the stack again): it changes no configuration, running list or trigger and no other job's program point; it leaves the loop with `end()` as the last hook, its own stack entry gone, the handle released if it holds the job and the dirty flag set, or else `end()` is not called and stacks and handles are as after body entry |
| Commands.StepWith | src/org/usfirst/frc/team4322/commandv2/Command.kt:122-164 | either resume path of the model's body keeps the same frame and exit protocol: no configuration, running list, trigger or other job's program point changes, and the job either completes with `end()` last and only its own entry and handle released, or changes no stack, handle or dirty flag beyond body entry |
| AsWritten.Enter | src/org/usfirst/frc/team4322/commandv2/Command.kt:128-130 | as written, body entry pushes the job held in the command's `job` field (whichever job that is, nothing when it is empty), sets the dirty flag and overwrites the command's `startTime`; the stepping job's program point moves to its delay and nothing else changes |
| AsWritten.Finally | src/org/usfirst/frc/team4322/commandv2/Command.kt:156-160 | as written, `finally` removes the job held in the `job` field from the stack and clears the field whichever job it held, sets the dirty flag and completes the stepping job |
| AsWritten.AtDelay | src/org/usfirst/frc/team4322/commandv2/Command.kt:149 | at the end-of-period delay, as written, `end()` is called if and only if the stepping job has been cancelled |
| AsWritten.Step | src/org/usfirst/frc/team4322/commandv2/Command.kt:122-164 | the body as written, naming its job and start time through the command's shared fields: a completed job is left as it is, a job cancelled before dispatch completes calling no hook, and no step changes any configuration, running list, trigger or other job's program point |
| AsWritten.EnterAgrees | src/org/usfirst/frc/team4322/commandv2/Command.kt:128-130 | while the `job` field holds the stepping job, body entry as written is the model's body entry |
| AsWritten.FinallyAgrees | src/org/usfirst/frc/team4322/commandv2/Command.kt:156-160 | while the `job` field holds the stepping job, `finally` as written is the model's `finally` |
| AsWritten.YieldAgrees | src/org/usfirst/frc/team4322/commandv2/Command.kt:138-139 | while the `job` field holds the stepping, active job, the source's `cancel()` of the command cancels exactly that job, so a displaced Terminate job does what the model's `Yield` does |
| AsWritten.InterruptAgrees | src/org/usfirst/frc/team4322/commandv2/Command.kt:140-142 | while the `job` field holds the stepping job, a displaced Suspend job's `interrupted()` and the start of its wait are the same as written and in the model |
| AsWritten.PerformAgrees | src/org/usfirst/frc/team4322/commandv2/Command.kt:144-149 | while the `job` field holds the stepping job, calling hooks and reaching the delay is the same as written and in the model |
| AsWritten.IterateAgrees | src/org/usfirst/frc/team4322/commandv2/Command.kt:135-150 | while the `job` field holds the stepping, active job, comparing the top with the field is comparing it with the job itself, so one loop pass is the same as written and in the model |
| AsWritten.StepAgrees | src/org/usfirst/frc/team4322/commandv2/Command.kt:122-164 | while the command has this one job (the field holds it, and while it waits out a period `startTime` is its own entry time), the body as written takes exactly the step of the model's body on the source's resume path |
| CommandLemmas.ExitProtocol | src/org/usfirst/frc/team4322/commandv2/Command.kt:128-160 | for the corrected step, `end()` is called if and only if the job leaves its loop then; it is called once and last, and with it the job's own stack entry is removed, the handle is cleared if it still holds the job (and otherwise kept) and the dirty flag is set; otherwise stacks and command fields are those after body entry and the dirty flag is set exactly when the body was entered |
| CommandLemmas.ExitLeavesStack | src/org/usfirst/frc/team4322/commandv2/Command.kt:158 | with each job removing itself (corrected; see Findings), a job that leaves its loop is on no stack afterwards |
| CommandLemmas.FirstPassExecutes | src/org/usfirst/frc/team4322/commandv2/Command.kt:128-147 | the body runs at least once: the first step calls `initialize()` then `execute()` (then possibly `end()`), because the freshly pushed job owns the top of its stack |
| CommandLemmas.NoSubsystemNeverDisplaced | src/org/usfirst/frc/team4322/commandv2/Command.kt:136-147 | a command with no subsystem executes on every pass that does not end the loop, and nothing but its own job changes |
| CommandLemmas.DisplacedTerminate | src/org/usfirst/frc/team4322/commandv2/Command.kt:137-160 | a Terminate command that sees another job on top cancels itself without calling `execute()`; it calls only `end()`, and the top of the stack stays where it was |
| CommandLemmas.DisplacedSuspend | src/org/usfirst/frc/team4322/commandv2/Command.kt:140-142 | a Suspend command that sees another job on top calls `interrupted()` only and starts waiting for that job |
| CommandLemmas.JoinWaitsForPeer | src/org/usfirst/frc/team4322/commandv2/Command.kt:142 | a Suspend job waiting for a peer that has not completed changes nothing and calls no hook, both in the model and as written |
| CommandLemmas.ResumeOnTop | src/org/usfirst/frc/team4322/commandv2/Command.kt:142-144 | once the job it waited for has finished, a Suspend command on top of its stack calls `resumed()` then `execute()` and returns to its delay |
| CommandLemmas.LoopExitCondition | src/org/usfirst/frc/team4322/commandv2/Command.kt:150 | a job on top leaves its loop exactly when `isFinished()` holds or a non-zero timeout has expired, and calls `end()` then; otherwise it calls `execute()` |
| CommandLemmas.ZeroTimeoutNeverExpires | src/org/usfirst/frc/team4322/commandv2/Command.kt:150 | with timeout 0 the loop test ignores the clock: the job leaves exactly when `isFinished()` holds |
| CommandLemmas.DelayEndsOnlyByTimeout | src/org/usfirst/frc/team4322/commandv2/Command.kt:78-92 | `delay(s)` leaves exactly when `s` is non-zero and has elapsed since its start |
| CommandLemmas.WaitForEndsOnCondition | src/org/usfirst/frc/team4322/commandv2/Command.kt:65-75 | `waitFor(fn)` leaves exactly when the condition is observed true, and otherwise only executes |
| CommandLemmas.LambdaExits | src/org/usfirst/frc/team4322/commandv2/Command.kt:35-37 | a lambda command past its first pass always leaves at its next step through `finally` |
| CommandLemmas.LambdaEnters | src/org/usfirst/frc/team4322/commandv2/Command.kt:29-34 | a lambda command's first step calls `initialize()` and `execute()` once, and stays in the loop |
| CommandLemmas.LambdaRunsOnce | src/org/usfirst/frc/team4322/commandv2/Command.kt:29-59 | a started lambda command calls `initialize()` and `execute()` once, then `end()`; it leaves the stacks as it found them and clears its handle |
| CommandLemmas.CancelBeforeDispatch | src/org/usfirst/frc/team4322/commandv2/Command.kt:106-123 | a command cancelled before its job is dispatched never runs its body: no hook is called (neither `initialize()` nor `end()`), no stack changes, it is not running, and its handle keeps the cancelled job |
| CommandLemmas.CancelEndsAtNextStep | src/org/usfirst/frc/team4322/commandv2/Command.kt:106-160 | a running command cancelled inside its loop calls only `end()` at its next step and completes |
| Lifecycle.Accept | src/org/usfirst/frc/team4322/commandv2/Command.kt:131-157 | the protocol automaton: `initialize()` only first, `end()` only from inside the loop and into the final phase, nothing after it |
| Lifecycle.RunCountsEnd | src/org/usfirst/frc/team4322/commandv2/Command.kt:157 | any hook sequence the automaton accepts calls `end()` once if it reaches the final phase and never otherwise |
| Lifecycle.RunCountsInitialize | src/org/usfirst/frc/team4322/commandv2/Command.kt:131 | any accepted sequence from a fresh job starts with `initialize()` and calls it exactly once |
| Lifecycle.StepFollowsProtocol | src/org/usfirst/frc/team4322/commandv2/Command.kt:122-164 | the hooks of one step, on either resume path, are accepted by the automaton from the job's phase and lead to its new phase |
| Framework.Init | src/org/usfirst/frc/team4322/commandv2/Scheduler.kt:21-23 | a new framework has no jobs and empty stacks, one per subsystem, and is well formed |
| Framework.ExecOne | src/org/usfirst/frc/team4322/commandv2/Command.kt:122-164 | an event moves only the job it resumes; jobs created on the way are dispatched and not entered; the log holds exactly that job's hooks |
| Framework.Exec | src/org/usfirst/frc/team4322/commandv2/Scheduler.kt:26-45 | a trace never changes configurations or the number of commands and subsystems, and never forgets a job |
| Traces.TraceFollowsProtocol | src/org/usfirst/frc/team4322/commandv2/Command.kt:122-164 | in any trace, each job's logged hooks are accepted by the automaton and lead to its final phase; jobs not yet created have none |
| Traces.EndExactlyOnce | src/org/usfirst/frc/team4322/commandv2/Command.kt:131-161 | for every job created during a trace, `initialize()` comes first and once, and `end()` is called once exactly when the job completed its body, and last |
| Scheduler.RunningSet | src/org/usfirst/frc/team4322/commandv2/Command.kt:98-100 | the set of commands whose `isRunning()` is true |
| Scheduler.ApplyRunningSet | src/org/usfirst/frc/team4322/commandv2/Command.kt:106-117 | applying a trigger's start or cancel to the world changes the running set as `AfterActions` predicts |
| Scheduler.ApplyAllRunningSet | src/org/usfirst/frc/team4322/commandv2/Trigger.kt:63-81 | applying a poll's actions in order gives the running set `AfterActions` predicts |
| Scheduler.PollSeesEarlierActions | src/org/usfirst/frc/team4322/commandv2/Trigger.kt:13 | polling all triggers in one batch equals polling the first `k` and then the rest against the world their actions produced, so batching matches polling as one goes |
| Scheduler.TriggerPhase | src/org/usfirst/frc/team4322/commandv2/Scheduler.kt:32 | the trigger phase installs the new trigger states of `updateTriggers` and leaves the running set as its actions predict |
| Scheduler.Live | src/org/usfirst/frc/team4322/commandv2/Scheduler.kt:34-39 | the reaped list holds exactly the listed commands that are running, each as many times as it was listed, in the original order, and is the list itself when all are running |
| Scheduler.LiveAppend | src/org/usfirst/frc/team4322/commandv2/Scheduler.kt:34-39 | reaping a list made of two parts reaps each part on its own and keeps them in order: which entries stay depends on nothing but the entry itself |
| Scheduler.DetachIfDead | src/org/usfirst/frc/team4322/commandv2/Scheduler.kt:35-36 | for one dead command, only its job leaves only the stack of its own subsystem; other stacks are unchanged and no duplicate is introduced |
| Scheduler.DetachDead | src/org/usfirst/frc/team4322/commandv2/Scheduler.kt:34-37 | detaching adds nothing, keeps stacks duplicate-free, and leaves unchanged every stack that no dead command uses |
| Scheduler.DetachDeadOnlyInactive | src/org/usfirst/frc/team4322/commandv2/Scheduler.kt:35-36 | every job detached is inactive |
| Scheduler.DetachDeadRemoves | src/org/usfirst/frc/team4322/commandv2/Scheduler.kt:35-36 | the job of every dead command is removed from its subsystem's stack |
| Scheduler.Reap | src/org/usfirst/frc/team4322/commandv2/Scheduler.kt:34-39 | after reaping every listed command is running; a command stays listed exactly when it was listed and running, as many times as before; stacks lose only dead commands' jobs; nothing else changes, including the dirty flag |
| Scheduler.ReapDetachesDead | src/org/usfirst/frc/team4322/commandv2/Scheduler.kt:35-37 | a listed dead command leaves the list, and its job leaves its subsystem's stack |
| Scheduler.ReapIdempotent | src/org/usfirst/frc/team4322/commandv2/Scheduler.kt:34-39 | reaping twice is the same as reaping once |
| Scheduler.ResetCommandQueue | src/org/usfirst/frc/team4322/commandv2/Scheduler.kt:44 | resetting one queue cancels every job on it, empties it, and touches no other job or stack |
| Scheduler.KillAllCommands | src/org/usfirst/frc/team4322/commandv2/Scheduler.kt:42-45 | every subsystem stack is emptied, every job that was on one is inactive, every other job is untouched, and no program point moves |
| Scheduler.KillAllSpares | src/org/usfirst/frc/team4322/commandv2/Scheduler.kt:42-45 | a listed command still running after `killAllCommands` had a job on no subsystem stack |
| Scheduler.KillAllThenReap | src/org/usfirst/frc/team4322/commandv2/Scheduler.kt:34-45 | after killing all and reaping, every stack is empty and only commands whose job was on no stack remain listed |
| Scheduler.SubsystemPhase | src/org/usfirst/frc/team4322/commandv2/Scheduler.kt:27-31 | in test mode only `periodic` runs, once per subsystem in order; otherwise `pump` then `periodic` for each subsystem in order |
| Scheduler.PhasesInOrder | src/org/usfirst/frc/team4322/commandv2/Scheduler.kt:27-39 | in the log of the calls a tick makes, built from the number of subsystems and triggers, every subsystem event comes before every trigger poll, and every poll before the reap |
| Scheduler.PhaseContents | src/org/usfirst/frc/team4322/commandv2/Scheduler.kt:27-39 | that log holds the subsystem phase, then one poll per trigger when enabled (none when disabled), then the reap, and `pump` never in test mode |
| Scheduler.Update | src/org/usfirst/frc/team4322/commandv2/Scheduler.kt:26-40 | a tick installs the trigger states and actions of `updateTriggers`; the running set afterwards is what those starts and cancels leave; a command stays listed exactly when it was listed and is still running; every listed command is running; the dirty flag is kept; no coroutine is resumed and only dispatched jobs are added |
| Exclusion.InitArbitrated | src/org/usfirst/frc/team4322/commandv2/Scheduler.kt:21-22 | a new framework satisfies the arbitration invariant |
| Exclusion.StartKeeps | src/org/usfirst/frc/team4322/commandv2/Command.kt:113-117 | `start()` preserves the arbitration invariant |
| Exclusion.CancelKeeps | src/org/usfirst/frc/team4322/commandv2/Command.kt:106-111 | `cancel()` preserves the arbitration invariant |
| Exclusion.KillAllKeeps | src/org/usfirst/frc/team4322/commandv2/Scheduler.kt:42-45 | `killAllCommands` preserves the arbitration invariant |
| Exclusion.TickKeeps | src/org/usfirst/frc/team4322/commandv2/Scheduler.kt:26-40 | a scheduler tick preserves the arbitration invariant |
| Exclusion.StepKeeps | src/org/usfirst/frc/team4322/commandv2/Command.kt:122-164 | one step of the model's body, where each job names itself, preserves the arbitration invariant on either resume path (as written, a restarted command breaks it: `Scenarios.RestartLeaks`) |
| Exclusion.ExecKeeps | src/org/usfirst/frc/team4322/commandv2/Command.kt:122-164 | every trace of events over the model's body, where each job names itself, preserves the arbitration invariant |
| Exclusion.IterateGivesWay | src/org/usfirst/frc/team4322/commandv2/Command.kt:136-145 | a loop pass of the model's body that sees another job on top calls neither `execute()` nor `resumed()`; as written, a job that reads a newer job out of the shared field does (`Scenarios.RestartRunsBelowTop`) |
| Exclusion.BelowTopGivesWay | src/org/usfirst/frc/team4322/commandv2/Command.kt:136-145 | with the corrected resume path, a job inside its loop that is not on top of its stack calls neither `execute()` nor `resumed()` |
| Exclusion.ExecuteOnlyOnTop | src/org/usfirst/frc/team4322/commandv2/Command.kt:136-148 | with the corrected resume path, a job with a subsystem calls `execute()` or `resumed()` only while it is the top of that subsystem's stack |
| Exclusion.ExecOnlyOnTop | src/org/usfirst/frc/team4322/commandv2/Command.kt:136-148 | after any trace with the corrected resume path, a job's next step executes only while it is on top of its subsystem's stack |
| Exclusion.JoinResumes | src/org/usfirst/frc/team4322/commandv2/Command.kt:142-144 | as written (`AsWritten.Step`), a Suspend job whose peer has finished calls `resumed()` and `execute()` at once, whatever the stack holds |
| Exclusion.JoinRechecks | src/org/usfirst/frc/team4322/commandv2/Command.kt:136-144 | corrected, such a job that finds a third job on top calls nothing and waits for that job |
| Scenarios.StartEmpty | src/org/usfirst/frc/team4322/commandv2/Scheduler.kt:21-23 | the first run starts from the framework as `Init` builds it: three commands, one empty stack, no job |
| Scenarios.Scene4 | src/org/usfirst/frc/team4322/commandv2/Command.kt:140-142 | on both resume paths A, below B, calls `interrupted()` and starts waiting for B |
| Scenarios.Scene7 | src/org/usfirst/frc/team4322/commandv2/Command.kt:137-160 | on both resume paths B, below C, cancels itself, calls `end()` and leaves, so the stack holds A then C and B's handle is cleared |
| Scenarios.SourceFollows | src/org/usfirst/frc/team4322/commandv2/Command.kt:128-150 | the body as written takes A's entry, B's entry and A's interruption to the same worlds as the model, because each job it resumes is its command's only job |
| Scenarios.SourceFollowsOn | src/org/usfirst/frc/team4322/commandv2/Command.kt:128-160 | the body as written also takes C's entry and B's exit to the same worlds as the model |
| Scenarios.AfterArbitrated | src/org/usfirst/frc/team4322/commandv2/Command.kt:128-160 | the world the first run reaches (A waiting for B, B done, C on top) satisfies the arbitration invariant |
| Scenarios.SourceRunsBelowTop | src/org/usfirst/frc/team4322/commandv2/Command.kt:140-144 | in that arbitrated world, the body as written resumes A and calls `resumed()` and `execute()` while C owns the subsystem |
| Scenarios.CorrectedWaits | src/org/usfirst/frc/team4322/commandv2/Command.kt:136-144 | in the same world the corrected step sends A back to wait for C and calls nothing |
| Scenarios.RestartEmpty | src/org/usfirst/frc/team4322/commandv2/Scheduler.kt:21-23 | the second run starts from the framework as `Init` builds it: one command, one empty stack, no job |
| Scenarios.RScene2 | src/org/usfirst/frc/team4322/commandv2/Command.kt:113-117 | `start()` on the running command adds a second dispatched job and moves the handle to it, leaving the first job on the stack |
| Scenarios.RestartSourceFollows | src/org/usfirst/frc/team4322/commandv2/Command.kt:128-130 | the body as written takes both entries of the second run to the same worlds as the model, because each entering job is then the one in the handle |
| Scenarios.RestartedArbitrated | src/org/usfirst/frc/team4322/commandv2/Command.kt:113-130 | the world with both jobs in their loops, the second on top and in the handle, satisfies the arbitration invariant |
| Scenarios.RestartRunsBelowTop | src/org/usfirst/frc/team4322/commandv2/Command.kt:136-147 | as written, the first job reads the second out of the `job` field, takes the top for its own and calls `execute()` below the second job |
| Scenarios.LeakedFinishes | src/org/usfirst/frc/team4322/commandv2/Command.kt:156-160 | as written, when the first job finishes it calls `end()`, removes the second job's stack entry and clears the handle, leaving its own finished entry on the stack |
| Scenarios.LeakedIdles | src/org/usfirst/frc/team4322/commandv2/Command.kt:136-150 | the world so left breaks the arbitration invariant; `cancel()` finds no job in the field and changes nothing; a step of the second job in which `isFinished()` is false calls no hook and changes nothing |
| Scenarios.LeakedLeaves | src/org/usfirst/frc/team4322/commandv2/Command.kt:150-160 | a step of the second job in which `isFinished()` holds calls `end()`, removes nothing because the field is empty, and completes; the finished first job's entry stays on the stack and no later step of either job takes it off |
| Scenarios.RestartLeaks | src/org/usfirst/frc/team4322/commandv2/Command.kt:128-160 | the restart, as written: the first job's last step takes the second job's entry and handle and the invariant is broken; the second job no longer executes on a step in which `isFinished()` is false, `cancel()` cannot stop it, and when `isFinished()` holds it ends leaving the first job's entry on the stack |
| Scenarios.GivesWayStep | src/org/usfirst/frc/team4322/commandv2/Command.kt:137-160 | the corrected step makes the first job cancel itself, call `end()` and take only its own entry off the stack; the handle keeps the second job |
| Scenarios.GaveWayExecutes | src/org/usfirst/frc/team4322/commandv2/Command.kt:136-147 | the second job, then alone on top, calls `execute()` |
| Scenarios.RestartGivesWay | src/org/usfirst/frc/team4322/commandv2/Command.kt:136-160 | corrected, the restart leaves an arbitrated world in which the first job has given way and the second executes |

## Left out

- Kotlin coroutines, `async`/`join`/`delay` and `GlobalScope`. Suspension
  points are explicit program points, and one event resumes one job. The
  interleaving is chosen by the caller's trace, not by a dispatcher.
- `Timer.getFPGATimestamp`, and the `Double` period, timeout and start time.
  The clock is an abstract `int` supplied per step; the period length is not
  modelled.
- Exception logging via `RobotLogger`. A throwing hook is an exit path into
  `finally`, like cancellation.
- `end()` or `isFinished()` throwing is not modelled. The value
  `isFinished()` returns is an input of the step.
- Calling `invoke()` without `start()` (a lazily created job never started)
  is not modelled: every job comes from `start()`.
- HAL reporting, `DriverStation` (test mode is a parameter of the tick),
  `RobotPerformanceData` and the `initSendable` dashboard bridge. These are
  I/O and reporting channels.
- The `Subsystem` class is not part of this model. Its command stack is a
  `seq` of job ids with push, peek and first-occurrence remove, and
  `resetCommandQueue` is cancel-every-job-then-empty. `peek` on an empty
  stack is modelled as no owner, so the job executes; a `java.util.Stack`
  would throw there and the job would leave through `finally`. With each
  job naming itself an uncancelled job inside its loop is always on its
  own stack (`Exclusion.Arbitrated`), so only the body as written can
  reach that case, for instance after `killAllCommands` empties the stack
  under a leaked job. The `pump` and
  `periodic` bodies and default commands appear only as phase events.
- The superseded `command` package (its thread-pool `Scheduler.kt` and
  `CommandBuilder.java`) and `motion/RobotPositionIntegrator.kt`.
- The in-place removal while iterating at Scheduler.kt:34-37 would throw a
  concurrent-modification error. The reap is modelled as the filter it
  evidently intends.
- Scheduler.TriggerPhase: polls all triggers against the running set at
  the start of the phase and then applies the actions in order. The source
  starts and cancels as it polls; `Scheduler.PollSeesEarlierActions` and
  `Scheduler.ApplyAllRunningSet` show that the batched form gives every
  trigger the running set the interleaved one would.
- Triggers.PollAll: its own contract states only the length. Its content
  is stated by `Triggers.PollAllAppend` and `Triggers.PollAllStates`.
- The running list: nothing in the model ever appends to it, and nothing
  in the source does either. Nothing in Command.kt, Scheduler.kt or
  Trigger.kt appends to `runningCommands` (Scheduler.kt:22), so with those
  files alone reaping only ever shrinks an empty list. The model keeps the list as a field of the world, empty after
  `Framework.Init` and left empty by every event, and states the reap for
  any list an application might have filled.
- AsWritten.Enter: when the `job` field is empty at body entry (a job
  dispatched after another job's `finally` cleared it), the source pushes a
  null entry onto the stack; the model pushes nothing.
- AsWritten.Yield: its own contract states only the frame; what it does is
  stated by `AsWritten.YieldAgrees` while the command has one job, and by
  `Scenarios.LeakedIdles` when it has not.
- AsWritten.Iterate: its own contract states only the frame; what it does
  is stated by `AsWritten.IterateAgrees` and by
  `Scenarios.RestartRunsBelowTop`.
- AsWritten.Interrupt: its own contract states only the frame; what it
  does is stated by `AsWritten.InterruptAgrees` and `AsWritten.IterateAgrees`
  while the command has one job, and the join that follows by
  `Exclusion.JoinResumes`.
- AsWritten.Perform: its own contract states only the frame; what it does
  is stated by `AsWritten.PerformAgrees` while the command has one job, and
  by `Exclusion.JoinResumes` and `Scenarios.RestartRunsBelowTop` when the
  hooks are `resumed()` and `execute()` or `execute()` below the top.
- Scheduler.PhasesInOrder: states the order of the calls in `update()` on
  a log (`Scheduler.PhaseLog`) built from the number of subsystems and
  triggers, the test-mode flag and the trigger switch. `Scheduler.Update`
  does not produce that log, because the `pump` and `periodic` bodies are
  application code.
- Scheduler.PhaseContents: the same log as `Scheduler.PhasesInOrder`, for
  the same reason.
- Whole-run reachability: each run in `Scenarios` is shown one event at a
  time (`StartEmpty`, `Scene0` to `Scene7`, `RestartEmpty`, `RScene0` to
  `RScene3`), not as a single `Framework.Exec` over the whole trace.
- Framework.Exec: its own contract states only the shape of the world.
  What traces do to hooks and stacks is stated by
  `Traces.TraceFollowsProtocol`, `Traces.EndExactlyOnce` and
  `Exclusion.ExecKeeps`.

## Findings

| source | as written | input that shows it | evidently intended | confidence | as-written member | corrected member |
|---|---|---|---|---|---|---|
| src/org/usfirst/frc/team4322/commandv2/Command.kt:140-144 | after `currentTop.join()` returns, a Suspend command calls `resumed()` and `execute()` without peeking at the stack again | commands A (Suspend), B and C (Terminate) all require subsystem 0. Start and step A, then start and step B, so the stack is A, B. Step A: it sees B on top, calls `interrupted()` and waits for B. Start and step C, so the stack is A, B, C. Step B: it sees C on top, cancels itself and leaves, so the stack is A, C. Step A: its wait returns and it calls `resumed()` and `execute()` while C owns the subsystem | a resumed Suspend command executes only when it is back on top of its subsystem's stack, and otherwise waits for the new top | not executed | Exclusion.JoinResumes, Scenarios.SourceRunsBelowTop | Commands.StepJob, Exclusion.ExecuteOnlyOnTop, Scenarios.CorrectedWaits |
| src/org/usfirst/frc/team4322/commandv2/Command.kt:128-160 | the coroutine names its job and start time through the command's shared `job` and `startTime` fields, which every `start()` overwrites: it pushes, compares the top with, cancels and removes whatever job the field holds | one Terminate command requiring subsystem 0. Start it and step its job 0; start it again and step job 1, so the stack is 0, 1 and the field holds 1. Step job 0: it takes job 1 for itself and calls `execute()` below it. When job 0 finishes, it removes job 1's entry and clears the field, leaving finished job 0 on the stack. Job 1 never executes again and `cancel()` can no longer stop it, because the field is empty; it leaves only when `isFinished()` or its timeout ends the loop, and finished job 0's entry stays on the stack for good | each job pushes, compares the top with, cancels and removes itself, and times its loop from its own entry | not executed | AsWritten.Step, Scenarios.RestartRunsBelowTop, Scenarios.RestartLeaks | Commands.StepJob, Scenarios.RestartGivesWay, Exclusion.StepKeeps |

=== FILE: as_written.dfy ===
/**
  The body of `invoke()` (Command.kt) exactly as written. It names itself
  through the command's `job` field and times its loop through the
  command's `startTime` field, and every job of the command shares both.
  At entry it pushes the job held in the field and writes the field's start
  time. Each pass compares the stack top with the field, and a displaced
  Terminate job calls the command's `cancel()`. In `finally` it removes the
  field's job from the stack and clears the field. A Suspend job woken by
  its peer's completion calls `resumed()` and `execute()` without looking at
  the stack again.

  While the field holds the stepping job and `startTime` is that job's entry
  time, `Step` is the step of module Commands on the source's resume path
  (`Agrees`). A second `start()` of a running command breaks that condition
  for the first job. The lemmas at the end show what the source then does.
 */
module AsWritten {
  import opened Wrappers
  import CommandStack
  import opened Commands

  /** The command's `job` field, as job `j` reads it. */
  function Me(w: World, j: JobId): (h: Option<JobId>)
    requires WF(w) && j < |w.jobs|
    ensures h.Some? ==> h.value < |w.jobs| && w.jobs[h.value].cmd == CmdOf(w, j)
  {
    HandleOf(w, CmdOf(w, j))
  }

  /** Writes the command's `startTime` and marks the scheduler dirty. */
  function Stamp(w: World, c: CmdId, now: int): (r: World)
    requires WF(w) && c < |w.cmds|
    ensures WF(r) && r == w.(cmds := w.cmds[c := w.cmds[c].(startTime := now)], dirty := true)
  {
    var r := w.(cmds := w.cmds[c := w.cmds[c].(startTime := now)], dirty := true);
    assert forall d :: 0 <= d < |r.cmds| ==> CmdOk(w, d) ==> CmdOk(r, d);
    assert forall t :: 0 <= t < |r.stacks| ==> StackOk(w, t) ==> StackOk(r, t);
    assert forall k :: 0 <= k < |r.jobs| ==> JobOk(w, k) ==> JobOk(r, k);
    r
  }

  /** Replaces stack `s` by `f`, which holds only jobs of commands requiring `s`. */
  function Restack(w: World, s: SubsystemId, f: CommandStack.Stack): (r: World)
    requires WF(w) && s < |w.stacks|
    requires forall x :: x in f ==> x < |w.jobs| && w.jobs[x].cmd < |w.cmds| && w.cmds[w.jobs[x].cmd].cfg.subsystem == Some(s)
    ensures WF(r) && r == w.(stacks := w.stacks[s := f])
  {
    var r := w.(stacks := w.stacks[s := f]);
    assert StackOk(r, s);
    assert forall t :: 0 <= t < |r.stacks| && t != s ==> StackOk(w, t) ==> StackOk(r, t);
    assert forall d :: 0 <= d < |r.cmds| ==> CmdOk(w, d) ==> CmdOk(r, d);
    assert forall k :: 0 <= k < |r.jobs| ==> JobOk(w, k) ==> JobOk(r, k);
    r
  }

  /** Clears the command's `job` field, whichever job it holds, and marks the scheduler dirty. */
  function Vacate(w: World, c: CmdId): (r: World)
    requires WF(w) && c < |w.cmds|
    ensures WF(r) && r == w.(cmds := w.cmds[c := w.cmds[c].(job := None)], dirty := true)
  {
    var r := w.(cmds := w.cmds[c := w.cmds[c].(job := None)], dirty := true);
    assert forall d :: 0 <= d < |r.cmds| ==> CmdOk(w, d) ==> CmdOk(r, d);
    assert forall t :: 0 <= t < |r.stacks| ==> StackOk(w, t) ==> StackOk(r, t);
    assert forall k :: 0 <= k < |r.jobs| ==> JobOk(w, k) ==> JobOk(r, k);
    r
  }

  /**
    Body entry: the job held in the field (if any) is pushed onto the
    subsystem's stack, the scheduler is marked dirty and the command's
    `startTime` is overwritten.
   */
  function Enter(w: World, j: JobId, now: int): (r: World)
    requires WF(w) && j < |w.jobs|
    ensures WF(r) && Frame(w, r, j) && r.dirty && r.jobs[j].pc == Delaying(now)
    ensures r.cmds == w.cmds[CmdOf(w, j) := w.cmds[CmdOf(w, j)].(startTime := now)]
    ensures r.jobs == w.jobs[j := w.jobs[j].(pc := Delaying(now))]
    ensures forall s :: 0 <= s < |w.stacks| ==>
              r.stacks[s] == if SubOf(w, j) == Some(s) && Me(w, j).Some? then CommandStack.Push(w.stacks[s], Me(w, j).value) else w.stacks[s]
  {
    var c := CmdOf(w, j);
    var me := Me(w, j);
    var sub := SubOf(w, j);
    var w1 := Stamp(SetPc(w, j, Delaying(now)), c, now);
    if sub.None? || me.None? then w1
    else
      assert me.value < |w1.jobs| && w1.jobs[me.value].cmd == c;
      assert w1.cmds[c].cfg.subsystem == sub;
      assert StackOk(w1, sub.value);
      Restack(w1, sub.value, CommandStack.Push(w1.stacks[sub.value], me.value))
  }

  /**
    The `finally` block: the job held in the field (if any) leaves the
    subsystem's stack, the scheduler is marked dirty and the field is
    cleared, whichever job it held.
   */
  function Finally(w: World, j: JobId): (r: World)
    requires WF(w) && j < |w.jobs|
    ensures WF(r) && Frame(w, r, j) && r.dirty && r.jobs[j].pc == Done(true)
    ensures r.jobs == w.jobs[j := w.jobs[j].(pc := Done(true))]
    ensures r.cmds == w.cmds[CmdOf(w, j) := w.cmds[CmdOf(w, j)].(job := None)]
    ensures forall s :: 0 <= s < |w.stacks| ==>
              r.stacks[s] == if SubOf(w, j) == Some(s) && Me(w, j).Some? then CommandStack.Remove(w.stacks[s], Me(w, j).value) else w.stacks[s]
  {
    var c := CmdOf(w, j);
    var me := Me(w, j);
    var sub := SubOf(w, j);
    var w1 := Vacate(SetPc(w, j, Done(true)), c);
    if sub.None? || me.None? then w1
    else
      var s := sub.value;
      assert StackOk(w1, s);
      Restack(w1, s, CommandStack.Remove(w1.stacks[s], me.value))
  }

  /** Leaving the loop through `finally`: `end()` is the last hook called. */
  function Finish(w: World, j: JobId, called: seq<Hook>): (r: (World, seq<Hook>))
    requires WF(w) && j < |w.jobs|
    ensures WF(r.0) && Frame(w, r.0, j) && r.1 == called + [End] && r.0.jobs[j].pc == Done(true)
  {
    (Finally(w, j), called + [End])
  }

  /** The end-of-period delay: only a cancellation of this very job makes it throw. */
  function AtDelay(w: World, j: JobId, called: seq<Hook>): (r: (World, seq<Hook>))
    requires WF(w) && j < |w.jobs|
    ensures WF(r.0) && Frame(w, r.0, j) && called <= r.1
    ensures End in r.1[|called|..] <==> w.jobs[j].cancelled
  {
    if w.jobs[j].cancelled then
      var r := Finish(w, j, called);
      assert r.1[|called|..] == [End];
      r
    else
      assert called[|called|..] == [];
      (w, called)
  }

  /** A displaced Terminate job calls `cancel()`, which cancels the job in the field if it is running. */
  function Yield(w: World, j: JobId, st: int, prefix: seq<Hook>): (r: (World, seq<Hook>))
    requires WF(w) && j < |w.jobs|
    ensures WF(r.0) && Frame(w, r.0, j) && prefix <= r.1
  {
    var w1 := Cancel(w, CmdOf(w, j)).0;
    var w2 := SetPc(w1, j, Delaying(st));
    FrameTrans(w, w1, w2, j);
    AtDelay(w2, j, prefix)
  }

  /** A displaced Suspend job calls `interrupted()` and joins the top. */
  function Interrupt(w: World, j: JobId, st: int, top: JobId, o: Obs, prefix: seq<Hook>): (r: (World, seq<Hook>))
    requires WF(w) && j < |w.jobs| && top < |w.jobs|
    ensures WF(r.0) && Frame(w, r.0, j) && prefix <= r.1
  {
    var call := CallHooks([Interrupted], o.raises);
    if call.1 then Finish(w, j, prefix + call.0)
    else (SetPc(w, j, Joining(st, top)), prefix + call.0)
  }

  /** Calls the planned hooks, then either leaves through `finally` or reaches the delay. */
  function Perform(w: World, j: JobId, st: int, planned: seq<Hook>, o: Obs, prefix: seq<Hook>): (r: (World, seq<Hook>))
    requires WF(w) && j < |w.jobs|
    ensures WF(r.0) && Frame(w, r.0, j) && prefix <= r.1
  {
    var call := CallHooks(planned, o.raises);
    if call.1 then Finish(w, j, prefix + call.0)
    else
      var w1 := SetPc(w, j, Delaying(st));
      var r := AtDelay(w1, j, prefix + call.0);
      FrameTrans(w, w1, r.0, j);
      r
  }

  /** One pass of the loop body: the job counts as displaced when the top is not the job in the field. */
  function Iterate(w: World, j: JobId, st: int, o: Obs, prefix: seq<Hook>): (r: (World, seq<Hook>))
    requires WF(w) && j < |w.jobs|
    ensures WF(r.0) && Frame(w, r.0, j) && prefix <= r.1
  {
    var top := Top(w, j);
    if top.Some? && Some(top.value) != Me(w, j) then
      match w.cmds[CmdOf(w, j)].cfg.policy
      case Terminate => Yield(w, j, st, prefix)
      case Suspend => Interrupt(w, j, st, top.value, o, prefix)
    else Perform(w, j, st, [Execute], o, prefix)
  }

  /**
    Resumes job `j` from its suspension point and runs it to the next one.
    The do-while condition reads the command's `startTime`, not the job's.
   */
  function Step(w: World, j: JobId, o: Obs): (r: (World, seq<Hook>))
    requires WF(w) && j < |w.jobs|
    ensures WF(r.0) && Frame(w, r.0, j)
    ensures w.jobs[j].pc.Done? ==> r == (w, [])
    ensures w.jobs[j].pc.Pending? && w.jobs[j].cancelled ==> r.1 == [] && r.0.jobs[j].pc == Done(false)
  {
    var c := CmdOf(w, j);
    match w.jobs[j].pc
    case Pending =>
      if w.jobs[j].cancelled then (SetPc(w, j, Done(false)), [])
      else
        var w1 := Enter(w, j, o.now);
        var call := CallHooks([Initialize], o.raises);
        var r := if call.1 then Finish(w1, j, call.0) else Iterate(w1, j, o.now, o, call.0);
        FrameTrans(w, w1, r.0, j);
        r
    case Delaying(st) =>
      if w.jobs[j].cancelled || LoopExits(w.cmds[c].cfg, w.cmds[c].startTime, o) then Finish(w, j, [])
      else Iterate(w, j, st, o, [])
    case Joining(st, peer) =>
      assert JobOk(w, j);
      if w.jobs[j].cancelled then Finish(w, j, [])
      else if !w.jobs[peer].pc.Done? then (w, [])
      else Perform(w, j, st, [Resumed, Execute], o, [])
    case Done(_) => (w, [])
  }

  // ---------------------------------------------------------------- agreement with module Commands

  /**
    The command has this one job: the `job` field holds `j`, and while `j`
    waits out a period the `startTime` field is `j`'s own entry time.
   */
  predicate Single(w: World, j: JobId)
    requires WF(w) && j < |w.jobs|
  {
    && Me(w, j) == Some(j)
    && (w.jobs[j].pc.Delaying? ==> w.cmds[CmdOf(w, j)].startTime == w.jobs[j].pc.startTime)
  }

  lemma EnterAgrees(w: World, j: JobId, now: int)
    requires WF(w) && j < |w.jobs| && Me(w, j) == Some(j)
    ensures Enter(w, j, now) == Commands.Enter(w, j, now)
  {
    var a := Enter(w, j, now);
    var b := Commands.Enter(w, j, now);
    assert a.stacks == b.stacks;
  }

  lemma FinallyAgrees(w: World, j: JobId)
    requires WF(w) && j < |w.jobs| && Me(w, j) == Some(j)
    ensures Finally(w, j) == Commands.Finally(w, j)
  {
    var a := Finally(w, j);
    var b := Commands.Finally(w, j);
    assert a.stacks == b.stacks;
    assert a.cmds == b.cmds;
  }

  lemma AtDelayAgrees(w: World, j: JobId, called: seq<Hook>)
    requires WF(w) && j < |w.jobs| && Me(w, j) == Some(j) && !w.jobs[j].pc.Done?
    ensures AtDelay(w, j, called) == Commands.AtDelay(w, j, called)
  {
    if w.jobs[j].cancelled {
      FinallyAgrees(w, j);
    }
  }

  lemma YieldAgrees(w: World, j: JobId, st: int, prefix: seq<Hook>)
    requires WF(w) && j < |w.jobs| && Me(w, j) == Some(j) && IsActive(w.jobs[j])
    ensures Yield(w, j, st, prefix) == Commands.Yield(w, j, st, prefix)
  {
    var w1 := CancelJob(w, j);
    assert Cancel(w, CmdOf(w, j)).0 == w1;
    var w2 := SetPc(w1, j, Delaying(st));
    AtDelayAgrees(w2, j, prefix);
  }

  lemma InterruptAgrees(w: World, j: JobId, st: int, top: JobId, o: Obs, prefix: seq<Hook>)
    requires WF(w) && j < |w.jobs| && top < |w.jobs| && Me(w, j) == Some(j) && !w.jobs[j].pc.Done?
    ensures Interrupt(w, j, st, top, o, prefix) == Commands.Interrupt(w, j, st, top, o, prefix)
  {
    if CallHooks([Interrupted], o.raises).1 {
      FinallyAgrees(w, j);
    }
  }

  lemma PerformAgrees(w: World, j: JobId, st: int, planned: seq<Hook>, o: Obs, prefix: seq<Hook>)
    requires WF(w) && j < |w.jobs| && Me(w, j) == Some(j) && !w.jobs[j].pc.Done? && End !in planned
    ensures Perform(w, j, st, planned, o, prefix) == Commands.Perform(w, j, st, planned, o, prefix)
  {
    var call := CallHooks(planned, o.raises);
    if call.1 {
      FinallyAgrees(w, j);
    } else {
      AtDelayAgrees(SetPc(w, j, Delaying(st)), j, prefix + call.0);
    }
  }

  lemma IterateAgrees(w: World, j: JobId, st: int, o: Obs, prefix: seq<Hook>)
    requires WF(w) && j < |w.jobs| && Me(w, j) == Some(j) && IsActive(w.jobs[j])
    ensures Iterate(w, j, st, o, prefix) == Commands.Iterate(w, j, st, o, prefix)
  {
    var top := Top(w, j);
    if top.Some? && top.value != j {
      if w.cmds[CmdOf(w, j)].cfg.policy == Terminate {
        YieldAgrees(w, j, st, prefix);
      } else if CallHooks([Interrupted], o.raises).1 {
        FinallyAgrees(w, j);
      }
    } else {
      PerformAgrees(w, j, st, [Execute], o, prefix);
    }
  }

  /**
    While a command has one job at a time, the body as written and the
    model's body on the source's resume path take the same step.
   */
  lemma StepAgrees(w: World, j: JobId, o: Obs)
    requires WF(w) && j < |w.jobs| && Single(w, j)
    ensures Step(w, j, o) == StepWith(w, j, o, false)
  {
    match w.jobs[j].pc
    case Pending => PendingAgrees(w, j, o);
    case Delaying(st) => DelayingAgrees(w, j, st, o);
    case Joining(st, peer) => JoiningAgrees(w, j, st, peer, o);
    case Done(_) =>
  }

  lemma PendingAgrees(w: World, j: JobId, o: Obs)
    requires WF(w) && j < |w.jobs| && Me(w, j) == Some(j) && w.jobs[j].pc == Pending
    ensures Step(w, j, o) == StepWith(w, j, o, false)
  {
    if !w.jobs[j].cancelled {
      var w1 := Commands.Enter(w, j, o.now);
      EnterAgrees(w, j, o.now);
      assert Me(w1, j) == Some(j) && IsActive(w1.jobs[j]);
      FinallyAgrees(w1, j);
      IterateAgrees(w1, j, o.now, o, CallHooks([Initialize], o.raises).0);
    }
  }

  lemma DelayingAgrees(w: World, j: JobId, st: int, o: Obs)
    requires WF(w) && j < |w.jobs| && Me(w, j) == Some(j) && w.jobs[j].pc == Delaying(st)
    requires w.cmds[CmdOf(w, j)].startTime == st
    ensures Step(w, j, o) == StepWith(w, j, o, false)
  {
    FinallyAgrees(w, j);
    if !w.jobs[j].cancelled {
      IterateAgrees(w, j, st, o, []);
    }
  }

  lemma JoiningAgrees(w: World, j: JobId, st: int, peer: JobId, o: Obs)
    requires WF(w) && j < |w.jobs| && Me(w, j) == Some(j) && w.jobs[j].pc == Joining(st, peer)
    ensures Step(w, j, o) == StepWith(w, j, o, false)
  {
    FinallyAgrees(w, j);
    assert JobOk(w, j);
    PerformAgrees(w, j, st, [Resumed, Execute], o, []);
  }
}

=== FILE: command.dfy ===
/**
  The command lifecycle (Command.kt) as an explicit state machine.

  Each `start()` creates a job: a coroutine that pushes itself onto its
  subsystem's command stack, calls `initialize()`, then loops once per period
  (peek at the stack, execute or react to displacement, wait, test the exit
  condition) and finally calls `end()`, removes itself from the stack, marks
  the scheduler dirty and clears the command's handle. The coroutine is cut at
  its suspension points: a job is `Pending` (started, body not yet entered),
  `Delaying` (waiting out its period), `Joining` (Suspend policy, waiting for
  the command that displaced it) or `Done`. One `StepJob` resumes a job from
  its suspension point and runs it to the next one.

  The source's body names itself through the command's `job` field and
  times itself with the command's `startTime` field, both overwritten by
  every `start()`. This module gives each job its own identity and start
  time: a job pushes, compares with and removes itself, cancels itself when
  displaced, and clears the handle only while it still holds this job.
  Module AsWritten has the body reading the shared fields; the two agree
  while a command has one job at a time.

  The scheduler's fields and the trigger list live in the same `World`
  record, the single context object every operation receives.
 */
module Commands {
  import opened Wrappers
  import CommandStack
  import Triggers

  type CmdId = nat
  type JobId = nat
  type SubsystemId = nat

  datatype Policy = Suspend | Terminate

  /**
    What decides `isFinished()`: a hand-written command or `waitFor` asks
    its predicate (observed per step), `lambda` is always finished, `delay`
    never is.
   */
  datatype Kind = Custom | Lambda | WaitFor | Delay

  /** Fixed per command: kind, interrupt policy, timeout (0 = none), required subsystem. */
  datatype Config = Config(kind: Kind, policy: Policy, timeout: int, subsystem: Option<SubsystemId>)

  datatype Pc =
    | Pending
    | Delaying(startTime: int)
    | Joining(startTime: int, peer: JobId)
    | Done(ranBody: bool)

  /** A job (the coroutine's Deferred): its command, program point and cancellation flag. */
  datatype Job = Job(cmd: CmdId, pc: Pc, cancelled: bool)

  /**
    A command object: its configuration, its `job` handle field and its
    `startTime` field (the last body entry's clock reading).
   */
  datatype Command = Command(cfg: Config, job: Option<JobId>, startTime: int)

  /** The overridable hooks whose calls are observable. */
  datatype Hook = Initialize | Execute | Interrupted | Resumed | End

  /**
    Everything the framework keeps: commands, one command stack per
    registered subsystem (in registration order), all jobs ever created
    (job ids are positions), the scheduler's running list and dirty flag,
    the registered triggers and the global trigger switch.
   */
  datatype World = World(
    cmds: seq<Command>,
    stacks: seq<CommandStack.Stack>,
    jobs: seq<Job>,
    running: seq<CmdId>,
    dirty: bool,
    triggers: seq<Triggers.Trigger>,
    triggersEnabled: bool)

  /**
    What the outside world supplies to one step: the clock, the value
    `isFinished()` would return, and the hooks that raise an exception if
    called during this step.
   */
  datatype Obs = Obs(now: int, finished: bool, raises: set<Hook>)

  // ---------------------------------------------------------------- well-formedness

  predicate CmdOk(w: World, c: CmdId)
    requires c < |w.cmds|
  {
    var cmd := w.cmds[c];
    && (cmd.cfg.subsystem.Some? ==> cmd.cfg.subsystem.value < |w.stacks|)
    && (cmd.job.Some? ==> cmd.job.value < |w.jobs| && w.jobs[cmd.job.value].cmd == c)
  }

  predicate JobOk(w: World, j: JobId)
    requires j < |w.jobs|
  {
    var jb := w.jobs[j];
    jb.cmd < |w.cmds| && (jb.pc.Joining? ==> jb.pc.peer < |w.jobs|)
  }

  /** Every job on stack `s` belongs to a command that requires subsystem `s`. */
  predicate StackOk(w: World, s: SubsystemId)
    requires s < |w.stacks|
  {
    forall x :: x in w.stacks[s] ==>
      x < |w.jobs| && w.jobs[x].cmd < |w.cmds| && w.cmds[w.jobs[x].cmd].cfg.subsystem == Some(s)
  }

  predicate TriggerOk(w: World, t: Triggers.Trigger)
  {
    forall c :: c in Triggers.BoundCommands(t.binds) ==> c < |w.cmds|
  }

  /** All references inside the world point at something that exists. */
  predicate WF(w: World)
  {
    && (forall c :: 0 <= c < |w.cmds| ==> CmdOk(w, c))
    && (forall j :: 0 <= j < |w.jobs| ==> JobOk(w, j))
    && (forall s :: 0 <= s < |w.stacks| ==> StackOk(w, s))
    && (forall i :: 0 <= i < |w.running| ==> w.running[i] < |w.cmds|)
    && (forall i :: 0 <= i < |w.triggers| ==> TriggerOk(w, w.triggers[i]))
  }

  /** The command a job belongs to. */
  function CmdOf(w: World, j: JobId): (c: CmdId)
    requires WF(w) && j < |w.jobs|
    ensures c < |w.cmds|
  {
    assert JobOk(w, j);
    w.jobs[j].cmd
  }

  /** The subsystem a job's command requires. */
  function SubOf(w: World, j: JobId): (s: Option<SubsystemId>)
    requires WF(w) && j < |w.jobs|
    ensures s.Some? ==> s.value < |w.stacks|
  {
    assert CmdOk(w, CmdOf(w, j));
    w.cmds[CmdOf(w, j)].cfg.subsystem
  }

  /** A command's `job` field. */
  function HandleOf(w: World, c: CmdId): (h: Option<JobId>)
    requires WF(w) && c < |w.cmds|
    ensures h.Some? ==> h.value < |w.jobs| && w.jobs[h.value].cmd == c
  {
    assert CmdOk(w, c);
    w.cmds[c].job
  }

  /**
    What one step of job `j` may change: program points of `j` only,
    cancellation flags only upwards, stacks, handles and the dirty flag;
    never configurations, the running list or the triggers.
   */
  predicate Frame(w: World, r: World, j: JobId)
  {
    && |r.jobs| == |w.jobs| && |r.cmds| == |w.cmds| && |r.stacks| == |w.stacks|
    && r.running == w.running && r.triggers == w.triggers && r.triggersEnabled == w.triggersEnabled
    && (forall c :: 0 <= c < |w.cmds| ==> r.cmds[c].cfg == w.cmds[c].cfg)
    && (forall k :: 0 <= k < |w.jobs| ==> r.jobs[k].cmd == w.jobs[k].cmd)
    && (forall k :: 0 <= k < |w.jobs| && k != j ==> r.jobs[k].pc == w.jobs[k].pc)
    && (forall k :: 0 <= k < |w.jobs| && w.jobs[k].cancelled ==> r.jobs[k].cancelled)
  }

  /** The stacks with job `j` taken off the stack of subsystem `sub`, if it has one. */
  function Detach(stacks: seq<CommandStack.Stack>, sub: Option<SubsystemId>, j: JobId): (r: seq<CommandStack.Stack>)
    ensures |r| == |stacks|
    ensures forall s :: 0 <= s < |stacks| ==>
              r[s] == if sub == Some(s) then CommandStack.Remove(stacks[s], j) else stacks[s]
  {
    if sub.Some? && sub.value < |stacks| then stacks[sub.value := CommandStack.Remove(stacks[sub.value], j)]
    else stacks
  }

  /** The commands with `c`'s handle cleared if it still holds job `j`: a later `start()` may have replaced it. */
  function Release(cmds: seq<Command>, c: CmdId, j: JobId): (r: seq<Command>)
    requires c < |cmds|
    ensures |r| == |cmds| && r[c].job != Some(j) && r[c].cfg == cmds[c].cfg
    ensures forall d :: 0 <= d < |cmds| && d != c ==> r[d] == cmds[d]
    ensures cmds[c].job != Some(j) ==> r == cmds
  {
    if cmds[c].job == Some(j) then cmds[c := cmds[c].(job := None)] else cmds
  }

  /** Job `j` left its loop through `finally` between `w` and `r`. */
  predicate Ended(w: World, r: World, j: JobId)
    requires j < |w.jobs| && j < |r.jobs|
  {
    !w.jobs[j].pc.Done? && r.jobs[j].pc == Done(true)
  }

  /**
    How a piece of a step that starts with job `j` inside its loop leaves
    the shared structures: either `j` left through `finally` (its `end()`
    is the last hook, its stack entry is gone, the handle no longer holds it
    and the scheduler is dirty) or none of those changed and `end()` was not
    called.
    `prefix` holds the hooks called before this piece.
   */
  predicate Shape(w: World, r: World, j: JobId, hooks: seq<Hook>, prefix: seq<Hook>)
    requires WF(w) && j < |w.jobs| && j < |r.jobs|
  {
    && prefix <= hooks
    && if Ended(w, r, j) then
         && |hooks| > |prefix| && hooks[|hooks| - 1] == End && End !in hooks[|prefix|..|hooks| - 1]
         && r.stacks == Detach(w.stacks, SubOf(w, j), j) && r.dirty
         && r.cmds == Release(w.cmds, CmdOf(w, j), j)
       else
         && End !in hooks[|prefix|..]
         && r.stacks == w.stacks && r.dirty == w.dirty && r.cmds == w.cmds
  }

  /** `Shape` only looks at stacks, commands, the dirty flag and `j`'s command. */
  lemma ShapeFrom(w: World, w2: World, r: World, j: JobId, hooks: seq<Hook>, prefix: seq<Hook>)
    requires WF(w) && WF(w2) && j < |w.jobs| && j < |r.jobs| && |w2.jobs| == |w.jobs|
    requires w2.stacks == w.stacks && w2.cmds == w.cmds && w2.dirty == w.dirty && w2.jobs[j].cmd == w.jobs[j].cmd
    requires w2.jobs[j].pc.Done? <==> w.jobs[j].pc.Done?
    requires Shape(w2, r, j, hooks, prefix)
    ensures Shape(w, r, j, hooks, prefix)
  {
    assert CmdOf(w2, j) == CmdOf(w, j);
  }

  /** Hooks other than `end()` may move from the prefix into the piece. */
  lemma ShapeWiden(w: World, r: World, j: JobId, hooks: seq<Hook>, p: seq<Hook>, q: seq<Hook>)
    requires WF(w) && j < |w.jobs| && j < |r.jobs|
    requires End !in q && Shape(w, r, j, hooks, p + q)
    ensures Shape(w, r, j, hooks, p)
  {
    assert p <= p + q;
    if Ended(w, r, j) {
      assert hooks[|p|..|hooks| - 1] == q + hooks[|p + q|..|hooks| - 1];
    } else {
      assert hooks[|p|..] == q + hooks[|p + q|..];
    }
  }

  lemma FrameTrans(a: World, b: World, c: World, j: JobId)
    requires Frame(a, b, j) && Frame(b, c, j)
    ensures Frame(a, c, j)
  {
  }

  // ---------------------------------------------------------------- configuration

  /** A command as the base constructor leaves it: Terminate, no timeout, no subsystem. */
  function NewConfig(kind: Kind): Config
  {
    Config(kind, Terminate, 0, None)
  }

  /** The secondary constructor that takes a timeout. */
  function WithTimeout(kind: Kind, timeout: int): Config
  {
    Config(kind, Terminate, timeout, None)
  }

  /** `require(s)`: a command requires at most one subsystem, so this replaces any earlier one. */
  function Require(cfg: Config, s: SubsystemId): Config
  {
    cfg.(subsystem := Some(s))
  }

  /** `lambda(fn)` and `lambda(subsystem, fn)`; `empty` is `lambda {}`. */
  function LambdaCmd(s: Option<SubsystemId>): Config
  {
    if s.Some? then Require(NewConfig(Lambda), s.value) else NewConfig(Lambda)
  }

  function WaitForCmd(): Config
  {
    NewConfig(WaitFor)
  }

  function DelayCmd(seconds: int): Config
  {
    WithTimeout(Delay, seconds)
  }

  function IsFinished(kind: Kind, observed: bool): bool
  {
    match kind
    case Lambda => true
    case Delay => false
    case WaitFor => observed
    case Custom => observed
  }

  /** The timeout half of the loop condition: configured and elapsed. */
  function TimedOut(timeout: int, startTime: int, now: int): bool
  {
    timeout != 0 && startTime + timeout <= now
  }

  /** The negation of the do-while condition. */
  function LoopExits(cfg: Config, startTime: int, o: Obs): bool
  {
    IsFinished(cfg.kind, o.finished) || TimedOut(cfg.timeout, startTime, o.now)
  }

  // ---------------------------------------------------------------- handles

  /** `isActive` of a job: started, not cancelled, not completed. */
  function IsActive(jb: Job): bool
  {
    !jb.cancelled && !jb.pc.Done?
  }

  /** `isRunning()`: the handle is present and its job is active. */
  function IsRunning(w: World, c: CmdId): (r: bool)
    requires WF(w) && c < |w.cmds|
    ensures w.cmds[c].job.None? ==> !r
  {
    match HandleOf(w, c)
    case None => false
    case Some(j) => IsActive(w.jobs[j])
  }

  /** `Job.cancel()`: a request; it has no effect on a completed job. */
  function CancelJob(w: World, j: JobId): (r: World)
    requires WF(w) && j < |w.jobs|
    ensures WF(r) && r == w.(jobs := r.jobs) && |r.jobs| == |w.jobs|
    ensures forall k :: 0 <= k < |w.jobs| ==> r.jobs[k].cmd == w.jobs[k].cmd && r.jobs[k].pc == w.jobs[k].pc
    ensures forall k :: 0 <= k < |w.jobs| && k != j ==> r.jobs[k] == w.jobs[k]
    ensures !IsActive(r.jobs[j])
    ensures w.jobs[j].cancelled ==> r.jobs[j].cancelled
  {
    if w.jobs[j].pc.Done? then w
    else
      var r := w.(jobs := w.jobs[j := w.jobs[j].(cancelled := true)]);
      assert forall c :: 0 <= c < |r.cmds| ==> CmdOk(w, c) ==> CmdOk(r, c);
      assert forall s :: 0 <= s < |r.stacks| ==> StackOk(w, s) ==> StackOk(r, s);
      assert forall k :: 0 <= k < |r.jobs| ==> JobOk(w, k) ==> JobOk(r, k);
      r
  }

  /**
    `cancel()`: cancels the job in the handle if it is running, and reports
    success in every case.
   */
  function Cancel(w: World, c: CmdId): (r: (World, bool))
    requires WF(w) && c < |w.cmds|
    ensures r.1
    ensures WF(r.0) && r.0 == w.(jobs := r.0.jobs) && |r.0.jobs| == |w.jobs|
    ensures !IsRunning(w, c) ==> r.0 == w
    ensures !IsRunning(r.0, c)
    ensures forall k :: 0 <= k < |w.jobs| ==> r.0.jobs[k].cmd == w.jobs[k].cmd && r.0.jobs[k].pc == w.jobs[k].pc
    ensures forall k :: 0 <= k < |w.jobs| && w.jobs[k].cancelled ==> r.0.jobs[k].cancelled
    ensures forall k :: 0 <= k < |w.jobs| && Some(k) != w.cmds[c].job ==> r.0.jobs[k] == w.jobs[k]
  {
    if IsRunning(w, c) then (CancelJob(w, HandleOf(w, c).value), true) else (w, true)
  }

  /**
    `start()`: creates a fresh job for the command, stores it in the
    handle and launches it. A running command is not checked for: a second
    start launches a second job and the handle forgets the first.
   */
  function Start(w: World, c: CmdId): (r: (World, JobId))
    requires WF(w) && c < |w.cmds|
    ensures WF(r.0) && r.1 == |w.jobs|
    ensures r.0 == w.(jobs := w.jobs + [Job(c, Pending, false)], cmds := r.0.cmds)
    ensures |r.0.cmds| == |w.cmds| && r.0.cmds[c] == w.cmds[c].(job := Some(r.1))
    ensures forall d :: 0 <= d < |w.cmds| && d != c ==> r.0.cmds[d] == w.cmds[d]
    ensures IsRunning(r.0, c)
  {
    var j := |w.jobs|;
    var r := w.(jobs := w.jobs + [Job(c, Pending, false)], cmds := w.cmds[c := w.cmds[c].(job := Some(j))]);
    assert forall k :: 0 <= k < |w.jobs| ==> r.jobs[k] == w.jobs[k];
    assert forall d :: 0 <= d < |r.cmds| ==> CmdOk(w, d) ==> CmdOk(r, d);
    assert forall s :: 0 <= s < |r.stacks| ==> StackOk(w, s) ==> StackOk(r, s);
    assert forall k :: 0 <= k < |r.jobs| ==> JobOk(r, k) by {
      forall k | 0 <= k < |r.jobs| ensures JobOk(r, k) {
        if k < |w.jobs| { assert JobOk(w, k); }
      }
    }
    assert forall i :: 0 <= i < |r.triggers| ==> TriggerOk(w, r.triggers[i]) ==> TriggerOk(r, r.triggers[i]);
    (r, j)
  }

  // ---------------------------------------------------------------- the coroutine

  /** Moves job `j` to a new program point; nothing else changes. */
  function SetPc(w: World, j: JobId, pc: Pc): (r: World)
    requires WF(w) && j < |w.jobs|
    requires pc.Joining? ==> pc.peer < |w.jobs|
    ensures WF(r) && r == w.(jobs := r.jobs) && |r.jobs| == |w.jobs|
    ensures r.jobs[j] == w.jobs[j].(pc := pc)
    ensures forall k :: 0 <= k < |w.jobs| && k != j ==> r.jobs[k] == w.jobs[k]
  {
    var r := w.(jobs := w.jobs[j := w.jobs[j].(pc := pc)]);
    assert forall c :: 0 <= c < |r.cmds| ==> CmdOk(w, c) ==> CmdOk(r, c);
    assert forall s :: 0 <= s < |r.stacks| ==> StackOk(w, s) ==> StackOk(r, s);
    assert forall k :: 0 <= k < |r.jobs| ==> JobOk(w, k) ==> JobOk(r, k);
    r
  }

  /** The stack top the job sees: None when its command requires no subsystem. */
  function Top(w: World, j: JobId): (r: Option<JobId>)
    requires WF(w) && j < |w.jobs|
    ensures r.Some? ==> r.value < |w.jobs|
  {
    var sub := SubOf(w, j);
    if sub.None? then None
    else
      var s := sub.value;
      assert StackOk(w, s);
      CommandStack.Peek(w.stacks[s])
  }

  /**
    Calls the planned hooks in order; the first one that raises ends the
    sequence. Answers the hooks actually called and whether one raised.
   */
  function CallHooks(planned: seq<Hook>, raises: set<Hook>): (r: (seq<Hook>, bool))
    ensures r.0 <= planned
    ensures r.1 <==> exists h :: h in planned && h in raises
    ensures !r.1 ==> r.0 == planned
    ensures r.1 ==> |r.0| > 0 && r.0[|r.0| - 1] in raises
    ensures forall i :: 0 <= i < |r.0| - 1 ==> r.0[i] !in raises
  {
    if |planned| == 0 then ([], false)
    else if planned[0] in raises then ([planned[0]], true)
    else
      var rest := CallHooks(planned[1..], raises);
      assert forall h :: h in planned <==> h == planned[0] || h in planned[1..];
      ([planned[0]] + rest.0, rest.1)
  }

  /**
    Body entry: push the job onto its subsystem's stack, mark the scheduler
    dirty and record the start time, both in the job's program point and in
    the command's `startTime` field (which this module never reads).
   */
  function Enter(w: World, j: JobId, now: int): (r: World)
    requires WF(w) && j < |w.jobs|
    ensures WF(r) && |r.jobs| == |w.jobs| && |r.stacks| == |w.stacks|
    ensures r == w.(jobs := r.jobs, stacks := r.stacks, cmds := r.cmds, dirty := true)
    ensures r.cmds == w.cmds[CmdOf(w, j) := w.cmds[CmdOf(w, j)].(startTime := now)]
    ensures r.jobs[j] == w.jobs[j].(pc := Delaying(now))
    ensures forall k :: 0 <= k < |w.jobs| && k != j ==> r.jobs[k] == w.jobs[k]
    ensures forall s :: 0 <= s < |w.stacks| ==>
              r.stacks[s] == if SubOf(w, j) == Some(s) then CommandStack.Push(w.stacks[s], j) else w.stacks[s]
  {
    var c := CmdOf(w, j);
    var w0 := SetPc(w, j, Delaying(now));
    var w1 := w0.(dirty := true, cmds := w0.cmds[c := w0.cmds[c].(startTime := now)]);
    var sub := SubOf(w, j);
    assert WF(w1) by {
      assert forall d :: 0 <= d < |w1.cmds| ==> CmdOk(w0, d) ==> CmdOk(w1, d);
      assert forall s :: 0 <= s < |w1.stacks| ==> StackOk(w0, s) ==> StackOk(w1, s);
      assert forall k :: 0 <= k < |w1.jobs| ==> JobOk(w0, k) ==> JobOk(w1, k);
    }
    if sub.None? then w1
    else
      var s := sub.value;
      var r := w1.(stacks := w1.stacks[s := CommandStack.Push(w1.stacks[s], j)]);
      assert StackOk(r, s) by {
        assert StackOk(w1, s);
      }
      assert forall t :: 0 <= t < |r.stacks| && t != s ==> StackOk(w1, t) ==> StackOk(r, t);
      assert forall d :: 0 <= d < |r.cmds| ==> CmdOk(w1, d) ==> CmdOk(r, d);
      assert forall k :: 0 <= k < |r.jobs| ==> JobOk(w1, k) ==> JobOk(r, k);
      r
  }

  /**
    The `finally` block: `end()` has been called; the job leaves its
    subsystem's stack, the scheduler is marked dirty and the command's
    handle is cleared unless a later `start()` has replaced it.
   */
  function Finally(w: World, j: JobId): (r: World)
    requires WF(w) && j < |w.jobs|
    ensures WF(r) && |r.jobs| == |w.jobs| && |r.stacks| == |w.stacks| && |r.cmds| == |w.cmds|
    ensures r.running == w.running && r.triggers == w.triggers && r.triggersEnabled == w.triggersEnabled
    ensures r.dirty
    ensures r.jobs[j] == w.jobs[j].(pc := Done(true))
    ensures forall k :: 0 <= k < |w.jobs| && k != j ==> r.jobs[k] == w.jobs[k]
    ensures r.cmds == Release(w.cmds, CmdOf(w, j), j)
    ensures HandleOf(r, CmdOf(w, j)) == if HandleOf(w, CmdOf(w, j)) == Some(j) then None else HandleOf(w, CmdOf(w, j))
    ensures forall d :: 0 <= d < |w.cmds| && d != CmdOf(w, j) ==> r.cmds[d] == w.cmds[d]
    ensures r.stacks == Detach(w.stacks, SubOf(w, j), j)
    ensures forall s :: 0 <= s < |w.stacks| ==>
              r.stacks[s] == if SubOf(w, j) == Some(s) then CommandStack.Remove(w.stacks[s], j) else w.stacks[s]
  {
    var c := CmdOf(w, j);
    var sub := SubOf(w, j);
    var stacks := Detach(w.stacks, sub, j);
    var r := w.(cmds := Release(w.cmds, c, j),
                stacks := stacks,
                jobs := w.jobs[j := w.jobs[j].(pc := Done(true))],
                dirty := true);
    assert forall d :: 0 <= d < |r.cmds| ==> CmdOk(w, d) ==> CmdOk(r, d);
    assert forall k :: 0 <= k < |r.jobs| ==> JobOk(w, k) ==> JobOk(r, k);
    assert forall s :: 0 <= s < |r.stacks| ==> StackOk(r, s) by {
      forall s | 0 <= s < |r.stacks| ensures StackOk(r, s) {
        assert StackOk(w, s);
      }
    }
    assert forall i :: 0 <= i < |r.triggers| ==> TriggerOk(w, r.triggers[i]) ==> TriggerOk(r, r.triggers[i]);
    r
  }

  /** Leaving the loop through `finally`: `end()` is the last hook called. */
  function Finish(w: World, j: JobId, called: seq<Hook>): (r: (World, seq<Hook>))
    requires WF(w) && j < |w.jobs| && !w.jobs[j].pc.Done?
    ensures WF(r.0) && Frame(w, r.0, j) && Shape(w, r.0, j, r.1, called)
  {
    (Finally(w, j), called + [End])
  }

  /**
    The suspension point at the end of an iteration (`delay`): a job that
    has been cancelled leaves the loop here.
   */
  function AtDelay(w: World, j: JobId, called: seq<Hook>): (r: (World, seq<Hook>))
    requires WF(w) && j < |w.jobs| && !w.jobs[j].pc.Done?
    ensures WF(r.0) && Frame(w, r.0, j) && Shape(w, r.0, j, r.1, called)
  {
    if w.jobs[j].cancelled then Finish(w, j, called) else (w, called)
  }

  /** A Terminate command that sees another job on top cancels itself and leaves at the delay. */
  function Yield(w: World, j: JobId, st: int, prefix: seq<Hook>): (r: (World, seq<Hook>))
    requires WF(w) && j < |w.jobs| && !w.jobs[j].pc.Done?
    ensures WF(r.0) && Frame(w, r.0, j) && Shape(w, r.0, j, r.1, prefix)
  {
    var w1 := CancelJob(w, j);
    var w2 := SetPc(w1, j, Delaying(st));
    var r := AtDelay(w2, j, prefix);
    FrameTrans(w, w1, w2, j);
    FrameTrans(w, w2, r.0, j);
    ShapeFrom(w, w2, r.0, j, r.1, prefix);
    r
  }

  /** A Suspend command that sees job `top` on top calls `interrupted()` and waits for it. */
  function Interrupt(w: World, j: JobId, st: int, top: JobId, o: Obs, prefix: seq<Hook>): (r: (World, seq<Hook>))
    requires WF(w) && j < |w.jobs| && top < |w.jobs| && !w.jobs[j].pc.Done?
    ensures WF(r.0) && Frame(w, r.0, j) && Shape(w, r.0, j, r.1, prefix)
  {
    var call := CallHooks([Interrupted], o.raises);
    var r := if call.1 then Finish(w, j, prefix + call.0)
             else (SetPc(w, j, Joining(st, top)), prefix + call.0);
    ShapeWiden(w, r.0, j, r.1, prefix, call.0);
    r
  }

  /** Calls the planned hooks, then either leaves through `finally` or reaches the delay. */
  function Perform(w: World, j: JobId, st: int, planned: seq<Hook>, o: Obs, prefix: seq<Hook>): (r: (World, seq<Hook>))
    requires WF(w) && j < |w.jobs| && !w.jobs[j].pc.Done? && End !in planned
    ensures WF(r.0) && Frame(w, r.0, j) && Shape(w, r.0, j, r.1, prefix)
  {
    var call := CallHooks(planned, o.raises);
    if call.1 then
      var r := Finish(w, j, prefix + call.0);
      ShapeWiden(w, r.0, j, r.1, prefix, call.0);
      r
    else
      var w1 := SetPc(w, j, Delaying(st));
      var r := AtDelay(w1, j, prefix + call.0);
      ShapeFrom(w, w1, r.0, j, r.1, prefix + call.0);
      ShapeWiden(w, r.0, j, r.1, prefix, call.0);
      r
  }

  /**
    One pass of the loop body: peek at the stack; if another job owns the
    subsystem, a Terminate command cancels itself and a Suspend command
    calls `interrupted()` and starts waiting for the owner; otherwise
    `execute()` runs. Then the job reaches its end-of-period delay.
   */
  function Iterate(w: World, j: JobId, st: int, o: Obs, prefix: seq<Hook>): (r: (World, seq<Hook>))
    requires WF(w) && j < |w.jobs| && !w.jobs[j].pc.Done?
    ensures WF(r.0) && Frame(w, r.0, j) && Shape(w, r.0, j, r.1, prefix)
  {
    var top := Top(w, j);
    if top.Some? && top.value != j then
      match w.cmds[CmdOf(w, j)].cfg.policy
      case Terminate => Yield(w, j, st, prefix)
      case Suspend => Interrupt(w, j, st, top.value, o, prefix)
    else Perform(w, j, st, [Execute], o, prefix)
  }

  /** Whether a step of `j` enters the body: the job was dispatched and not cancelled first. */
  predicate Enters(w: World, j: JobId)
    requires j < |w.jobs|
  {
    w.jobs[j].pc.Pending? && !w.jobs[j].cancelled
  }

  /** The world as the loop first sees it: after body entry if the step enters the body. */
  function Entered(w: World, j: JobId, now: int): (r: World)
    requires WF(w) && j < |w.jobs|
    ensures WF(r) && |r.jobs| == |w.jobs| && r.jobs[j].cmd == w.jobs[j].cmd && SubOf(r, j) == SubOf(w, j)
    ensures Ended(r, r, j) == false
    ensures r.jobs[j].pc.Done? <==> w.jobs[j].pc.Done?
  {
    if Enters(w, j) then Enter(w, j, now) else w
  }

  /**
    Resumes job `j` from its suspension point and runs it to the next one.
    `recheck` selects how a Suspend job continues once the job it waited
    for has finished: as the source does (`resumed()` and `execute()` at
    once), or looking at the stack again first.
   */
  function StepWith(w: World, j: JobId, o: Obs, recheck: bool): (r: (World, seq<Hook>))
    requires WF(w) && j < |w.jobs|
    ensures WF(r.0) && Frame(w, r.0, j) && Shape(Entered(w, j, o.now), r.0, j, r.1, [])
  {
    if w.jobs[j].pc.Pending? then StepPending(w, j, o)
    else
      assert Entered(w, j, o.now) == w;
      StepResume(w, j, o, recheck)
  }

  /** A job that is past body entry, resumed from its suspension point. */
  function StepResume(w: World, j: JobId, o: Obs, recheck: bool): (r: (World, seq<Hook>))
    requires WF(w) && j < |w.jobs| && !w.jobs[j].pc.Pending?
    ensures WF(r.0) && Frame(w, r.0, j) && Shape(w, r.0, j, r.1, [])
  {
    match w.jobs[j].pc
    case Done(_) => (w, [])
    case Delaying(st) =>
      if w.jobs[j].cancelled || LoopExits(w.cmds[CmdOf(w, j)].cfg, st, o) then Finish(w, j, [])
      else Iterate(w, j, st, o, [])
    case Joining(st, peer) => StepJoining(w, j, st, peer, o, recheck)
  }

  /** A dispatched job: enter the body, `initialize()`, then the first pass of the loop. */
  function StepPending(w: World, j: JobId, o: Obs): (r: (World, seq<Hook>))
    requires WF(w) && j < |w.jobs| && w.jobs[j].pc.Pending?
    ensures WF(r.0) && Frame(w, r.0, j) && Shape(Entered(w, j, o.now), r.0, j, r.1, [])
  {
    if w.jobs[j].cancelled then (SetPc(w, j, Done(false)), [])
    else
      var w1 := Enter(w, j, o.now);
      var call := CallHooks([Initialize], o.raises);
      var r := if call.1 then Finish(w1, j, call.0) else Iterate(w1, j, o.now, o, call.0);
      FrameTrans(w, w1, r.0, j);
      assert [] + call.0 == call.0;
      ShapeWiden(w1, r.0, j, r.1, [], call.0);
      r
  }

  /**
    A job waiting for `peer`: nothing happens until the peer completes;
    then it resumes and executes (with `recheck`, only if no other job has
    taken the top of the stack meanwhile; otherwise it waits for that one).
   */
  function StepJoining(w: World, j: JobId, st: int, peer: JobId, o: Obs, recheck: bool): (r: (World, seq<Hook>))
    requires WF(w) && j < |w.jobs| && w.jobs[j].pc == Joining(st, peer)
    ensures WF(r.0) && Frame(w, r.0, j) && Shape(w, r.0, j, r.1, [])
  {
    assert JobOk(w, j);
    if w.jobs[j].cancelled then Finish(w, j, [])
    else if !w.jobs[peer].pc.Done? then (w, [])
    else
      var top := Top(w, j);
      if recheck && top.Some? && top.value != j then (SetPc(w, j, Joining(st, top.value)), [])
      else Perform(w, j, st, [Resumed, Execute], o, [])
  }

  /** One step of job `j`, resuming only when the job is back on top of its stack. */
  function StepJob(w: World, j: JobId, o: Obs): (r: (World, seq<Hook>))
    requires WF(w) && j < |w.jobs|
    ensures WF(r.0) && Frame(w, r.0, j) && Shape(Entered(w, j, o.now), r.0, j, r.1, [])
  {
    StepWith(w, j, o, true)
  }
}

=== FILE: command_lemmas.dfy ===
/**
  Properties of single steps of the command coroutine (Command.kt,
  `invoke`): the exit protocol, the three reactions to the stack top, the
  do-while exit condition, and the factory commands.
 */
module CommandLemmas {
  import opened Wrappers
  import CommandStack
  import opened Commands
  import AsWritten

  /**
    The `finally` protocol: a step calls `end()` exactly when the job leaves
    its loop in that step; `end()` is then the last hook and is called once,
    the job's stack entry is gone, the handle is cleared if it still holds
    this job, and the scheduler is dirty. A step that does not leave the loop touches none of these.
   */
  lemma ExitProtocol(w: World, j: JobId, o: Obs)
    requires WF(w) && j < |w.jobs|
    ensures var r := StepJob(w, j, o);
      && (End in r.1 <==> Ended(w, r.0, j))
      && (Ended(w, r.0, j) ==>
            && r.1[|r.1| - 1] == End && multiset(r.1)[End] == 1
            && r.0.dirty && r.0.cmds == Release(Entered(w, j, o.now).cmds, CmdOf(w, j), j)
            && HandleOf(r.0, CmdOf(w, j)) == (if HandleOf(w, CmdOf(w, j)) == Some(j) then None else HandleOf(w, CmdOf(w, j)))
            && r.0.stacks == Detach(Entered(w, j, o.now).stacks, SubOf(w, j), j))
      && (!Ended(w, r.0, j) ==>
            && r.0.stacks == Entered(w, j, o.now).stacks && r.0.cmds == Entered(w, j, o.now).cmds
            && r.0.dirty == (w.dirty || Enters(w, j)))
  {
    var r := StepJob(w, j, o);
    var e := Entered(w, j, o.now);
    assert Ended(e, r.0, j) == Ended(w, r.0, j);
    assert r.1[0..] == r.1;
    if Ended(w, r.0, j) {
      var n := |r.1| - 1;
      assert r.1 == r.1[..n] + [End];
      assert End !in r.1[..n];
      assert multiset(r.1) == multiset(r.1[..n]) + multiset{End};
    } else {
      assert e.dirty == (w.dirty || Enters(w, j));
    }
  }

  /** A job that left its loop is no longer on any stack, if the stack held it at most once. */
  lemma ExitLeavesStack(w: World, j: JobId, o: Obs, s: SubsystemId)
    requires WF(w) && j < |w.jobs| && s < |w.stacks|
    requires CommandStack.NoDup(w.stacks[s]) && (Enters(w, j) ==> j !in w.stacks[s])
    ensures var r := StepJob(w, j, o); Ended(w, r.0, j) ==> j !in r.0.stacks[s]
  {
    var r := StepJob(w, j, o);
    ExitProtocol(w, j, o);
    if Ended(w, r.0, j) && SubOf(w, j) == Some(s) {
      var e := Entered(w, j, o.now);
      assert CommandStack.NoDup(e.stacks[s]);
      assert r.0.stacks[s] == CommandStack.Remove(e.stacks[s], j);
    } else if Ended(w, r.0, j) {
      assert StackOk(r.0, s);
      assert r.0.jobs[j].cmd == CmdOf(w, j);
    }
  }

  /**
    The body runs at least once: the step that enters it calls
    `initialize()` and then `execute()`, because the job has just pushed
    itself onto its stack and so sees itself on top.
   */
  lemma FirstPassExecutes(w: World, j: JobId, o: Obs)
    requires WF(w) && j < |w.jobs| && Enters(w, j)
    requires Initialize !in o.raises && Execute !in o.raises
    ensures var r := StepJob(w, j, o);
      r.1 == [Initialize, Execute] || r.1 == [Initialize, Execute, End]
    ensures var r := StepJob(w, j, o);
      SubOf(w, j).Some? ==> CommandStack.Peek(Entered(w, j, o.now).stacks[SubOf(w, j).value]) == Some(j)
  {
    var e := Enter(w, j, o.now);
    assert Top(e, j) == None || Top(e, j) == Some(j);
    assert CallHooks([Initialize], o.raises) == ([Initialize], false);
    assert CallHooks([Execute], o.raises) == ([Execute], false);
  }

  /**
    A command that requires no subsystem never sees a foreign stack top: an
    uncancelled, unfinished job executes on every pass.
   */
  lemma NoSubsystemNeverDisplaced(w: World, j: JobId, o: Obs, st: int)
    requires WF(w) && j < |w.jobs| && SubOf(w, j) == None
    requires w.jobs[j] == Job(CmdOf(w, j), Delaying(st), false)
    requires !LoopExits(w.cmds[CmdOf(w, j)].cfg, st, o) && Execute !in o.raises
    ensures StepJob(w, j, o) == (SetPc(w, j, Delaying(st)), [Execute])
  {
    assert Top(w, j) == None;
    assert CallHooks([Execute], o.raises) == ([Execute], false);
  }

  /**
    Terminate policy: a job that finds another job on top cancels itself
    without executing, calls only `end()`, and leaves; the owner stays on top.
   */
  lemma DisplacedTerminate(w: World, j: JobId, o: Obs, st: int, s: SubsystemId)
    requires WF(w) && j < |w.jobs| && SubOf(w, j) == Some(s)
    requires w.jobs[j] == Job(CmdOf(w, j), Delaying(st), false)
    requires w.cmds[CmdOf(w, j)].cfg.policy == Terminate
    requires !LoopExits(w.cmds[CmdOf(w, j)].cfg, st, o)
    requires CommandStack.NoDup(w.stacks[s]) && CommandStack.Peek(w.stacks[s]).Some?
    requires CommandStack.Peek(w.stacks[s]) != Some(j)
    ensures var r := StepJob(w, j, o);
      && r.1 == [End] && Ended(w, r.0, j)
      && CommandStack.Peek(r.0.stacks[s]) == CommandStack.Peek(w.stacks[s])
  {
    var r := StepJob(w, j, o);
    assert Top(w, j) == CommandStack.Peek(w.stacks[s]);
    ExitProtocol(w, j, o);
    assert r.0.stacks[s] == CommandStack.Remove(w.stacks[s], j);
    CommandStack.RemoveBelowTop(w.stacks[s], j);
  }

  /**
    Suspend policy: a job that finds another job on top calls
    `interrupted()` and starts waiting for that job; nothing executes.
   */
  lemma DisplacedSuspend(w: World, j: JobId, o: Obs, st: int, s: SubsystemId, top: JobId)
    requires WF(w) && j < |w.jobs| && SubOf(w, j) == Some(s)
    requires w.jobs[j] == Job(CmdOf(w, j), Delaying(st), false)
    requires w.cmds[CmdOf(w, j)].cfg.policy == Suspend
    requires !LoopExits(w.cmds[CmdOf(w, j)].cfg, st, o) && Interrupted !in o.raises
    requires CommandStack.Peek(w.stacks[s]) == Some(top) && top != j
    ensures StepJob(w, j, o) == (SetPc(w, j, Joining(st, top)), [Interrupted])
  {
    assert Top(w, j) == Some(top);
    assert CallHooks([Interrupted], o.raises) == ([Interrupted], false);
  }

  /** A waiting job stays put until the job it waits for has completed. */
  lemma JoinWaitsForPeer(w: World, j: JobId, o: Obs, st: int, peer: JobId)
    requires WF(w) && j < |w.jobs| && peer < |w.jobs|
    requires w.jobs[j] == Job(CmdOf(w, j), Joining(st, peer), false) && !w.jobs[peer].pc.Done?
    ensures StepJob(w, j, o) == (w, []) && AsWritten.Step(w, j, o) == (w, [])
  {
  }

  /**
    Once the peer has completed and the job is back on top (or has no
    subsystem), it calls `resumed()` and `execute()` and goes on looping.
   */
  lemma ResumeOnTop(w: World, j: JobId, o: Obs, st: int, peer: JobId)
    requires WF(w) && j < |w.jobs| && peer < |w.jobs|
    requires w.jobs[j] == Job(CmdOf(w, j), Joining(st, peer), false) && w.jobs[peer].pc.Done?
    requires Top(w, j) == None || Top(w, j) == Some(j)
    requires Resumed !in o.raises && Execute !in o.raises
    ensures StepJob(w, j, o) == (SetPc(w, j, Delaying(st)), [Resumed, Execute])
  {
    assert CallHooks([Resumed, Execute], o.raises) == ([Resumed, Execute], false);
  }

  /**
    The exit test: an uncancelled job past its first pass leaves exactly
    when `isFinished()` holds or its timeout has elapsed, whatever its
    interrupt policy; leaving calls only `end()`.
   */
  lemma LoopExitCondition(w: World, j: JobId, o: Obs, st: int)
    requires WF(w) && j < |w.jobs|
    requires w.jobs[j] == Job(CmdOf(w, j), Delaying(st), false)
    requires Top(w, j) == None || Top(w, j) == Some(j)
    requires o.raises == {}
    ensures var r := StepJob(w, j, o);
      && (Ended(w, r.0, j) <==> LoopExits(w.cmds[CmdOf(w, j)].cfg, st, o))
      && r.1 == if LoopExits(w.cmds[CmdOf(w, j)].cfg, st, o) then [End] else [Execute]
  {
    assert CallHooks([Execute], o.raises) == ([Execute], false);
  }

  /** A command with timeout 0 never leaves by timeout, whatever the clock says. */
  lemma ZeroTimeoutNeverExpires(cfg: Config, st: int, o: Obs)
    requires cfg.timeout == 0
    ensures LoopExits(cfg, st, o) <==> IsFinished(cfg.kind, o.finished)
  {
  }

  /**
    `delay(s)` never finishes by itself: it leaves exactly when `s` has
    elapsed since its start (and, with `s == 0`, never).
   */
  lemma DelayEndsOnlyByTimeout(w: World, j: JobId, o: Obs, st: int, seconds: int)
    requires WF(w) && j < |w.jobs| && w.cmds[CmdOf(w, j)].cfg == DelayCmd(seconds)
    requires w.jobs[j] == Job(CmdOf(w, j), Delaying(st), false) && o.raises == {}
    ensures var r := StepJob(w, j, o);
      Ended(w, r.0, j) <==> seconds != 0 && st + seconds <= o.now
  {
    assert SubOf(w, j) == None;
    LoopExitCondition(w, j, o, st);
  }

  /**
    `waitFor(fn)`: with no timeout and no subsystem, it leaves exactly when
    the condition is observed true, and otherwise only executes its empty
    body.
   */
  lemma WaitForEndsOnCondition(w: World, j: JobId, o: Obs, st: int)
    requires WF(w) && j < |w.jobs| && w.cmds[CmdOf(w, j)].cfg == WaitForCmd()
    requires w.jobs[j] == Job(CmdOf(w, j), Delaying(st), false) && o.raises == {}
    ensures var r := StepJob(w, j, o);
      && (Ended(w, r.0, j) <==> o.finished)
      && r.1 == if o.finished then [End] else [Execute]
  {
    assert SubOf(w, j) == None;
    LoopExitCondition(w, j, o, st);
  }

  /** A lambda command past its first pass always leaves at its next step. */
  lemma LambdaExits(w: World, j: JobId, st: int, o: Obs)
    requires WF(w) && j < |w.jobs| && w.jobs[j].pc == Delaying(st) && w.cmds[CmdOf(w, j)].cfg.kind == Lambda
    ensures StepJob(w, j, o) == (Finally(w, j), [End])
  {
    assert StepJob(w, j, o) == StepResume(w, j, o, true) == Finish(w, j, []);
  }

  /** A lambda command's first step enters the body and executes once. */
  lemma LambdaEnters(w: World, j: JobId, o: Obs)
    requires WF(w) && j < |w.jobs| && Enters(w, j) && o.raises == {}
    ensures var (w2, h2) := StepJob(w, j, o);
      && h2 == [Initialize, Execute] && w2.jobs[j] == w.jobs[j].(pc := Delaying(o.now))
      && w2.stacks == Entered(w, j, o.now).stacks
      && w2.cmds == w.cmds[CmdOf(w, j) := w.cmds[CmdOf(w, j)].(startTime := o.now)]
  {
    FirstPassExecutes(w, j, o);
    ExitProtocol(w, j, o);
  }

  /**
    `lambda`: started and stepped twice without faults, it calls
    `initialize()`, `execute()` once, then `end()`; the stacks are left as
    they were found and the handle is cleared.
   */
  lemma LambdaRunsOnce(w: World, c: CmdId, o1: Obs, o2: Obs)
    requires WF(w) && c < |w.cmds| && w.cmds[c].cfg.kind == Lambda
    requires o1.raises == {}
    ensures var (w1, j) := Start(w, c);
      var (w2, h2) := StepJob(w1, j, o1);
      var (w3, h3) := StepJob(w2, j, o2);
      && h2 == [Initialize, Execute] && h3 == [End]
      && w3.jobs[j].pc == Done(true) && w3.stacks == w.stacks && HandleOf(w3, c) == None
  {
    var (w1, j) := Start(w, c);
    assert CmdOf(w1, j) == c && Enters(w1, j);
    LambdaEnters(w1, j, o1);
    var (w2, h2) := StepJob(w1, j, o1);
    LambdaExits(w2, j, o1.now, o2);
    ExitProtocol(w2, j, o2);
    var w3 := StepJob(w2, j, o2).0;
    assert w3.stacks == Detach(Enter(w1, j, o1.now).stacks, SubOf(w1, j), j);
    forall s | 0 <= s < |w1.stacks|
      ensures j !in w1.stacks[s]
    {
      assert StackOk(w, s);
    }
    EnterThenDetach(w1, j, o1.now);
  }

  /** Pushing a job that is on no stack and then detaching it gives back the old stacks. */
  lemma EnterThenDetach(w: World, j: JobId, now: int)
    requires WF(w) && j < |w.jobs| && forall s :: 0 <= s < |w.stacks| ==> j !in w.stacks[s]
    ensures Detach(Enter(w, j, now).stacks, SubOf(w, j), j) == w.stacks
  {
    var r := Detach(Enter(w, j, now).stacks, SubOf(w, j), j);
    forall s | 0 <= s < |w.stacks|
      ensures r[s] == w.stacks[s]
    {
      if SubOf(w, j) == Some(s) {
        CommandStack.PushThenRemove(w.stacks[s], j);
      }
    }
  }

  /**
    A command cancelled after `start()` but before its job is dispatched
    never runs its body: no hook is called, no stack changes, and the
    command's handle keeps the cancelled job.
   */
  lemma CancelBeforeDispatch(w: World, c: CmdId, o: Obs)
    requires WF(w) && c < |w.cmds|
    ensures var (w1, j) := Start(w, c);
      var (w2, _) := Cancel(w1, c);
      var (w3, h) := StepJob(w2, j, o);
      h == [] && w3.jobs[j].pc == Done(false) && w3.stacks == w.stacks && !IsRunning(w3, c)
      && w3.cmds[c].job == Some(j)
  {
    var (w1, j) := Start(w, c);
    var (w2, _) := Cancel(w1, c);
    assert w2.jobs[j].cancelled && w2.jobs[j].pc == Pending;
  }

  /**
    A running command that is cancelled leaves its loop at the next step of
    its job, calling only `end()`.
   */
  lemma CancelEndsAtNextStep(w: World, c: CmdId, o: Obs)
    requires WF(w) && c < |w.cmds| && IsRunning(w, c)
    requires !w.jobs[HandleOf(w, c).value].pc.Pending?
    ensures var j := HandleOf(w, c).value;
      var r := StepJob(Cancel(w, c).0, j, o);
      r.1 == [End] && r.0.jobs[j].pc == Done(true)
  {
  }
}

=== FILE: command_stack.dfy ===
/**
  The command stack a subsystem keeps for arbitration. The Subsystem class is
  not part of this model; its stack is modelled as a sequence of job ids whose
  LAST element is the top (the current owner). `Remove` drops the first
  occurrence only, as `remove(Object)` on a Java list does.
 */
module CommandStack {
  import opened Wrappers

  type JobId = nat
  type Stack = seq<JobId>

  /** No job appears twice on the stack. */
  predicate NoDup(s: Stack)
  {
    forall i, k :: 0 <= i < k < |s| ==> s[i] != s[k]
  }

  /** The current owner, or None on an empty stack. */
  function Peek(s: Stack): (r: Option<JobId>)
    ensures r.None? <==> |s| == 0
    ensures r.Some? ==> r.value in s
  {
    if |s| == 0 then None else Some(s[|s| - 1])
  }

  /** Pushing makes `j` the owner and keeps everything below it in place. */
  function Push(s: Stack, j: JobId): (r: Stack)
    ensures Peek(r) == Some(j)
    ensures |r| == |s| + 1 && r[..|s|] == s
    ensures forall x :: x in r <==> x in s || x == j
    ensures NoDup(s) && j !in s ==> NoDup(r)
  {
    s + [j]
  }

  /** Removes the first occurrence of `j`, keeping the order of the rest. */
  function Remove(s: Stack, j: JobId): (r: Stack)
    ensures j !in s ==> r == s
    ensures j in s ==> |r| == |s| - 1
    ensures forall x :: x != j ==> (x in r <==> x in s)
    ensures NoDup(s) ==> NoDup(r) && j !in r
  {
    if |s| == 0 then []
    else if s[0] == j then
      DropHead(s);
      s[1..]
    else
      var rest := Remove(s[1..], j);
      ConsHead(s, rest, j);
      [s[0]] + rest
  }

  lemma DropHead(s: Stack)
    requires |s| > 0
    ensures forall x :: x != s[0] ==> (x in s[1..] <==> x in s)
    ensures NoDup(s) ==> NoDup(s[1..]) && s[0] !in s[1..]
  {
    assert s == [s[0]] + s[1..];
  }

  lemma ConsHead(s: Stack, rest: Stack, j: JobId)
    requires |s| > 0 && s[0] != j
    requires forall x :: x != j ==> (x in rest <==> x in s[1..])
    requires NoDup(s[1..]) ==> NoDup(rest) && j !in rest
    ensures forall x :: x != j ==> (x in [s[0]] + rest <==> x in s)
    ensures NoDup(s) ==> NoDup([s[0]] + rest) && j !in [s[0]] + rest
  {
    assert s == [s[0]] + s[1..];
    if NoDup(s) {
      ConsNoDup(s[0], rest, s[1..]);
    }
  }

  lemma ConsNoDup(h: JobId, rest: Stack, tail: Stack)
    requires NoDup([h] + tail) && NoDup(rest)
    requires forall x :: x in rest ==> x in tail
    ensures NoDup([h] + rest)
  {
    var r := [h] + rest;
    forall i, k | 0 <= i < k < |r| ensures r[i] != r[k] {
      if i == 0 {
        assert r[k] in tail;
        var m :| 0 <= m < |tail| && tail[m] == r[k];
        assert ([h] + tail)[m + 1] == r[k];
        assert ([h] + tail)[0] == h == r[0];
      } else {
        assert r[i] == rest[i - 1] && r[k] == rest[k - 1];
        assert rest[i - 1] != rest[k - 1];
      }
    }
  }

  /** Removal cuts the stack at the first occurrence `i` of `j`. */
  lemma {:induction false} RemoveFirstOccurrence(s: Stack, j: JobId, i: nat)
    requires i < |s| && s[i] == j && j !in s[..i]
    ensures Remove(s, j) == s[..i] + s[i + 1..]
  {
    if i == 0 {
      assert s[0] == j;
    } else {
      assert s[0] != j by { assert s[0] in s[..i]; }
      var tail := s[1..];
      assert tail[..i - 1] == s[1..i];
      assert j !in tail[..i - 1] by {
        forall x | x in s[1..i] ensures x in s[..i] {}
      }
      RemoveFirstOccurrence(tail, j, i - 1);
      assert s[..i] == [s[0]] + tail[..i - 1];
      assert s[i + 1..] == tail[i..];
    }
  }

  /** Removal takes exactly one copy of `j` out of the stack's contents. */
  lemma {:induction false} RemoveMultiset(s: Stack, j: JobId)
    ensures multiset(Remove(s, j)) == multiset(s) - multiset{j}
  {
    if |s| > 0 {
      assert s == [s[0]] + s[1..];
      if s[0] != j {
        RemoveMultiset(s[1..], j);
      }
    }
  }

  /** A job that pushes itself and is later removed leaves the stack as it found it. */
  lemma {:induction false} PushThenRemove(s: Stack, j: JobId)
    requires j !in s
    ensures Remove(Push(s, j), j) == s
  {
    if |s| == 0 {
    } else {
      assert Push(s, j) == [s[0]] + Push(s[1..], j);
      PushThenRemove(s[1..], j);
      assert s == [s[0]] + s[1..];
    }
  }

  /** Removing a job that is not the owner leaves the owner in place. */
  lemma {:induction false} RemoveBelowTop(s: Stack, j: JobId)
    requires NoDup(s) && Peek(s) != Some(j)
    ensures Peek(Remove(s, j)) == Peek(s)
  {
    if |s| == 0 {
    } else if s[0] == j {
      assert |s| > 1;
    } else {
      var rest := s[1..];
      assert NoDup(rest);
      if |rest| == 0 {
        assert Remove(rest, j) == [];
      } else {
        assert Peek(rest) == Peek(s);
        RemoveBelowTop(rest, j);
      }
    }
  }
}

=== FILE: exclusion.dfy ===
/**
  Subsystem arbitration (Command.kt, `invoke`; Scheduler.kt, `update` and
  `killAllCommands`): the command stacks and the program points of the jobs
  stay consistent under every framework event, and with the corrected resume
  path a job only calls `execute()` or `resumed()` while it is on top of its
  subsystem's stack. The source's resume path breaks that: a Suspend job
  whose peer finished resumes even when a third job is on top.
 */
module Exclusion {
  import opened Wrappers
  import CommandStack
  import opened Commands
  import Lifecycle
  import Scheduler
  import opened Framework
  import AsWritten

  /** Inside the loop of `invoke`: past body entry and not yet past `finally`. */
  predicate InLoop(pc: Pc)
  {
    pc.Delaying? || pc.Joining?
  }

  /** Only jobs inside their loop are on the stack. */
  predicate Looping(w: World, st: CommandStack.Stack)
  {
    forall x :: x in st ==> x < |w.jobs| && InLoop(w.jobs[x].pc)
  }

  /**
    The arbitration invariant: no job is on a stack twice, only jobs inside
    their loop are on stacks, and every such job that has not been
    cancelled is on the stack of the subsystem it requires.
   */
  predicate Arbitrated(w: World)
    requires WF(w)
  {
    && (forall s :: 0 <= s < |w.stacks| ==> CommandStack.NoDup(w.stacks[s]))
    && (forall s :: 0 <= s < |w.stacks| ==> Looping(w, w.stacks[s]))
    && (forall k :: 0 <= k < |w.jobs| && !w.jobs[k].cancelled && InLoop(w.jobs[k].pc) && SubOf(w, k).Some? ==>
          k in w.stacks[SubOf(w, k).value])
  }

  /**
    The invariant survives any change that keeps configurations and program
    points, only raises cancellation flags, only adds dispatched jobs, and
    only takes jobs off stacks that are no longer active.
   */
  lemma ArbitratedNarrowed(w: World, r: World)
    requires WF(w) && WF(r) && Arbitrated(w)
    requires |r.stacks| == |w.stacks| && |r.jobs| >= |w.jobs| && |r.cmds| == |w.cmds|
    requires forall c :: 0 <= c < |w.cmds| ==> r.cmds[c].cfg == w.cmds[c].cfg
    requires forall k :: 0 <= k < |w.jobs| ==> r.jobs[k].cmd == w.jobs[k].cmd && r.jobs[k].pc == w.jobs[k].pc
    requires forall k :: 0 <= k < |w.jobs| && w.jobs[k].cancelled ==> r.jobs[k].cancelled
    requires forall k :: |w.jobs| <= k < |r.jobs| ==> r.jobs[k].pc == Pending
    requires forall s, x :: 0 <= s < |w.stacks| && x in r.stacks[s] ==> x in w.stacks[s]
    requires forall s :: 0 <= s < |w.stacks| ==> CommandStack.NoDup(r.stacks[s])
    requires forall s, x :: 0 <= s < |w.stacks| && x in w.stacks[s] && x !in r.stacks[s] && x < |r.jobs| ==> !IsActive(r.jobs[x])
    ensures Arbitrated(r)
  {
    forall s | 0 <= s < |r.stacks| ensures Looping(r, r.stacks[s]) {
      forall x | x in r.stacks[s] ensures x < |r.jobs| && InLoop(r.jobs[x].pc) {
        assert x in w.stacks[s];
      }
    }
    forall k | 0 <= k < |r.jobs| && !r.jobs[k].cancelled && InLoop(r.jobs[k].pc) && SubOf(r, k).Some?
      ensures k in r.stacks[SubOf(r, k).value]
    {
      assert k < |w.jobs|;
      assert SubOf(r, k) == SubOf(w, k);
      assert k in w.stacks[SubOf(w, k).value];
    }
  }

  lemma StartKeeps(w: World, c: CmdId)
    requires WF(w) && c < |w.cmds| && Arbitrated(w)
    ensures Arbitrated(Start(w, c).0)
  {
    var r := Start(w, c).0;
    ArbitratedNarrowed(w, r);
  }

  lemma CancelKeeps(w: World, c: CmdId)
    requires WF(w) && c < |w.cmds| && Arbitrated(w)
    ensures Arbitrated(Cancel(w, c).0)
  {
    ArbitratedNarrowed(w, Cancel(w, c).0);
  }

  lemma KillAllKeeps(w: World)
    requires WF(w) && Arbitrated(w)
    ensures Arbitrated(Scheduler.KillAllCommands(w))
  {
    ArbitratedNarrowed(w, Scheduler.KillAllCommands(w));
  }

  lemma TickKeeps(w: World, testMode: bool, levels: seq<bool>)
    requires WF(w) && |levels| == |w.triggers| && Arbitrated(w)
    ensures Arbitrated(Scheduler.Update(w, testMode, levels).0)
  {
    var w1 := Scheduler.TriggerPhase(w, levels).0;
    ArbitratedNarrowed(w, w1);
    var r := Scheduler.Reap(w1);
    assert Scheduler.Update(w, testMode, levels).0 == r;
    forall s, x | 0 <= s < |w1.stacks| && x in w1.stacks[s] && x !in r.stacks[s] && x < |r.jobs|
      ensures !IsActive(r.jobs[x])
    {
      Scheduler.DetachDeadOnlyInactive(w1, w1.stacks, w1.running, s, x);
    }
    ArbitratedNarrowed(w1, r);
  }

  // ---------------------------------------------------------------- steps

  /** Body entry keeps the invariant: the entering job was on no stack and now sits on top of its own. */
  lemma EnterKeeps(w: World, j: JobId, now: int)
    requires WF(w) && j < |w.jobs| && Arbitrated(w)
    ensures Arbitrated(Entered(w, j, now))
  {
    if Enters(w, j) {
      var r := Enter(w, j, now);
      assert forall s :: 0 <= s < |w.stacks| ==> j !in w.stacks[s];
      forall s | 0 <= s < |r.stacks| ensures CommandStack.NoDup(r.stacks[s]) {}
      forall s | 0 <= s < |r.stacks| ensures Looping(r, r.stacks[s]) {
        forall x | x in r.stacks[s] ensures x < |r.jobs| && InLoop(r.jobs[x].pc) {
          assert x == j || x in w.stacks[s];
        }
      }
      forall k | 0 <= k < |r.jobs| && !r.jobs[k].cancelled && InLoop(r.jobs[k].pc) && SubOf(r, k).Some?
        ensures k in r.stacks[SubOf(r, k).value]
      {
        assert SubOf(r, k) == SubOf(w, k);
      }
    }
  }

  /** A step that enters the body calls at least `initialize()`. */
  lemma EnteringCalls(w: World, j: JobId, o: Obs)
    requires WF(w) && j < |w.jobs| && Enters(w, j)
    ensures |StepPending(w, j, o).1| > 0
  {
    var w1 := Enter(w, j, o.now);
    var call := CallHooks([Initialize], o.raises);
    assert |call.0| > 0;
    var r := if call.1 then Finish(w1, j, call.0) else Iterate(w1, j, o.now, o, call.0);
    assert StepPending(w, j, o) == r;
    assert call.0 <= r.1;
  }

  /**
    Where a step leaves the job: a job inside its loop stays inside or
    ends through `finally`; a job outside it stays outside.
   */
  lemma StepPc(w: World, j: JobId, o: Obs, recheck: bool)
    requires WF(w) && j < |w.jobs|
    ensures var e := Entered(w, j, o.now); var r := StepWith(w, j, o, recheck).0;
      && (InLoop(e.jobs[j].pc) ==> InLoop(r.jobs[j].pc) || r.jobs[j].pc == Done(true))
      && (!InLoop(e.jobs[j].pc) ==> !InLoop(r.jobs[j].pc))
  {
    var e := Entered(w, j, o.now);
    var r := StepWith(w, j, o, recheck);
    Lifecycle.StepFollowsProtocol(w, j, o, recheck);
    var p := Lifecycle.PhaseOf(w.jobs[j].pc);
    if Enters(w, j) {
      EnteringCalls(w, j, o);
      assert r == StepPending(w, j, o);
      Lifecycle.RunCountsInitialize(p, r.1);
    } else if InLoop(w.jobs[j].pc) {
      Lifecycle.RunCountsInitialize(p, r.1);
    } else if w.jobs[j].pc.Pending? {
      assert r.0.jobs[j].pc == Done(false);
    } else {
      assert r.0 == w;
    }
  }

  /** Every step keeps the invariant, on either resume path. */
  lemma StepKeeps(w: World, j: JobId, o: Obs, recheck: bool)
    requires WF(w) && j < |w.jobs| && Arbitrated(w)
    ensures Arbitrated(StepWith(w, j, o, recheck).0)
  {
    var e := Entered(w, j, o.now);
    var r := StepWith(w, j, o, recheck).0;
    EnterKeeps(w, j, o.now);
    StepPc(w, j, o, recheck);
    assert Frame(e, r, j) by {
      assert forall k :: 0 <= k < |w.jobs| && k != j ==> e.jobs[k] == w.jobs[k];
      assert e.jobs[j].cancelled == w.jobs[j].cancelled;
    }
    if Ended(e, r, j) {
      SettledEnded(e, r, j);
    } else {
      SettledKept(e, r, j);
    }
  }

  /** A job that left through `finally` is off every stack; nothing else moved. */
  lemma SettledEnded(e: World, r: World, j: JobId)
    requires WF(e) && WF(r) && j < |e.jobs| && Arbitrated(e) && Frame(e, r, j)
    requires Ended(e, r, j) && r.stacks == Detach(e.stacks, SubOf(e, j), j)
    ensures Arbitrated(r)
  {
    var sub := SubOf(e, j);
    forall s | 0 <= s < |r.stacks| ensures CommandStack.NoDup(r.stacks[s]) && j !in r.stacks[s] {
      if sub == Some(s) {
        assert r.stacks[s] == CommandStack.Remove(e.stacks[s], j);
      } else {
        assert r.stacks[s] == e.stacks[s];
        assert StackOk(e, s);
      }
    }
    forall s | 0 <= s < |r.stacks| ensures Looping(r, r.stacks[s]) {
      forall x | x in r.stacks[s] ensures x < |r.jobs| && InLoop(r.jobs[x].pc) {
        assert x in e.stacks[s];
      }
    }
    forall k | 0 <= k < |r.jobs| && !r.jobs[k].cancelled && InLoop(r.jobs[k].pc) && SubOf(r, k).Some?
      ensures k in r.stacks[SubOf(r, k).value]
    {
      assert SubOf(r, k) == SubOf(e, k);
      assert k in e.stacks[SubOf(e, k).value];
    }
  }

  /** A job still inside its loop (or never in it) leaves the stacks as they were. */
  lemma SettledKept(e: World, r: World, j: JobId)
    requires WF(e) && WF(r) && j < |e.jobs| && Arbitrated(e) && Frame(e, r, j)
    requires InLoop(e.jobs[j].pc) ==> InLoop(r.jobs[j].pc) || r.jobs[j].pc == Done(true)
    requires !InLoop(e.jobs[j].pc) ==> !InLoop(r.jobs[j].pc)
    requires !Ended(e, r, j) && r.stacks == e.stacks
    ensures Arbitrated(r)
  {
    forall s | 0 <= s < |r.stacks| ensures Looping(r, r.stacks[s]) {
      forall x | x in r.stacks[s] ensures x < |r.jobs| && InLoop(r.jobs[x].pc) {
        assert x in e.stacks[s];
      }
    }
    forall k | 0 <= k < |r.jobs| && !r.jobs[k].cancelled && InLoop(r.jobs[k].pc) && SubOf(r, k).Some?
      ensures k in r.stacks[SubOf(r, k).value]
    {
      assert SubOf(r, k) == SubOf(e, k);
    }
  }

  /** Every event keeps the invariant. */
  lemma ExecOneKeeps(w: World, e: Event, recheck: bool)
    requires WF(w) && Arbitrated(w)
    ensures Arbitrated(ExecOne(w, e, recheck).0)
  {
    match e
    case StartCmd(c) => if c < |w.cmds| { StartKeeps(w, c); }
    case CancelCmd(c) => if c < |w.cmds| { CancelKeeps(w, c); }
    case Resume(j, o) => if j < |w.jobs| { StepKeeps(w, j, o, recheck); }
    case Tick(testMode, levels) => if |levels| == |w.triggers| { TickKeeps(w, testMode, levels); }
    case KillAll => KillAllKeeps(w);
  }

  /** Every trace keeps the invariant; a world before anything has run satisfies it. */
  lemma {:induction false} ExecKeeps(w: World, evs: seq<Event>, recheck: bool)
    requires WF(w) && Arbitrated(w)
    ensures Arbitrated(Exec(w, evs, recheck).0)
    decreases |evs|
  {
    if |evs| > 0 {
      var w1 := Exec(w, evs[..|evs| - 1], recheck).0;
      ExecKeeps(w, evs[..|evs| - 1], recheck);
      ExecOneKeeps(w1, evs[|evs| - 1], recheck);
    }
  }

  lemma InitArbitrated(cfgs: seq<Config>, n: nat, triggers: seq<Triggers.Trigger>, enabled: bool)
    requires forall i :: 0 <= i < |cfgs| ==> cfgs[i].subsystem.Some? ==> cfgs[i].subsystem.value < n
    requires forall i, c :: 0 <= i < |triggers| && c in Triggers.BoundCommands(triggers[i].binds) ==> c < |cfgs|
    ensures Arbitrated(Init(cfgs, n, triggers, enabled))
  {
  }

  // ---------------------------------------------------------------- mutual exclusion

  /** `execute()` or `resumed()` was called. */
  predicate Runs(hooks: seq<Hook>)
  {
    Execute in hooks || Resumed in hooks
  }

  /** A job that gives way to the top of the stack runs neither `execute()` nor `resumed()`. */
  lemma YieldDoesNotRun(w: World, j: JobId, st: int)
    requires WF(w) && j < |w.jobs| && !w.jobs[j].pc.Done?
    ensures !Runs(Yield(w, j, st, []).1)
  {
    var w1 := CancelJob(w, j);
    var w2 := SetPc(w1, j, Delaying(st));
    assert Yield(w, j, st, []).1 == AtDelay(w2, j, []).1;
  }

  lemma InterruptDoesNotRun(w: World, j: JobId, st: int, top: JobId, o: Obs)
    requires WF(w) && j < |w.jobs| && top < |w.jobs| && !w.jobs[j].pc.Done?
    ensures !Runs(Interrupt(w, j, st, top, o, []).1)
  {
    var call := CallHooks([Interrupted], o.raises);
    assert call.0 <= [Interrupted];
  }

  /** A job inside its loop that is not on top of its stack gives way, whatever state it resumes from. */
  lemma BelowTopGivesWay(w: World, j: JobId, o: Obs, s: SubsystemId)
    requires WF(w) && j < |w.jobs| && InLoop(w.jobs[j].pc) && SubOf(w, j) == Some(s)
    requires !w.jobs[j].cancelled ==> j in w.stacks[s]
    requires CommandStack.Peek(w.stacks[s]) != Some(j)
    ensures !Runs(StepResume(w, j, o, true).1)
  {
    if !w.jobs[j].cancelled {
      var top := Top(w, j);
      assert top.Some? && top.value != j;
      match w.jobs[j].pc
      case Delaying(st) => DelayingGivesWay(w, j, st, o, top.value);
      case Joining(st, peer) => JoiningGivesWay(w, j, st, peer, o);
    } else {
      match w.jobs[j].pc
      case Delaying(st) =>
        assert StepResume(w, j, o, true).1 == Finish(w, j, []).1;
      case Joining(st, peer) =>
        assert StepResume(w, j, o, true) == StepJoining(w, j, st, peer, o, true);
        assert StepJoining(w, j, st, peer, o, true).1 == Finish(w, j, []).1;
    }
  }

  lemma JoiningGivesWay(w: World, j: JobId, st: int, peer: JobId, o: Obs)
    requires WF(w) && j < |w.jobs| && w.jobs[j].pc == Joining(st, peer) && !w.jobs[j].cancelled
    requires Top(w, j).Some? && Top(w, j).value != j
    ensures !Runs(StepResume(w, j, o, true).1)
  {
    assert StepResume(w, j, o, true) == StepJoining(w, j, st, peer, o, true);
  }

  lemma DelayingGivesWay(w: World, j: JobId, st: int, o: Obs, top: JobId)
    requires WF(w) && j < |w.jobs| && w.jobs[j].pc == Delaying(st) && !w.jobs[j].cancelled
    requires Top(w, j) == Some(top) && top != j
    ensures !Runs(StepResume(w, j, o, true).1)
  {
    if !LoopExits(w.cmds[CmdOf(w, j)].cfg, st, o) {
      assert StepResume(w, j, o, true) == Iterate(w, j, st, o, []);
      IterateGivesWay(w, j, st, o, top);
    } else {
      assert StepResume(w, j, o, true).1 == Finish(w, j, []).1 == [End];
    }
  }

  lemma IterateGivesWay(w: World, j: JobId, st: int, o: Obs, top: JobId)
    requires WF(w) && j < |w.jobs| && !w.jobs[j].pc.Done?
    requires Top(w, j) == Some(top) && top != j
    ensures !Runs(Iterate(w, j, st, o, []).1)
  {
    YieldDoesNotRun(w, j, st);
    InterruptDoesNotRun(w, j, st, top, o);
    assert Iterate(w, j, st, o, []).1 in {Yield(w, j, st, []).1, Interrupt(w, j, st, top, o, []).1};
  }

  /**
    With the corrected resume path, in a world that keeps the arbitration
    invariant, a step that calls `execute()` or `resumed()` is taken by
    the job on top of its subsystem's stack.
   */
  lemma ExecuteOnlyOnTop(w: World, j: JobId, o: Obs)
    requires WF(w) && j < |w.jobs| && Arbitrated(w)
    ensures var hooks := StepJob(w, j, o).1; var sub := SubOf(w, j);
      Runs(hooks) && sub.Some? ==> CommandStack.Peek(Entered(w, j, o.now).stacks[sub.value]) == Some(j)
  {
    var sub := SubOf(w, j);
    if sub.Some? && !w.jobs[j].pc.Pending? {
      var s := sub.value;
      assert Entered(w, j, o.now) == w;
      assert StepJob(w, j, o) == StepResume(w, j, o, true);
      if InLoop(w.jobs[j].pc) && CommandStack.Peek(w.stacks[s]) != Some(j) {
        BelowTopGivesWay(w, j, o, s);
      }
    }
  }

  /** The corrected step, by definition, never runs a job that is not on top; the source's does. */
  lemma ExecOnlyOnTop(w: World, evs: seq<Event>, j: JobId, o: Obs)
    requires WF(w) && Arbitrated(w)
    ensures var w1 := Exec(w, evs, true).0; var sub := j < |w1.jobs| && SubOf(w1, j).Some?;
      sub && Runs(StepJob(w1, j, o).1) ==> CommandStack.Peek(Entered(w1, j, o.now).stacks[SubOf(w1, j).value]) == Some(j)
  {
    var w1 := Exec(w, evs, true).0;
    ExecKeeps(w, evs, true);
    if j < |w1.jobs| {
      ExecuteOnlyOnTop(w1, j, o);
    }
  }

  // ---------------------------------------------------------------- the source's resume path

  /** As written, a resumed Suspend job whose peer has finished runs its body at once, whatever the stack holds. */
  lemma JoinResumes(w: World, j: JobId, st: int, peer: JobId, o: Obs)
    requires WF(w) && j < |w.jobs| && w.jobs[j].pc == Joining(st, peer) && !w.jobs[j].cancelled
    requires peer < |w.jobs| && w.jobs[peer].pc.Done? && o.raises == {}
    ensures AsWritten.Step(w, j, o) == (SetPc(w, j, Delaying(st)), [Resumed, Execute])
  {
    var w1 := SetPc(w, j, Delaying(st));
    assert CallHooks([Resumed, Execute], o.raises) == ([Resumed, Execute], false);
    assert AsWritten.Step(w, j, o) == AsWritten.Perform(w, j, st, [Resumed, Execute], o, []);
    assert AsWritten.Perform(w, j, st, [Resumed, Execute], o, []) == AsWritten.AtDelay(w1, j, [] + [Resumed, Execute]);
    assert [] + [Resumed, Execute] == [Resumed, Execute];
  }

  /** With the re-check, the same job waits again, now for whoever holds the top. */
  lemma JoinRechecks(w: World, j: JobId, st: int, peer: JobId, o: Obs, top: JobId)
    requires WF(w) && j < |w.jobs| && w.jobs[j].pc == Joining(st, peer) && !w.jobs[j].cancelled
    requires peer < |w.jobs| && w.jobs[peer].pc.Done? && Top(w, j) == Some(top) && top != j
    ensures StepJob(w, j, o) == (SetPc(w, j, Joining(st, top)), [])
  {
    assert StepJob(w, j, o) == StepJoining(w, j, st, peer, o, true);
  }
}

=== FILE: framework.dfy ===
/**
  The framework as a whole: a world reacts to a sequence of events (a
  command's `start()` or `cancel()`, one resumption of a job's coroutine, a
  scheduler tick, `killAllCommands()`), and records which job called which
  hook. Events naming a command or job that does not exist, or a tick with
  the wrong number of trigger levels, change nothing.
 */
module Framework {
  import opened Wrappers
  import Triggers
  import opened Commands
  import Scheduler

  datatype Event =
    | StartCmd(cmd: CmdId)
    | CancelCmd(cmd: CmdId)
    | Resume(job: JobId, obs: Obs)
    | Tick(testMode: bool, levels: seq<bool>)
    | KillAll

  /** One hook call, and the job that made it. */
  datatype Emit = Emit(job: JobId, hook: Hook)

  /** A world with `n` subsystems and the given commands and triggers, before anything has run. */
  function Init(cfgs: seq<Config>, n: nat, triggers: seq<Triggers.Trigger>, enabled: bool): (r: World)
    requires forall i :: 0 <= i < |cfgs| ==> cfgs[i].subsystem.Some? ==> cfgs[i].subsystem.value < n
    requires forall i, c :: 0 <= i < |triggers| && c in Triggers.BoundCommands(triggers[i].binds) ==> c < |cfgs|
    ensures WF(r) && |r.jobs| == 0 && |r.stacks| == n && |r.cmds| == |cfgs|
    ensures forall s :: 0 <= s < n ==> r.stacks[s] == []
  {
    var r := World(seq(|cfgs|, i requires 0 <= i < |cfgs| => Command(cfgs[i], None, 0)),
                   seq(n, _ => []), [], [], true, triggers, enabled);
    assert forall c :: 0 <= c < |r.cmds| ==> CmdOk(r, c);
    assert forall s :: 0 <= s < |r.stacks| ==> StackOk(r, s);
    assert forall i :: 0 <= i < |r.triggers| ==> TriggerOk(r, r.triggers[i]);
    r
  }

  /** Tags each hook with the job that called it. */
  function Tag(j: JobId, hs: seq<Hook>): (r: seq<Emit>)
    ensures |r| == |hs| && forall i :: 0 <= i < |hs| ==> r[i] == Emit(j, hs[i])
  {
    if |hs| == 0 then [] else [Emit(j, hs[0])] + Tag(j, hs[1..])
  }

  /** Everything but the stepped job keeps its program point; jobs created on the way are dispatched and not entered. */
  predicate Evolves(w: World, r: World, stepped: Option<JobId>)
  {
    && |r.jobs| >= |w.jobs| && |r.cmds| == |w.cmds| && |r.stacks| == |w.stacks|
    && (forall c :: 0 <= c < |w.cmds| ==> r.cmds[c].cfg == w.cmds[c].cfg)
    && (forall k :: 0 <= k < |w.jobs| ==> r.jobs[k].cmd == w.jobs[k].cmd)
    && (forall k :: 0 <= k < |w.jobs| && stepped != Some(k) ==> r.jobs[k].pc == w.jobs[k].pc)
    && (forall k :: |w.jobs| <= k < |r.jobs| ==> r.jobs[k].pc == Pending)
  }

  /** The job an event resumes, if it names one that exists. */
  function Stepped(w: World, e: Event): Option<JobId>
  {
    if e.Resume? && e.job < |w.jobs| then Some(e.job) else None
  }

  /** The events that resume no coroutine. */
  function Control(w: World, e: Event): (r: World)
    requires WF(w) && !e.Resume?
    ensures WF(r) && Evolves(w, r, None)
  {
    match e
    case StartCmd(c) =>
      if c < |w.cmds| then
        var r := Start(w, c).0;
        assert forall k :: 0 <= k < |w.jobs| ==> r.jobs[k] == w.jobs[k];
        r
      else w
    case CancelCmd(c) => if c < |w.cmds| then Cancel(w, c).0 else w
    case Tick(testMode, levels) =>
      if |levels| == |w.triggers| then Scheduler.Update(w, testMode, levels).0 else w
    case KillAll => Scheduler.KillAllCommands(w)
  }

  /**
    One event. `recheck` selects the resume path of Suspend commands: the
    source's (false) or the corrected one (true).
   */
  function ExecOne(w: World, e: Event, recheck: bool): (r: (World, seq<Emit>))
    requires WF(w)
    ensures WF(r.0) && Evolves(w, r.0, Stepped(w, e))
    ensures Stepped(w, e).None? ==> r.1 == []
    ensures Stepped(w, e).Some? ==> r.1 == Tag(e.job, StepWith(w, e.job, e.obs, recheck).1)
    ensures forall i :: 0 <= i < |r.1| ==> r.1[i].job < |r.0.jobs|
  {
    if !e.Resume? then (Control(w, e), [])
    else if e.job < |w.jobs| then
      var s := StepWith(w, e.job, e.obs, recheck);
      (s.0, Tag(e.job, s.1))
    else (w, [])
  }

  /** A whole trace of events, from the first; the log holds every hook call in order. */
  function Exec(w: World, evs: seq<Event>, recheck: bool): (r: (World, seq<Emit>))
    requires WF(w)
    ensures WF(r.0) && |r.0.jobs| >= |w.jobs| && |r.0.cmds| == |w.cmds| && |r.0.stacks| == |w.stacks|
    ensures forall c :: 0 <= c < |w.cmds| ==> r.0.cmds[c].cfg == w.cmds[c].cfg
    ensures forall k :: 0 <= k < |w.jobs| ==> r.0.jobs[k].cmd == w.jobs[k].cmd
    ensures forall i :: 0 <= i < |r.1| ==> r.1[i].job < |r.0.jobs|
    decreases |evs|
  {
    if |evs| == 0 then (w, [])
    else
      var (w1, log1) := Exec(w, evs[..|evs| - 1], recheck);
      var (w2, log2) := ExecOne(w1, evs[|evs| - 1], recheck);
      (w2, log1 + log2)
  }
}

=== FILE: lifecycle.dfy ===
/**
  The order in which a command's hooks are called over its whole life
  (Command.kt, `invoke`): `initialize()` first, then `execute()` passes,
  with `interrupted()` ... `resumed()` around each wait, and `end()` once,
  last. The protocol is an automaton over the job's phase; every step of a
  job follows it, and so does every trace of framework events.
 */
module Lifecycle {
  import opened Wrappers
  import opened Commands

  /** Where a job stands in the hook protocol. */
  datatype Phase = Fresh | Active | Displaced | Ended

  /** The phase a program point stands for; a job dropped before its body ran never left `Fresh`. */
  function PhaseOf(pc: Pc): Phase
  {
    match pc
    case Pending => Fresh
    case Delaying(_) => Active
    case Joining(_, _) => Displaced
    case Done(ranBody) => if ranBody then Ended else Fresh
  }

  /** The hook protocol: which hook may come next, and the phase it leads to. */
  function Accept(p: Phase, h: Hook): (r: Option<Phase>)
    ensures r.Some? ==> p != Ended
    ensures r == Some(Ended) <==> h == End && (p == Active || p == Displaced)
    ensures h == Initialize ==> (r.Some? <==> p == Fresh)
    ensures p == Fresh && r.Some? ==> h == Initialize
    ensures r != Some(Fresh)
  {
    match (p, h)
    case (Fresh, Initialize) => Some(Active)
    case (Active, Execute) => Some(Active)
    case (Active, Interrupted) => Some(Displaced)
    case (Displaced, Resumed) => Some(Active)
    case (Active, End) => Some(Ended)
    case (Displaced, End) => Some(Ended)
    case _ => None
  }

  /** Runs the automaton over a hook sequence; None if some hook is out of protocol. */
  function Run(p: Phase, hs: seq<Hook>): Option<Phase>
    decreases |hs|
  {
    if |hs| == 0 then Some(p)
    else
      match Accept(p, hs[0])
      case None => None
      case Some(q) => Run(q, hs[1..])
  }

  lemma {:induction false} RunAppend(p: Phase, a: seq<Hook>, b: seq<Hook>)
    ensures Run(p, a + b) == match Run(p, a) case None => None case Some(q) => Run(q, b)
    decreases |a|
  {
    if |a| == 0 {
      assert a + b == b;
    } else {
      assert (a + b)[0] == a[0] && (a + b)[1..] == a[1..] + b;
      match Accept(p, a[0])
      case None =>
      case Some(q) => RunAppend(q, a[1..], b);
    }
  }

  /** `end()` ends the protocol: nothing is accepted after it and it is accepted at most once. */
  lemma {:induction false} RunCountsEnd(p: Phase, hs: seq<Hook>)
    requires Run(p, hs).Some?
    ensures p == Ended ==> hs == []
    ensures multiset(hs)[End] == if Run(p, hs) == Some(Ended) && p != Ended then 1 else 0
    decreases |hs|
  {
    if |hs| > 0 {
      var q := Accept(p, hs[0]).value;
      RunCountsEnd(q, hs[1..]);
      assert hs == [hs[0]] + hs[1..];
      assert multiset(hs) == multiset{hs[0]} + multiset(hs[1..]);
    }
  }

  /** `initialize()` opens the protocol: it comes first, and only a job that leaves `Fresh` calls it, once. */
  lemma {:induction false} RunCountsInitialize(p: Phase, hs: seq<Hook>)
    requires Run(p, hs).Some?
    ensures p == Fresh && |hs| > 0 ==> hs[0] == Initialize
    ensures p != Fresh || |hs| > 0 ==> Run(p, hs) != Some(Fresh)
    ensures multiset(hs)[Initialize] == if p == Fresh && Run(p, hs) != Some(Fresh) then 1 else 0
    decreases |hs|
  {
    if |hs| > 0 {
      var q := Accept(p, hs[0]).value;
      RunCountsInitialize(q, hs[1..]);
      assert Run(p, hs) == Run(q, hs[1..]);
      assert hs == [hs[0]] + hs[1..];
      assert multiset(hs) == multiset{hs[0]} + multiset(hs[1..]);
    }
  }

  // ---------------------------------------------------------------- single steps

  lemma FinishFollows(w: World, j: JobId, called: seq<Hook>, from: Phase)
    requires WF(w) && j < |w.jobs| && !w.jobs[j].pc.Done?
    requires from == Active || from == Displaced
    ensures var r := Finish(w, j, called);
      r.1 == called + [End] && Run(from, [End]) == Some(PhaseOf(r.0.jobs[j].pc))
  {
  }

  lemma AtDelayFollows(w: World, j: JobId, called: seq<Hook>)
    requires WF(w) && j < |w.jobs| && w.jobs[j].pc.Delaying?
    ensures var r := AtDelay(w, j, called);
      r.1[..|called|] == called && Run(Active, r.1[|called|..]) == Some(PhaseOf(r.0.jobs[j].pc))
  {
    var r := AtDelay(w, j, called);
    if w.jobs[j].cancelled {
      assert r.1[|called|..] == [End];
    } else {
      assert r.1[|called|..] == [];
    }
  }

  /** Splits the hooks after `p + q` into `q` and the rest. */
  lemma SuffixSplit(hs: seq<Hook>, p: seq<Hook>, q: seq<Hook>)
    requires p + q <= hs
    ensures hs[|p|..] == q + hs[|p + q|..] && hs[..|p|] == p
  {
    assert hs[..|p + q|] == p + q;
  }

  /** The hooks a fault-free or faulting call of the planned hooks leaves the job in `Active`. */
  lemma CallFollows(planned: seq<Hook>, from: Phase, raises: set<Hook>)
    requires (planned == [Execute] && from == Active) || (planned == [Resumed, Execute] && from == Displaced)
    ensures Run(from, CallHooks(planned, raises).0) == Some(Active)
  {
    var call := CallHooks(planned, raises);
    if planned == [Resumed, Execute] {
      assert call.0 == [Resumed] || call.0 == [Resumed, Execute];
    } else {
      assert call.0 == [Execute];
    }
  }

  lemma PerformFollows(w: World, j: JobId, st: int, planned: seq<Hook>, o: Obs, prefix: seq<Hook>, from: Phase)
    requires WF(w) && j < |w.jobs| && !w.jobs[j].pc.Done?
    requires (planned == [Execute] && from == Active) || (planned == [Resumed, Execute] && from == Displaced)
    ensures var r := Perform(w, j, st, planned, o, prefix);
      r.1[..|prefix|] == prefix && Run(from, r.1[|prefix|..]) == Some(PhaseOf(r.0.jobs[j].pc))
  {
    var r := Perform(w, j, st, planned, o, prefix);
    var call := CallHooks(planned, o.raises);
    CallFollows(planned, from, o.raises);
    if call.1 {
      assert r == Finish(w, j, prefix + call.0);
      assert r.1 == (prefix + call.0) + [End];
      SuffixSplit(r.1, prefix, call.0);
      RunAppend(from, call.0, [End]);
    } else {
      var w1 := SetPc(w, j, Delaying(st));
      assert r == AtDelay(w1, j, prefix + call.0);
      AtDelayFollows(w1, j, prefix + call.0);
      SuffixSplit(r.1, prefix, call.0);
      RunAppend(from, call.0, r.1[|prefix + call.0|..]);
    }
  }

  lemma YieldFollows(w: World, j: JobId, st: int, prefix: seq<Hook>)
    requires WF(w) && j < |w.jobs| && w.jobs[j].pc.Delaying?
    ensures var r := Yield(w, j, st, prefix);
      r.1[..|prefix|] == prefix && Run(Active, r.1[|prefix|..]) == Some(PhaseOf(r.0.jobs[j].pc))
  {
    var w1 := CancelJob(w, j);
    AtDelayFollows(SetPc(w1, j, Delaying(st)), j, prefix);
  }

  lemma InterruptFollows(w: World, j: JobId, st: int, top: JobId, o: Obs, prefix: seq<Hook>)
    requires WF(w) && j < |w.jobs| && top < |w.jobs| && w.jobs[j].pc.Delaying?
    ensures var r := Interrupt(w, j, st, top, o, prefix);
      r.1[..|prefix|] == prefix && Run(Active, r.1[|prefix|..]) == Some(PhaseOf(r.0.jobs[j].pc))
  {
    var r := Interrupt(w, j, st, top, o, prefix);
    var call := CallHooks([Interrupted], o.raises);
    assert call.0 == [Interrupted];
    SuffixSplit(r.1, prefix, call.0);
    if call.1 {
      RunAppend(Active, [Interrupted], [End]);
    }
  }

  lemma IterateFollows(w: World, j: JobId, st: int, o: Obs, prefix: seq<Hook>)
    requires WF(w) && j < |w.jobs| && w.jobs[j].pc.Delaying?
    ensures var r := Iterate(w, j, st, o, prefix);
      r.1[..|prefix|] == prefix && Run(Active, r.1[|prefix|..]) == Some(PhaseOf(r.0.jobs[j].pc))
  {
    var top := Top(w, j);
    if top.Some? && top.value != j {
      match w.cmds[CmdOf(w, j)].cfg.policy
      case Terminate =>
        assert Iterate(w, j, st, o, prefix) == Yield(w, j, st, prefix);
        YieldFollows(w, j, st, prefix);
      case Suspend =>
        assert Iterate(w, j, st, o, prefix) == Interrupt(w, j, st, top.value, o, prefix);
        InterruptFollows(w, j, st, top.value, o, prefix);
    } else {
      assert Iterate(w, j, st, o, prefix) == Perform(w, j, st, [Execute], o, prefix);
      PerformFollows(w, j, st, [Execute], o, prefix, Active);
    }
  }

  lemma PendingFollows(w: World, j: JobId, o: Obs)
    requires WF(w) && j < |w.jobs| && w.jobs[j].pc.Pending?
    ensures var r := StepPending(w, j, o);
      Run(Fresh, r.1) == Some(PhaseOf(r.0.jobs[j].pc))
  {
    var r := StepPending(w, j, o);
    if !w.jobs[j].cancelled {
      var w1 := Enter(w, j, o.now);
      var call := CallHooks([Initialize], o.raises);
      assert call.0 == [Initialize];
      if call.1 {
        assert r.1 == [Initialize, End] && r.0.jobs[j].pc == Done(true);
        RunAppend(Fresh, [Initialize], [End]);
      } else {
        IterateFollows(w1, j, o.now, o, call.0);
        assert r.1 == call.0 + r.1[|call.0|..];
        RunAppend(Fresh, call.0, r.1[|call.0|..]);
      }
    }
  }

  lemma JoiningFollows(w: World, j: JobId, st: int, peer: JobId, o: Obs, recheck: bool)
    requires WF(w) && j < |w.jobs| && w.jobs[j].pc == Joining(st, peer)
    ensures var r := StepJoining(w, j, st, peer, o, recheck);
      Run(Displaced, r.1) == Some(PhaseOf(r.0.jobs[j].pc))
  {
    assert JobOk(w, j);
    var r := StepJoining(w, j, st, peer, o, recheck);
    if w.jobs[j].cancelled {
      assert r == Finish(w, j, []);
      FinishFollows(w, j, [], Displaced);
    } else if !w.jobs[peer].pc.Done? {
      assert r == (w, []);
    } else {
      var top := Top(w, j);
      if recheck && top.Some? && top.value != j {
        assert r.1 == [] && r.0.jobs[j].pc == Joining(st, top.value);
      } else {
        assert r == Perform(w, j, st, [Resumed, Execute], o, []);
        PerformFollows(w, j, st, [Resumed, Execute], o, [], Displaced);
        assert r.1[0..] == r.1;
      }
    }
  }

  /**
    Every step of a job calls its hooks in protocol order, from the phase
    its program point stands for to the phase of the program point it
    reaches; this holds for the source's resume path and for the corrected one.
   */
  lemma StepFollowsProtocol(w: World, j: JobId, o: Obs, recheck: bool)
    requires WF(w) && j < |w.jobs|
    ensures var r := StepWith(w, j, o, recheck);
      Run(PhaseOf(w.jobs[j].pc), r.1) == Some(PhaseOf(r.0.jobs[j].pc))
  {
    match w.jobs[j].pc
    case Done(_) =>
    case Pending => PendingFollows(w, j, o);
    case Delaying(st) =>
      if !(w.jobs[j].cancelled || LoopExits(w.cmds[CmdOf(w, j)].cfg, st, o)) {
        IterateFollows(w, j, st, o, []);
        var r := Iterate(w, j, st, o, []);
        assert r.1[0..] == r.1;
      }
    case Joining(st, peer) => JoiningFollows(w, j, st, peer, o, recheck);
  }
}

=== FILE: scenarios.dfy ===
/**
  Two concrete runs of the framework, on commands that all require
  subsystem 0. Each reaches an arbitrated world in which the source's
  coroutine runs a job that does not own the subsystem. At the same point
  the model's step gives way.

  In the first run a Suspend job resumes after the job it waited for has
  left, although a third job now owns the subsystem (the source's resume
  path). In the second a running Terminate command is started again. The
  body as written then takes the new job in the command's `job` field for
  itself, so the old job executes below the new one. When the old job
  finishes, it removes the new job's stack entry instead of its own.
 */
module Scenarios {
  import opened Wrappers
  import CommandStack
  import opened Commands
  import opened Framework
  import opened Exclusion
  import AsWritten

  // ---------------------------------------------------------------- worlds with one subsystem

  /** One subsystem with the given stack, the commands and the jobs; nothing else registered. */
  function Snap(cmds: seq<Command>, stack: CommandStack.Stack, jobs: seq<Job>): World
  {
    World(cmds, [stack], jobs, [], true, [], false)
  }

  /**
    The references in a snapshot point at something that exists, every
    command requires subsystem 0, and no `startTime` has been written yet.
    Each snapshot used below gets a `…Ok` lemma of its own: proved inside a
    scene's proof, this predicate of a literal costs the solver far more.
   */
  predicate SnapOk(cmds: seq<Command>, stack: CommandStack.Stack, jobs: seq<Job>)
  {
    && (forall c :: 0 <= c < |cmds| ==> cmds[c].cfg.subsystem == Some(0) && cmds[c].startTime == 0)
    && (forall c :: 0 <= c < |cmds| && cmds[c].job.Some? ==> cmds[c].job.value < |jobs| && jobs[cmds[c].job.value].cmd == c)
    && (forall k :: 0 <= k < |jobs| ==> jobs[k].cmd < |cmds| && (jobs[k].pc.Joining? ==> jobs[k].pc.peer < |jobs|))
    && (forall x :: x in stack ==> x < |jobs|)
  }

  lemma SnapWF(cmds: seq<Command>, stack: CommandStack.Stack, jobs: seq<Job>)
    requires SnapOk(cmds, stack, jobs)
    ensures WF(Snap(cmds, stack, jobs))
  {
    assert StackOk(Snap(cmds, stack, jobs), 0);
  }

  /** What `start()`, body entry, a move of the program point, `cancel()` and `finally` do to a snapshot. */
  lemma SnapStart(cmds: seq<Command>, stack: CommandStack.Stack, jobs: seq<Job>, c: CmdId)
    requires SnapOk(cmds, stack, jobs) && c < |cmds|
    ensures WF(Snap(cmds, stack, jobs))
    ensures Start(Snap(cmds, stack, jobs), c).0
         == Snap(cmds[c := cmds[c].(job := Some(|jobs|))], stack, jobs + [Job(c, Pending, false)])
  {
    SnapWF(cmds, stack, jobs);
  }

  lemma SnapEnter(cmds: seq<Command>, stack: CommandStack.Stack, jobs: seq<Job>, j: JobId)
    requires SnapOk(cmds, stack, jobs) && j < |jobs|
    ensures WF(Snap(cmds, stack, jobs))
    ensures Enter(Snap(cmds, stack, jobs), j, 0) == Snap(cmds, stack + [j], jobs[j := jobs[j].(pc := Delaying(0))])
  {
    SnapWF(cmds, stack, jobs);
    var w := Snap(cmds, stack, jobs);
    var r := Enter(w, j, 0);
    assert SubOf(w, j) == Some(0);
    assert r.stacks == [stack + [j]];
    assert r.cmds == cmds;
  }

  lemma SnapSetPc(cmds: seq<Command>, stack: CommandStack.Stack, jobs: seq<Job>, j: JobId, pc: Pc)
    requires SnapOk(cmds, stack, jobs) && j < |jobs| && (pc.Joining? ==> pc.peer < |jobs|)
    ensures WF(Snap(cmds, stack, jobs))
    ensures SetPc(Snap(cmds, stack, jobs), j, pc) == Snap(cmds, stack, jobs[j := jobs[j].(pc := pc)])
  {
    SnapWF(cmds, stack, jobs);
  }

  lemma SnapCancel(cmds: seq<Command>, stack: CommandStack.Stack, jobs: seq<Job>, j: JobId)
    requires SnapOk(cmds, stack, jobs) && j < |jobs| && !jobs[j].pc.Done?
    ensures WF(Snap(cmds, stack, jobs))
    ensures CancelJob(Snap(cmds, stack, jobs), j) == Snap(cmds, stack, jobs[j := jobs[j].(cancelled := true)])
  {
    SnapWF(cmds, stack, jobs);
  }

  lemma SnapFinally(cmds: seq<Command>, stack: CommandStack.Stack, jobs: seq<Job>, j: JobId)
    requires SnapOk(cmds, stack, jobs) && j < |jobs| && jobs[j].cmd < |cmds| && cmds[jobs[j].cmd].job == Some(j)
    ensures WF(Snap(cmds, stack, jobs))
    ensures Finally(Snap(cmds, stack, jobs), j)
         == Snap(cmds[jobs[j].cmd := cmds[jobs[j].cmd].(job := None)], CommandStack.Remove(stack, j), jobs[j := jobs[j].(pc := Done(true))])
  {
    SnapWF(cmds, stack, jobs);
    var w := Snap(cmds, stack, jobs);
    var r := Finally(w, j);
    assert SubOf(w, j) == Some(0);
    assert r.stacks == [CommandStack.Remove(stack, j)];
  }

  // ---------------------------------------------------------------- quiet steps

  /** Resuming a job as an event is stepping it. */
  lemma Resumes(w: World, j: JobId, o: Obs, recheck: bool)
    requires WF(w) && j < |w.jobs|
    ensures ExecOne(w, Resume(j, o), recheck).0 == StepWith(w, j, o, recheck).0
  {
  }

  /** A `start()` event is `start()`. */
  lemma Starts(w: World, c: CmdId, recheck: bool)
    requires WF(w) && c < |w.cmds|
    ensures ExecOne(w, StartCmd(c), recheck).0 == Start(w, c).0
  {
  }

  function Quiet(): Obs { Obs(0, false, {}) }

  function Finishing(): Obs { Obs(0, true, {}) }

  /** Without faults, a dispatched job enters, initializes and executes once. */
  lemma QuietEntry(w: World, j: JobId, o: Obs, recheck: bool)
    requires WF(w) && j < |w.jobs| && Enters(w, j) && o.raises == {}
    ensures StepWith(w, j, o, recheck) == (Enter(w, j, o.now), [Initialize, Execute])
  {
    var w1 := Enter(w, j, o.now);
    assert CallHooks([Initialize], o.raises) == ([Initialize], false);
    assert CallHooks([Execute], o.raises) == ([Execute], false);
    assert Top(w1, j) == None || Top(w1, j) == Some(j);
    assert SetPc(w1, j, Delaying(o.now)) == w1 by {
      assert SetPc(w1, j, Delaying(o.now)).jobs == w1.jobs;
    }
    assert Iterate(w1, j, o.now, o, [Initialize]) == Perform(w1, j, o.now, [Execute], o, [Initialize]);
    assert Perform(w1, j, o.now, [Execute], o, [Initialize]) == AtDelay(w1, j, [Initialize] + [Execute]);
    assert [Initialize] + [Execute] == [Initialize, Execute];
    assert AtDelay(w1, j, [Initialize, Execute]) == (w1, [Initialize, Execute]);
    assert StepWith(w, j, o, recheck) == StepPending(w, j, o) == Iterate(w1, j, o.now, o, [Initialize]);
  }

  /** A Suspend job below another job's top is interrupted, on either resume path. */
  lemma QuietInterrupt(w: World, j: JobId, st: int, o: Obs, recheck: bool, top: JobId)
    requires WF(w) && j < |w.jobs| && w.jobs[j].pc == Delaying(st) && !w.jobs[j].cancelled
    requires w.cmds[CmdOf(w, j)].cfg.policy == Suspend && !LoopExits(w.cmds[CmdOf(w, j)].cfg, st, o) && o.raises == {}
    requires Top(w, j) == Some(top) && top != j
    ensures StepWith(w, j, o, recheck) == (SetPc(w, j, Joining(st, top)), [Interrupted])
  {
    assert CallHooks([Interrupted], o.raises) == ([Interrupted], false);
    assert StepWith(w, j, o, recheck) == Iterate(w, j, st, o, []);
  }

  /** A Terminate job below another job's top cancels itself and leaves in the same step. */
  lemma QuietYield(w: World, j: JobId, st: int, o: Obs, recheck: bool, top: JobId)
    requires WF(w) && j < |w.jobs| && w.jobs[j].pc == Delaying(st) && !w.jobs[j].cancelled
    requires w.cmds[CmdOf(w, j)].cfg.policy == Terminate && !LoopExits(w.cmds[CmdOf(w, j)].cfg, st, o)
    requires Top(w, j) == Some(top) && top != j
    ensures StepWith(w, j, o, recheck) == (Finally(CancelJob(w, j), j), [End])
  {
    var w1 := CancelJob(w, j);
    assert SetPc(w1, j, Delaying(st)) == w1 by {
      assert SetPc(w1, j, Delaying(st)).jobs == w1.jobs;
    }
    assert StepWith(w, j, o, recheck) == Iterate(w, j, st, o, []) == Yield(w, j, st, []);
    assert [] + [End] == [End];
  }

  /** Without faults, a job on top of its stack that stays in its loop executes and returns to its delay. */
  lemma QuietExecute(w: World, j: JobId, st: int, o: Obs, recheck: bool)
    requires WF(w) && j < |w.jobs| && w.jobs[j].pc == Delaying(st) && !w.jobs[j].cancelled
    requires !LoopExits(w.cmds[CmdOf(w, j)].cfg, st, o) && o.raises == {}
    requires Top(w, j) == None || Top(w, j) == Some(j)
    ensures StepWith(w, j, o, recheck) == (w, [Execute])
  {
    assert CallHooks([Execute], o.raises) == ([Execute], false);
    assert SetPc(w, j, Delaying(st)) == w by {
      assert SetPc(w, j, Delaying(st)).jobs == w.jobs;
    }
    assert StepWith(w, j, o, recheck) == Iterate(w, j, st, o, []) == Perform(w, j, st, [Execute], o, []);
    assert [] + [Execute] == [Execute];
  }

  lemma SnapEnterStep(cmds: seq<Command>, stack: CommandStack.Stack, jobs: seq<Job>, j: JobId, recheck: bool)
    requires SnapOk(cmds, stack, jobs) && j < |jobs|
    requires jobs[j].pc == Pending && !jobs[j].cancelled
    ensures WF(Snap(cmds, stack, jobs))
    ensures StepWith(Snap(cmds, stack, jobs), j, Quiet(), recheck).0
         == Snap(cmds, stack + [j], jobs[j := jobs[j].(pc := Delaying(0))])
  {
    SnapWF(cmds, stack, jobs);
    QuietEntry(Snap(cmds, stack, jobs), j, Quiet(), recheck);
    SnapEnter(cmds, stack, jobs, j);
  }

  // ---------------------------------------------------------------- the source's resume path

  /** A Suspend command and two Terminate commands, all requiring subsystem 0. */
  function Cfgs(): seq<Config>
  {
    [Config(Custom, Suspend, 0, Some(0)), Config(Custom, Terminate, 0, Some(0)), Config(Custom, Terminate, 0, Some(0))]
  }

  /** The three commands with the given handles. */
  function C3(handles: seq<Option<JobId>>): seq<Command>
    requires |handles| == 3
  {
    [Command(Cfgs()[0], handles[0], 0), Command(Cfgs()[1], handles[1], 0), Command(Cfgs()[2], handles[2], 0)]
  }

  function S(handles: seq<Option<JobId>>, stack: CommandStack.Stack, jobs: seq<Job>): World
    requires |handles| == 3
  {
    Snap(C3(handles), stack, jobs)
  }

  function Start0(): World { Init(Cfgs(), 1, [], false) }

  /**
    A starts and takes the subsystem; B starts above it; A, below B, is
    interrupted and waits for B; C starts above B; B, below C, cancels
    itself and leaves.
   */
  function Scenario(): seq<Event>
  {
    [StartCmd(0), Resume(0, Quiet()), StartCmd(1), Resume(1, Quiet()),
     Resume(0, Quiet()), StartCmd(2), Resume(2, Quiet()), Resume(1, Quiet())]
  }

  /** Where the scenario leaves the framework: A waits for B, B is done, C owns the subsystem. */
  function AfterScenario(): World
  {
    S([Some(0), None, Some(2)], [0, 2], [Job(0, Joining(0, 1), false), Job(1, Done(true), true), Job(2, Delaying(0), false)])
  }

  /** Nothing has started. */
  function At0(): World { S([None, None, None], [], []) }

  /** A has started. */
  function At1(): World { S([Some(0), None, None], [], [Job(0, Pending, false)]) }

  /** A owns subsystem 0. */
  function At2(): World { S([Some(0), None, None], [0], [Job(0, Delaying(0), false)]) }

  /** B has started. */
  function At3(): World { S([Some(0), Some(1), None], [0], [Job(0, Delaying(0), false), Job(1, Pending, false)]) }

  /** A and B are both in their loops, B on top. */
  function At4(): World { S([Some(0), Some(1), None], [0, 1], [Job(0, Delaying(0), false), Job(1, Delaying(0), false)]) }

  /** A waits for B. */
  function At5(): World { S([Some(0), Some(1), None], [0, 1], [Job(0, Joining(0, 1), false), Job(1, Delaying(0), false)]) }

  /** C has started. */
  function At6(): World { S([Some(0), Some(1), Some(2)], [0, 1], [Job(0, Joining(0, 1), false), Job(1, Delaying(0), false), Job(2, Pending, false)]) }

  /** C is on top of B and A. */
  function At7(): World { S([Some(0), Some(1), Some(2)], [0, 1, 2], [Job(0, Joining(0, 1), false), Job(1, Delaying(0), false), Job(2, Delaying(0), false)]) }

  /** The scenario starts from the framework as `Init` builds it. */
  lemma StartEmpty()
    ensures Start0() == At0()
  {
    assert Start0().cmds == C3([None, None, None]);
  }

  lemma Scene0Ok()
    ensures SnapOk(C3([None, None, None]), [], [])
  {
  }

  /** A starts. */
  lemma Scene0(recheck: bool)
    ensures WF(At0())
    ensures ExecOne(At0(), StartCmd(0), recheck).0 == At1()
  {
    Scene0Start();
    Starts(At0(), 0, recheck);
  }

  lemma Scene0Start()
    ensures WF(At0()) && 0 < |At0().cmds|
    ensures Start(At0(), 0).0 == At1()
  {
    var cmds := C3([None, None, None]);
    var jobs: seq<Job> := [];
    assert WF(Snap(cmds, [], jobs))
        && Start(Snap(cmds, [], jobs), 0).0 == Snap(cmds[0 := cmds[0].(job := Some(|jobs|))], [], jobs + [Job(0, Pending, false)]) by {
      Scene0Ok();
      SnapStart(cmds, [], jobs, 0);
    }
    assert cmds[0 := cmds[0].(job := Some(0))] == C3([Some(0), None, None]);
    assert jobs + [Job(0, Pending, false)] == [Job(0, Pending, false)];
  }

  lemma Scene1Ok()
    ensures SnapOk(C3([Some(0), None, None]), [], [Job(0, Pending, false)])
  {
  }

  /** A enters and takes subsystem 0. */
  lemma Scene1(recheck: bool)
    ensures WF(At1())
    ensures ExecOne(At1(), Resume(0, Quiet()), recheck).0 == At2()
  {
    Scene1Step(recheck);
    Resumes(At1(), 0, Quiet(), recheck);
  }

  lemma Scene1Step(recheck: bool)
    ensures WF(At1()) && 0 < |At1().jobs|
    ensures StepWith(At1(), 0, Quiet(), recheck).0 == At2()
  {
    var jobs := [Job(0, Pending, false)];
    var cmds := C3([Some(0), None, None]);
    var w := Snap(cmds, [], jobs);
    assert WF(w) && StepWith(w, 0, Quiet(), recheck).0 == Snap(cmds, [] + [0], jobs[0 := jobs[0].(pc := Delaying(0))]) by {
      Scene1Ok();
      SnapEnterStep(cmds, [], jobs, 0, recheck);
    }
    assert [] + [0] == [0];
    assert jobs[0 := jobs[0].(pc := Delaying(0))] == [Job(0, Delaying(0), false)];
  }

  lemma Scene2Ok()
    ensures SnapOk(C3([Some(0), None, None]), [0], [Job(0, Delaying(0), false)])
  {
  }

  /** B starts. */
  lemma Scene2(recheck: bool)
    ensures WF(At2())
    ensures ExecOne(At2(), StartCmd(1), recheck).0 == At3()
  {
    Scene2Start();
    Starts(At2(), 1, recheck);
  }

  lemma Scene2Start()
    ensures WF(At2()) && 1 < |At2().cmds|
    ensures Start(At2(), 1).0 == At3()
  {
    var cmds := C3([Some(0), None, None]);
    var jobs: seq<Job> := [Job(0, Delaying(0), false)];
    assert WF(Snap(cmds, [0], jobs))
        && Start(Snap(cmds, [0], jobs), 1).0 == Snap(cmds[1 := cmds[1].(job := Some(|jobs|))], [0], jobs + [Job(1, Pending, false)]) by {
      Scene2Ok();
      SnapStart(cmds, [0], jobs, 1);
    }
    assert cmds[1 := cmds[1].(job := Some(1))] == C3([Some(0), Some(1), None]);
    assert jobs + [Job(1, Pending, false)] == [Job(0, Delaying(0), false), Job(1, Pending, false)];
  }

  lemma Scene3Ok()
    ensures SnapOk(C3([Some(0), Some(1), None]), [0], [Job(0, Delaying(0), false), Job(1, Pending, false)])
  {
  }

  /** B enters above A. */
  lemma Scene3(recheck: bool)
    ensures WF(At3())
    ensures ExecOne(At3(), Resume(1, Quiet()), recheck).0 == At4()
  {
    Scene3Step(recheck);
    Resumes(At3(), 1, Quiet(), recheck);
  }

  lemma Scene3Step(recheck: bool)
    ensures WF(At3()) && 1 < |At3().jobs|
    ensures StepWith(At3(), 1, Quiet(), recheck).0 == At4()
  {
    var jobs := [Job(0, Delaying(0), false), Job(1, Pending, false)];
    var cmds := C3([Some(0), Some(1), None]);
    var w := Snap(cmds, [0], jobs);
    assert WF(w) && StepWith(w, 1, Quiet(), recheck).0 == Snap(cmds, [0] + [1], jobs[1 := jobs[1].(pc := Delaying(0))]) by {
      Scene3Ok();
      SnapEnterStep(cmds, [0], jobs, 1, recheck);
    }
    assert [0] + [1] == [0, 1];
    assert jobs[1 := jobs[1].(pc := Delaying(0))] == [Job(0, Delaying(0), false), Job(1, Delaying(0), false)];
  }

  lemma Scene4Ok()
    ensures SnapOk(C3([Some(0), Some(1), None]), [0, 1], [Job(0, Delaying(0), false), Job(1, Delaying(0), false)])
  {
  }

  /** A, below B, is interrupted and waits for B. */
  lemma Scene4(recheck: bool)
    ensures WF(At4())
    ensures ExecOne(At4(), Resume(0, Quiet()), recheck).0 == At5()
  {
    Scene4Step(recheck);
    Resumes(At4(), 0, Quiet(), recheck);
  }

  lemma Scene4Step(recheck: bool)
    ensures WF(At4()) && 0 < |At4().jobs|
    ensures StepWith(At4(), 0, Quiet(), recheck).0 == At5()
  {
    var jobs := [Job(0, Delaying(0), false), Job(1, Delaying(0), false)];
    var cmds := C3([Some(0), Some(1), None]);
    var w := Snap(cmds, [0, 1], jobs);
    assert WF(w) && SetPc(w, 0, Joining(0, 1)) == Snap(cmds, [0, 1], jobs[0 := jobs[0].(pc := Joining(0, 1))]) by {
      Scene4Ok();
      SnapSetPc(cmds, [0, 1], jobs, 0, Joining(0, 1));
    }
    assert StepWith(w, 0, Quiet(), recheck).0 == SetPc(w, 0, Joining(0, 1)) by {
      assert Top(w, 0) == Some(1);
      QuietInterrupt(w, 0, 0, Quiet(), recheck, 1);
    }
    assert jobs[0 := jobs[0].(pc := Joining(0, 1))] == [Job(0, Joining(0, 1), false), Job(1, Delaying(0), false)];
  }

  lemma Scene5Ok()
    ensures SnapOk(C3([Some(0), Some(1), None]), [0, 1], [Job(0, Joining(0, 1), false), Job(1, Delaying(0), false)])
  {
  }

  /** C starts. */
  lemma Scene5(recheck: bool)
    ensures WF(At5())
    ensures ExecOne(At5(), StartCmd(2), recheck).0 == At6()
  {
    Scene5Start();
    Starts(At5(), 2, recheck);
  }

  lemma Scene5Start()
    ensures WF(At5()) && 2 < |At5().cmds|
    ensures Start(At5(), 2).0 == At6()
  {
    var cmds := C3([Some(0), Some(1), None]);
    var jobs: seq<Job> := [Job(0, Joining(0, 1), false), Job(1, Delaying(0), false)];
    assert WF(Snap(cmds, [0, 1], jobs))
        && Start(Snap(cmds, [0, 1], jobs), 2).0 == Snap(cmds[2 := cmds[2].(job := Some(|jobs|))], [0, 1], jobs + [Job(2, Pending, false)]) by {
      Scene5Ok();
      SnapStart(cmds, [0, 1], jobs, 2);
    }
    assert cmds[2 := cmds[2].(job := Some(2))] == C3([Some(0), Some(1), Some(2)]);
    assert jobs + [Job(2, Pending, false)] == [Job(0, Joining(0, 1), false), Job(1, Delaying(0), false), Job(2, Pending, false)];
  }

  lemma Scene6Ok()
    ensures SnapOk(C3([Some(0), Some(1), Some(2)]), [0, 1], [Job(0, Joining(0, 1), false), Job(1, Delaying(0), false), Job(2, Pending, false)])
  {
  }

  /** C enters above B. */
  lemma Scene6(recheck: bool)
    ensures WF(At6())
    ensures ExecOne(At6(), Resume(2, Quiet()), recheck).0 == At7()
  {
    Scene6Step(recheck);
    Resumes(At6(), 2, Quiet(), recheck);
  }

  lemma Scene6Step(recheck: bool)
    ensures WF(At6()) && 2 < |At6().jobs|
    ensures StepWith(At6(), 2, Quiet(), recheck).0 == At7()
  {
    var jobs := [Job(0, Joining(0, 1), false), Job(1, Delaying(0), false), Job(2, Pending, false)];
    var cmds := C3([Some(0), Some(1), Some(2)]);
    var w := Snap(cmds, [0, 1], jobs);
    assert WF(w) && StepWith(w, 2, Quiet(), recheck).0 == Snap(cmds, [0, 1] + [2], jobs[2 := jobs[2].(pc := Delaying(0))]) by {
      Scene6Ok();
      SnapEnterStep(cmds, [0, 1], jobs, 2, recheck);
    }
    assert [0, 1] + [2] == [0, 1, 2];
    assert jobs[2 := jobs[2].(pc := Delaying(0))] == [Job(0, Joining(0, 1), false), Job(1, Delaying(0), false), Job(2, Delaying(0), false)];
  }

  lemma Scene7Ok()
    ensures SnapOk(C3([Some(0), Some(1), Some(2)]), [0, 1, 2], [Job(0, Joining(0, 1), false), Job(1, Delaying(0), false), Job(2, Delaying(0), false)])
  {
  }

  /** B, below C, cancels itself and leaves the stack. */
  lemma Scene7(recheck: bool)
    ensures WF(At7())
    ensures ExecOne(At7(), Resume(1, Quiet()), recheck).0
         == AfterScenario()
  {
    Scene7Step(recheck);
    Resumes(At7(), 1, Quiet(), recheck);
  }

  lemma Scene7Step(recheck: bool)
    ensures WF(At7()) && 1 < |At7().jobs|
    ensures StepWith(At7(), 1, Quiet(), recheck).0 == AfterScenario()
  {
    Scene7Cancel();
    Scene7Yield(recheck);
    Scene7Leaves();
  }

  /** B's cancellation flag goes up. */
  lemma Scene7Cancel()
    ensures WF(At7()) && 1 < |At7().jobs|
    ensures CancelJob(At7(), 1) == S([Some(0), Some(1), Some(2)], [0, 1, 2], [Job(0, Joining(0, 1), false), Job(1, Delaying(0), true), Job(2, Delaying(0), false)])
  {
    var handles := [Some(0), Some(1), Some(2)];
    var jobs := [Job(0, Joining(0, 1), false), Job(1, Delaying(0), false), Job(2, Delaying(0), false)];
    Scene7Ok();
    SnapCancel(C3(handles), [0, 1, 2], jobs, 1);
    assert jobs[1 := jobs[1].(cancelled := true)] == [Job(0, Joining(0, 1), false), Job(1, Delaying(0), true), Job(2, Delaying(0), false)];
  }

  /** B, below C, cancels itself and goes straight to `finally`. */
  lemma Scene7Yield(recheck: bool)
    ensures WF(At7()) && 1 < |At7().jobs|
    ensures StepWith(At7(), 1, Quiet(), recheck) == (Finally(CancelJob(At7(), 1), 1), [End])
  {
    var w := At7();
    Scene7Ok();
    SnapWF(w.cmds, [0, 1, 2], w.jobs);
    assert Top(w, 1) == Some(2);
    QuietYield(w, 1, 0, Quiet(), recheck, 2);
  }

  lemma Scene7LeavesOk()
    ensures SnapOk(C3([Some(0), Some(1), Some(2)]), [0, 1, 2], [Job(0, Joining(0, 1), false), Job(1, Delaying(0), true), Job(2, Delaying(0), false)])
  {
  }

  lemma Scene7Leaves()
    ensures var jobs := [Job(0, Joining(0, 1), false), Job(1, Delaying(0), true), Job(2, Delaying(0), false)];
      WF(S([Some(0), Some(1), Some(2)], [0, 1, 2], jobs)) && Finally(S([Some(0), Some(1), Some(2)], [0, 1, 2], jobs), 1) == AfterScenario()
  {
    var handles := [Some(0), Some(1), Some(2)];
    var jobs := [Job(0, Joining(0, 1), false), Job(1, Delaying(0), true), Job(2, Delaying(0), false)];
    var cmds := C3(handles);
    assert WF(Snap(cmds, [0, 1, 2], jobs))
        && Finally(Snap(cmds, [0, 1, 2], jobs), 1)
           == Snap(cmds[1 := cmds[1].(job := None)], CommandStack.Remove([0, 1, 2], 1), jobs[1 := jobs[1].(pc := Done(true))]) by {
      Scene7LeavesOk();
      SnapFinally(cmds, [0, 1, 2], jobs, 1);
    }
    assert CommandStack.Remove([0, 1, 2], 1) == [0, 2] by {
      CommandStack.RemoveFirstOccurrence([0, 1, 2], 1, 1);
      assert [0, 1, 2][..1] + [0, 1, 2][2..] == [0, 2];
    }
    assert cmds[1 := cmds[1].(job := None)] == C3([Some(0), None, Some(2)]);
    assert jobs[1 := jobs[1].(pc := Done(true))] == AfterScenario().jobs;
  }

  /** Where the model resumes a job that is its command's only job, the body as written does the same. */
  lemma Follows(w: World, j: JobId, next: World)
    requires WF(w) && j < |w.jobs| && AsWritten.Single(w, j)
    requires StepWith(w, j, Quiet(), false).0 == next
    ensures AsWritten.Step(w, j, Quiet()).0 == next
  {
    AsWritten.StepAgrees(w, j, Quiet());
  }

  /**
    The body as written takes every resumption of the scenario to the same
    world as the model: each job it resumes is its command's only job.
   */
  lemma SourceFollows()
    ensures var w := At1();
      WF(w) && AsWritten.Step(w, 0, Quiet()).0 == At2()
    ensures var w := At3();
      WF(w) && AsWritten.Step(w, 1, Quiet()).0 == At4()
    ensures WF(At4()) && AsWritten.Step(At4(), 0, Quiet()).0 == At5()
  {
    assert WF(At1()) && AsWritten.Step(At1(), 0, Quiet()).0 == At2() by {
      Scene1Step(false);
      Follows(At1(), 0, At2());
    }
    assert WF(At3()) && AsWritten.Step(At3(), 1, Quiet()).0 == At4() by {
      Scene3Step(false);
      Follows(At3(), 1, At4());
    }
    assert WF(At4()) && AsWritten.Step(At4(), 0, Quiet()).0 == At5() by {
      Scene4Step(false);
      Follows(At4(), 0, At5());
    }
  }

  /** The body as written also follows C's entry and B's exit. */
  lemma SourceFollowsOn()
    ensures var w := At6();
      WF(w) && AsWritten.Step(w, 2, Quiet()).0 == At7()
    ensures var w := At7();
      WF(w) && AsWritten.Step(w, 1, Quiet()).0 == AfterScenario()
  {
    assert WF(At6()) && AsWritten.Step(At6(), 2, Quiet()).0 == At7() by {
      Scene6Step(false);
      Follows(At6(), 2, At7());
    }
    assert WF(At7()) && AsWritten.Step(At7(), 1, Quiet()).0 == AfterScenario() by {
      Scene7Step(false);
      Follows(At7(), 1, AfterScenario());
    }
  }

  /** The world the scenario ends in keeps the arbitration invariant: A and C are on the stack, B is done. */
  lemma AfterArbitrated()
    ensures WF(AfterScenario()) && Arbitrated(AfterScenario())
  {
    var w := AfterScenario();
    assert SnapOk(w.cmds, [0, 2], w.jobs);
    SnapWF(w.cmds, [0, 2], w.jobs);
    assert CommandStack.NoDup(w.stacks[0]);
    forall k | 0 <= k < |w.jobs| && !w.jobs[k].cancelled && InLoop(w.jobs[k].pc) && SubOf(w, k).Some?
      ensures k in w.stacks[SubOf(w, k).value]
    {
      assert k == 0 || k == 2;
    }
  }

  /**
    As written, at the end of the scenario A's wait returns, and A calls
    `resumed()` and `execute()` although C owns the subsystem.
   */
  lemma SourceRunsBelowTop()
    ensures var w := AfterScenario();
      && WF(w) && 0 < |w.jobs| && Arbitrated(w) && SubOf(w, 0) == Some(0)
      && CommandStack.Peek(w.stacks[0]) == Some(2)
      && AsWritten.Step(w, 0, Quiet()).1 == [Resumed, Execute]
  {
    var w := AfterScenario();
    AfterArbitrated();
    JoinResumes(w, 0, 0, 1, Quiet());
  }

  /** The corrected resume path, at the same point, sends A back to wait for C. */
  lemma CorrectedWaits()
    ensures var w := AfterScenario();
      WF(w) && 0 < |w.jobs| && StepJob(w, 0, Quiet()) == (SetPc(w, 0, Joining(0, 2)), [])
  {
    var w := AfterScenario();
    AfterArbitrated();
    assert Top(w, 0) == Some(2);
    JoinRechecks(w, 0, 0, 1, Quiet(), 2);
  }

  // ---------------------------------------------------------------- a second start of a running command

  /** One Terminate command requiring subsystem 0. */
  function Solo(): seq<Config>
  {
    [Config(Custom, Terminate, 0, Some(0))]
  }

  /** The command with the given handle. */
  function C1(handle: Option<JobId>): seq<Command>
  {
    [Command(Solo()[0], handle, 0)]
  }

  function R(handle: Option<JobId>, stack: CommandStack.Stack, jobs: seq<Job>): World
  {
    Snap(C1(handle), stack, jobs)
  }

  /** The command starts and its job enters; the command is started again and the second job enters. */
  function Restart(): seq<Event>
  {
    [StartCmd(0), Resume(0, Quiet()), StartCmd(0), Resume(1, Quiet())]
  }

  /** Both jobs are in their loops, the second on top; the handle holds the second. */
  function Restarted(): World
  {
    R(Some(1), [0, 1], [Job(0, Delaying(0), false), Job(0, Delaying(0), false)])
  }

  /** Nothing has started. */
  function Rt0(): World { R(None, [], []) }

  /** The command has started. */
  function Rt1(): World { R(Some(0), [], [Job(0, Pending, false)]) }

  /** Its first job owns subsystem 0. */
  function Rt2(): World { R(Some(0), [0], [Job(0, Delaying(0), false)]) }

  /** The command has been started again. */
  function Rt3(): World { R(Some(1), [0], [Job(0, Delaying(0), false), Job(0, Pending, false)]) }

  lemma RScene0Ok()
    ensures SnapOk(C1(None), [], [])
  {
  }

  /** The command starts. */
  lemma RScene0(recheck: bool)
    ensures WF(Rt0())
    ensures ExecOne(Rt0(), StartCmd(0), recheck).0 == Rt1()
  {
    RScene0Start();
    Starts(Rt0(), 0, recheck);
  }

  lemma RScene0Start()
    ensures WF(Rt0()) && 0 < |Rt0().cmds|
    ensures Start(Rt0(), 0).0 == Rt1()
  {
    var cmds := C1(None);
    var jobs: seq<Job> := [];
    assert WF(Snap(cmds, [], jobs))
        && Start(Snap(cmds, [], jobs), 0).0 == Snap(cmds[0 := cmds[0].(job := Some(|jobs|))], [], jobs + [Job(0, Pending, false)]) by {
      RScene0Ok();
      SnapStart(cmds, [], jobs, 0);
    }
    assert cmds[0 := cmds[0].(job := Some(|jobs|))] == C1(Some(0));
    assert jobs + [Job(0, Pending, false)] == [Job(0, Pending, false)];
  }

  lemma RScene1Ok()
    ensures SnapOk(C1(Some(0)), [], [Job(0, Pending, false)])
  {
  }

  /** Its first job enters. */
  lemma RScene1(recheck: bool)
    ensures WF(Rt1())
    ensures ExecOne(Rt1(), Resume(0, Quiet()), recheck).0 == Rt2()
  {
    RScene1Step(recheck);
    Resumes(Rt1(), 0, Quiet(), recheck);
  }

  lemma RScene1Step(recheck: bool)
    ensures WF(Rt1()) && 0 < |Rt1().jobs|
    ensures StepWith(Rt1(), 0, Quiet(), recheck).0 == Rt2()
  {
    var jobs := [Job(0, Pending, false)];
    var cmds := C1(Some(0));
    var w := Snap(cmds, [], jobs);
    assert WF(w) && StepWith(w, 0, Quiet(), recheck).0 == Snap(cmds, [] + [0], jobs[0 := jobs[0].(pc := Delaying(0))]) by {
      RScene1Ok();
      SnapEnterStep(cmds, [], jobs, 0, recheck);
    }
    assert [] + [0] == [0];
    assert jobs[0 := jobs[0].(pc := Delaying(0))] == Rt2().jobs;
  }

  lemma RScene2Ok()
    ensures SnapOk(C1(Some(0)), [0], [Job(0, Delaying(0), false)])
  {
  }

  /** The running command is started again; the handle now holds the second job. */
  lemma RScene2(recheck: bool)
    ensures WF(Rt2())
    ensures ExecOne(Rt2(), StartCmd(0), recheck).0 == Rt3()
  {
    RScene2Start();
    Starts(Rt2(), 0, recheck);
  }

  lemma RScene2Start()
    ensures WF(Rt2()) && 0 < |Rt2().cmds|
    ensures Start(Rt2(), 0).0 == Rt3()
  {
    var cmds := C1(Some(0));
    var jobs: seq<Job> := [Job(0, Delaying(0), false)];
    assert WF(Snap(cmds, [0], jobs))
        && Start(Snap(cmds, [0], jobs), 0).0 == Snap(cmds[0 := cmds[0].(job := Some(|jobs|))], [0], jobs + [Job(0, Pending, false)]) by {
      RScene2Ok();
      SnapStart(cmds, [0], jobs, 0);
    }
    assert cmds[0 := cmds[0].(job := Some(|jobs|))] == C1(Some(1));
    assert jobs + [Job(0, Pending, false)] == [Job(0, Delaying(0), false), Job(0, Pending, false)];
  }

  lemma RScene3Ok()
    ensures SnapOk(C1(Some(1)), [0], [Job(0, Delaying(0), false), Job(0, Pending, false)])
  {
  }

  /** The second job enters above the first. */
  lemma RScene3(recheck: bool)
    ensures WF(Rt3())
    ensures ExecOne(Rt3(), Resume(1, Quiet()), recheck).0 == Restarted()
  {
    RScene3Step(recheck);
    Resumes(Rt3(), 1, Quiet(), recheck);
  }

  lemma RScene3Step(recheck: bool)
    ensures WF(Rt3()) && 1 < |Rt3().jobs|
    ensures StepWith(Rt3(), 1, Quiet(), recheck).0 == Restarted()
  {
    var jobs := [Job(0, Delaying(0), false), Job(0, Pending, false)];
    var cmds := C1(Some(1));
    var w := Snap(cmds, [0], jobs);
    assert WF(w) && StepWith(w, 1, Quiet(), recheck).0 == Snap(cmds, [0] + [1], jobs[1 := jobs[1].(pc := Delaying(0))]) by {
      RScene3Ok();
      SnapEnterStep(cmds, [0], jobs, 1, recheck);
    }
    assert [0] + [1] == [0, 1];
    assert jobs[1 := jobs[1].(pc := Delaying(0))] == Restarted().jobs;
  }

  /** The restart starts from the framework as `Init` builds it. */
  lemma RestartEmpty()
    ensures Init(Solo(), 1, [], false) == Rt0()
  {
    assert Init(Solo(), 1, [], false).cmds == C1(None);
  }

  /** Each job the restart resumes is, at that moment, the one in the handle, so the body as written does the same. */
  lemma RestartSourceFollows()
    ensures var w := Rt1();
      WF(w) && AsWritten.Step(w, 0, Quiet()).0 == Rt2()
    ensures var w := Rt3();
      WF(w) && AsWritten.Step(w, 1, Quiet()).0 == Restarted()
  {
    assert WF(Rt1()) && AsWritten.Step(Rt1(), 0, Quiet()).0 == Rt2() by {
      RScene1Step(false);
      Follows(Rt1(), 0, Rt2());
    }
    assert WF(Rt3()) && AsWritten.Step(Rt3(), 1, Quiet()).0 == Restarted() by {
      RScene3Step(false);
      Follows(Rt3(), 1, Restarted());
    }
  }

  lemma RestartedArbitrated()
    ensures WF(Restarted()) && Arbitrated(Restarted())
  {
    var w := Restarted();
    RestartedOk();
    SnapWF(C1(Some(1)), [0, 1], w.jobs);
    assert CommandStack.NoDup(w.stacks[0]);
  }

  /**
    As written, the first job reads the second job out of the command's
    `job` field, finds "itself" on top and executes below the second.
   */
  lemma RestartRunsBelowTop()
    ensures var w := Restarted();
      && WF(w) && Arbitrated(w) && CommandStack.Peek(w.stacks[0]) == Some(1)
      && AsWritten.Step(w, 0, Quiet()).1 == [Execute]
  {
    var w := Restarted();
    assert WF(w) && Arbitrated(w) by {
      RestartedArbitrated();
    }
    assert AsWritten.Me(w, 0) == Some(1) && Top(w, 0) == Some(1);
    assert AsWritten.Step(w, 0, Quiet()) == AsWritten.Perform(w, 0, 0, [Execute], Quiet(), []) by {
      assert AsWritten.Step(w, 0, Quiet()) == AsWritten.Iterate(w, 0, 0, Quiet(), []);
    }
    assert CallHooks([Execute], Quiet().raises) == ([Execute], false);
    assert [] + [Execute] == [Execute];
  }

  /** What the first job's last step leaves, as written: its own entry on the stack and the second job's gone. */
  function Leaked(): World
  {
    R(None, [0], [Job(0, Done(true), false), Job(0, Delaying(0), false)])
  }

  /**
    As written, when the first job finishes it removes the second job's
    entry and clears the handle. The stack is left holding the finished
    job. The second job, which finds that entry on top and no job in the
    handle, never executes again and `cancel()` can no longer stop it: it
    leaves only when `isFinished()` ends its loop (the command has no
    timeout), and the finished first job's entry stays on the stack.
   */
  lemma RestartLeaks()
    ensures var w := Restarted(); var r := Leaked();
      && WF(w) && WF(r)
      && AsWritten.Step(w, 0, Finishing()) == (r, [End])
      && !Arbitrated(r)
      && AsWritten.Step(r, 1, Quiet()) == (r, [])
      && Cancel(r, 0) == (r, true)
      && AsWritten.Step(r, 1, Finishing()) == (Orphaned(), [End])
      && Orphaned().stacks == [[0]]
  {
    LeakedFinishes();
    LeakedIdles(Quiet());
    LeakedLeaves(Finishing());
  }

  lemma LeakedOk()
    ensures SnapOk(C1(None), [0], [Job(0, Done(true), false), Job(0, Delaying(0), false)])
  {
  }

  lemma RestartedOk()
    ensures SnapOk(C1(Some(1)), [0, 1], [Job(0, Delaying(0), false), Job(0, Delaying(0), false)])
  {
  }

  /** The first job's last step, as written, takes the second job's entry and handle. */
  lemma LeakedFinishes()
    ensures WF(Restarted()) && WF(Leaked()) && AsWritten.Step(Restarted(), 0, Finishing()) == (Leaked(), [End])
  {
    var w := Restarted();
    var r := Leaked();
    assert WF(w) by {
      RestartedOk();
      SnapWF(C1(Some(1)), [0, 1], w.jobs);
    }
    assert WF(r) by {
      LeakedOk();
      SnapWF(C1(None), [0], r.jobs);
    }
    assert AsWritten.Me(w, 0) == Some(1);
    var f := AsWritten.Finally(w, 0);
    assert f.stacks[0] == CommandStack.Remove([0, 1], 1) == [0] by {
      CommandStack.RemoveFirstOccurrence([0, 1], 1, 1);
      assert [0, 1][..1] + [0, 1][2..] == [0];
    }
    assert f.cmds == r.cmds;
    assert f.stacks == r.stacks;
    assert f.jobs == r.jobs;
    assert LoopExits(w.cmds[0].cfg, w.cmds[0].startTime, Finishing());
    assert AsWritten.Step(w, 0, Finishing()) == AsWritten.Finish(w, 0, []) == (f, [] + [End]);
    assert [] + [End] == [End];
  }

  /**
    Left so, the world breaks arbitration and `cancel()` finds no job in
    the field. A step of the second job in which `isFinished()` is false
    meets the finished entry on top, calls that `cancel()`, calls no hook
    and changes nothing.
   */
  lemma LeakedIdles(o: Obs)
    ensures WF(Leaked()) && !Arbitrated(Leaked()) && Cancel(Leaked(), 0) == (Leaked(), true)
    ensures !o.finished ==> AsWritten.Step(Leaked(), 1, o) == (Leaked(), [])
  {
    var r := Leaked();
    assert WF(r) by {
      LeakedOk();
      SnapWF(C1(None), [0], r.jobs);
    }
    assert 0 in r.stacks[0] && !InLoop(r.jobs[0].pc);
    assert !IsRunning(r, 0);
    if !o.finished {
      assert !LoopExits(r.cmds[0].cfg, r.cmds[0].startTime, o);
      assert AsWritten.Me(r, 1) == None && Top(r, 1) == Some(0);
      assert AsWritten.Step(r, 1, o) == AsWritten.Yield(r, 1, 0, []);
      assert SetPc(r, 1, Delaying(0)) == r by {
        assert SetPc(r, 1, Delaying(0)).jobs == r.jobs;
      }
    }
  }

  /** Both jobs finished, with the first one's entry still on the stack and nothing in the handle. */
  function Orphaned(): World
  {
    R(None, [0], [Job(0, Done(true), false), Job(0, Done(true), false)])
  }

  lemma OrphanedOk()
    ensures SnapOk(C1(None), [0], [Job(0, Done(true), false), Job(0, Done(true), false)])
  {
  }

  /**
    A step of the second job in which `isFinished()` holds leaves its loop:
    it calls `end()`, has no job in the field to remove and completes. The
    finished first job's entry stays on the stack, and no later step of
    either job takes it off.
   */
  lemma LeakedLeaves(o: Obs)
    ensures WF(Leaked()) && WF(Orphaned()) && !Arbitrated(Orphaned())
    ensures o.finished ==> AsWritten.Step(Leaked(), 1, o) == (Orphaned(), [End])
    ensures forall j, o' :: 0 <= j < 2 ==> AsWritten.Step(Orphaned(), j, o') == (Orphaned(), [])
  {
    var r := Leaked();
    var e := Orphaned();
    assert WF(r) by {
      LeakedOk();
      SnapWF(C1(None), [0], r.jobs);
    }
    assert WF(e) by {
      OrphanedOk();
      SnapWF(C1(None), [0], e.jobs);
    }
    assert 0 in e.stacks[0] && !InLoop(e.jobs[0].pc);
    if o.finished {
      assert LoopExits(r.cmds[0].cfg, r.cmds[0].startTime, o);
      assert AsWritten.Step(r, 1, o) == AsWritten.Finish(r, 1, []);
      var f := AsWritten.Finally(r, 1);
      assert AsWritten.Me(r, 1) == None;
      assert f.stacks == e.stacks && f.cmds == e.cmds && f.jobs == e.jobs;
      assert [] + [End] == [End];
    }
  }

  /**
    The model's step, at the same point, makes the first job give way: it
    cancels itself, ends and takes only its own entry off the stack,
    leaving the second job on top and in the handle, and the world stays
    arbitrated. The second job then executes.
   */
  lemma RestartGivesWay()
    ensures var w := Restarted(); var r := StepJob(w, 0, Quiet());
      && WF(w) && r == (GaveWay(), [End])
      && Arbitrated(r.0)
      && StepJob(r.0, 1, Quiet()).1 == [Execute]
  {
    GivesWayStep();
    RestartedArbitrated();
    StepKeeps(Restarted(), 0, Quiet(), true);
    GaveWayExecutes();
  }

  /** The first job has ended and left; the second is alone on the stack and in the handle. */
  function GaveWay(): World
  {
    R(Some(1), [1], [Job(0, Done(true), true), Job(0, Delaying(0), false)])
  }

  lemma GaveWayOk()
    ensures SnapOk(C1(Some(1)), [1], [Job(0, Done(true), true), Job(0, Delaying(0), false)])
  {
  }

  /** The model's step of the first job: it cancels itself and takes its own entry off the stack. */
  lemma GivesWayStep()
    ensures WF(Restarted()) && WF(GaveWay()) && StepJob(Restarted(), 0, Quiet()) == (GaveWay(), [End])
  {
    GaveWayCancel();
    GaveWayYield();
    GaveWayLeaves();
  }

  /** The first job, cancelled but still in its loop. */
  function Yielding(): World
  {
    R(Some(1), [0, 1], [Job(0, Delaying(0), true), Job(0, Delaying(0), false)])
  }

  lemma YieldingOk()
    ensures SnapOk(C1(Some(1)), [0, 1], [Job(0, Delaying(0), true), Job(0, Delaying(0), false)])
  {
  }

  /** The first job's cancellation flag goes up. */
  lemma GaveWayCancel()
    ensures WF(Restarted()) && CancelJob(Restarted(), 0) == Yielding()
  {
    var w := Restarted();
    RestartedOk();
    SnapCancel(C1(Some(1)), [0, 1], w.jobs, 0);
  }

  /** Below the second job, the first cancels itself and goes straight to `finally`. */
  lemma GaveWayYield()
    ensures WF(Restarted()) && StepJob(Restarted(), 0, Quiet()) == (Finally(CancelJob(Restarted(), 0), 0), [End])
  {
    var w := Restarted();
    assert WF(w) by {
      RestartedOk();
      SnapWF(C1(Some(1)), [0, 1], w.jobs);
    }
    assert Top(w, 0) == Some(1);
    QuietYield(w, 0, 0, Quiet(), true, 1);
  }

  /** Its `finally` takes only its own entry off the stack and leaves the handle to the second job. */
  lemma GaveWayLeaves()
    ensures WF(Yielding()) && WF(GaveWay()) && Finally(Yielding(), 0) == GaveWay()
  {
    var y := Yielding();
    var t := GaveWay();
    assert WF(y) by {
      YieldingOk();
      SnapWF(C1(Some(1)), [0, 1], y.jobs);
    }
    assert WF(t) by {
      GaveWayOk();
      SnapWF(C1(Some(1)), [1], t.jobs);
    }
    var f := Finally(y, 0);
    assert f.stacks[0] == [1] by {
      CommandStack.RemoveFirstOccurrence([0, 1], 0, 0);
      assert [0, 1][..0] + [0, 1][1..] == [1];
    }
    assert f.cmds == t.cmds;
    assert f.stacks == t.stacks;
    assert f.jobs == t.jobs;
  }

  /** The second job, now on top, executes. */
  lemma GaveWayExecutes()
    ensures WF(GaveWay()) && StepJob(GaveWay(), 1, Quiet()).1 == [Execute]
  {
    var r := GaveWay();
    assert WF(r) by {
      GaveWayOk();
      SnapWF(C1(Some(1)), [1], r.jobs);
    }
    assert Top(r, 1) == Some(1);
    QuietExecute(r, 1, 0, Quiet(), true);
  }
}

=== FILE: scheduler.dfy ===
/**
  The scheduler (Scheduler.kt): one `update()` tick runs every subsystem's
  pump and periodic step, polls the triggers (whose starts and cancels take
  effect at once) and then reaps the running list; `killAllCommands()` resets
  every subsystem's command queue.
 */
module Scheduler {
  import opened Wrappers
  import CommandStack
  import Triggers
  import opened Commands

  // ---------------------------------------------------------------- trigger actions

  /** The commands whose `isRunning()` holds. */
  function RunningSet(w: World): (r: set<CmdId>)
    requires WF(w)
    ensures forall c: CmdId :: c in r <==> c < |w.cmds| && IsRunning(w, c)
  {
    set c | 0 <= c < |w.cmds| && IsRunning(w, c)
  }

  /** Every command an action list names exists. */
  predicate Known(w: World, acts: seq<Triggers.Action>)
  {
    forall i :: 0 <= i < |acts| ==> acts[i].cmd < |w.cmds|
  }

  /**
    What starts and cancels may change: new jobs appear (dispatched, not yet
    entered), handles move and cancellation flags are set; stacks, the
    running list, the dirty flag, configurations and program points stay.
   */
  predicate Grows(w: World, r: World)
  {
    && |r.cmds| == |w.cmds| && |r.jobs| >= |w.jobs|
    && r.stacks == w.stacks && r.running == w.running && r.dirty == w.dirty
    && r.triggersEnabled == w.triggersEnabled
    && (forall c :: 0 <= c < |w.cmds| ==> r.cmds[c].cfg == w.cmds[c].cfg)
    && (forall k :: 0 <= k < |w.jobs| ==> r.jobs[k].cmd == w.jobs[k].cmd && r.jobs[k].pc == w.jobs[k].pc)
    && (forall k :: 0 <= k < |w.jobs| && w.jobs[k].cancelled ==> r.jobs[k].cancelled)
    && (forall k :: |w.jobs| <= k < |r.jobs| ==> r.jobs[k].pc == Pending)
  }

  lemma GrowsTrans(a: World, b: World, c: World)
    requires Grows(a, b) && Grows(b, c)
    ensures Grows(a, c)
  {
  }

  /** What a trigger's `start()` or `cancel()` call does to the world. */
  function Apply(w: World, a: Triggers.Action): (r: World)
    requires WF(w) && a.cmd < |w.cmds|
    ensures WF(r) && Grows(w, r) && r.triggers == w.triggers
  {
    match a
    case Start(c) => Start(w, c).0
    case Cancel(c) => Cancel(w, c).0
  }

  /** A start makes exactly its command running; a cancel makes exactly its command stop. */
  lemma ApplyRunningSet(w: World, a: Triggers.Action)
    requires WF(w) && a.cmd < |w.cmds|
    ensures RunningSet(Apply(w, a)) == Triggers.AfterActions(RunningSet(w), [a])
  {
    var r := Apply(w, a);
    assert [a][..0] == [];
    forall d | 0 <= d < |w.cmds| && d != a.cmd
      ensures IsRunning(r, d) == IsRunning(w, d)
    {
      assert CmdOk(w, d);
      if a.Cancel? && w.cmds[d].job.Some? {
        assert w.cmds[d].job != w.cmds[a.cmd].job by { assert CmdOk(w, a.cmd); }
      }
    }
  }

  /** Applies actions in order. */
  function ApplyAll(w: World, acts: seq<Triggers.Action>): (r: World)
    requires WF(w) && Known(w, acts)
    ensures WF(r) && Grows(w, r) && r.triggers == w.triggers
    decreases |acts|
  {
    if |acts| == 0 then w
    else
      var before := ApplyAll(w, acts[..|acts| - 1]);
      var r := Apply(before, acts[|acts| - 1]);
      GrowsTrans(w, before, r);
      r
  }

  /** The running set after applying actions is the one the trigger model predicts. */
  lemma {:induction false} ApplyAllRunningSet(w: World, acts: seq<Triggers.Action>)
    requires WF(w) && Known(w, acts)
    ensures RunningSet(ApplyAll(w, acts)) == Triggers.AfterActions(RunningSet(w), acts)
    decreases |acts|
  {
    if |acts| > 0 {
      var init, last := acts[..|acts| - 1], acts[|acts| - 1];
      assert acts == init + [last];
      var before := ApplyAll(w, init);
      var r0 := RunningSet(w);
      assert RunningSet(before) == Triggers.AfterActions(r0, init) by {
        ApplyAllRunningSet(w, init);
      }
      assert RunningSet(ApplyAll(w, acts)) == Triggers.AfterActions(RunningSet(before), [last]) by {
        ApplyRunningSet(before, last);
      }
      assert Triggers.AfterActions(r0, acts) == Triggers.AfterActions(Triggers.AfterActions(r0, init), [last]) by {
        Triggers.AfterActionsAppend(r0, init, [last]);
      }
    }
  }

  // ---------------------------------------------------------------- trigger phase

  /** Stores the triggers' new states; polling never changes bindings. */
  function SetTriggers(w: World, ts: seq<Triggers.Trigger>): (r: World)
    requires WF(w) && |ts| == |w.triggers|
    requires forall i :: 0 <= i < |ts| ==> ts[i].binds == w.triggers[i].binds
    ensures WF(r) && r == w.(triggers := ts)
  {
    var r := w.(triggers := ts);
    assert forall c :: 0 <= c < |r.cmds| ==> CmdOk(w, c) ==> CmdOk(r, c);
    assert forall k :: 0 <= k < |r.jobs| ==> JobOk(w, k) ==> JobOk(r, k);
    assert forall s :: 0 <= s < |r.stacks| ==> StackOk(w, s) ==> StackOk(r, s);
    assert forall i :: 0 <= i < |ts| ==> TriggerOk(w, w.triggers[i]) ==> TriggerOk(r, ts[i]);
    r
  }

  /**
    The trigger phase of a tick (`updateTriggers`): with the global switch
    off nothing is polled; with it on every trigger is polled in
    registration order and the starts and cancels are carried out in the
    order the polls produce them. Each poll sees `isRunning()` as the
    actions before it left it (see `PollSeesEarlierActions`).
   */
  function TriggerPhase(w: World, levels: seq<bool>): (r: (World, seq<Triggers.Action>))
    requires WF(w) && |levels| == |w.triggers|
    ensures WF(r.0) && Grows(w, r.0)
    ensures (r.0.triggers, r.1) == Triggers.UpdateTriggers(w.triggersEnabled, w.triggers, levels, RunningSet(w))
    ensures RunningSet(r.0) == Triggers.AfterActions(RunningSet(w), r.1)
  {
    var u := Triggers.UpdateTriggers(w.triggersEnabled, w.triggers, levels, RunningSet(w));
    assert forall i :: 0 <= i < |u.0| ==> u.0[i].binds == w.triggers[i].binds;
    var w1 := SetTriggers(w, u.0);
    assert Known(w1, u.1) by {
      if w.triggersEnabled {
        PollAllKnown(w, w.triggers, levels, RunningSet(w));
      }
    }
    assert RunningSet(w1) == RunningSet(w) by {
      assert forall c: CmdId :: c < |w.cmds| ==> IsRunning(w1, c) == IsRunning(w, c);
    }
    ApplyAllRunningSet(w1, u.1);
    (ApplyAll(w1, u.1), u.1)
  }

  /** Polls only ever name commands bound to the polled triggers. */
  lemma {:induction false} PollAllKnown(w: World, ts: seq<Triggers.Trigger>, levels: seq<bool>, running: set<CmdId>)
    requires |levels| == |ts| && forall i :: 0 <= i < |ts| ==> TriggerOk(w, ts[i])
    ensures Known(w, Triggers.PollAll(ts, levels, running).1)
  {
    if |ts| > 0 {
      var p := Triggers.Poll(ts[0], levels[0], running);
      Triggers.PollActsOnlyOnBound(ts[0], levels[0], running);
      assert TriggerOk(w, ts[0]);
      PollAllKnown(w, ts[1..], levels[1..], Triggers.AfterActions(running, p.1));
    }
  }

  /**
    Carrying out the actions of the triggers polled so far gives exactly
    the `isRunning()` values the next poll is given, so collecting the
    actions first and applying them afterwards is the same as the source's
    polls that start and cancel as they go.
   */
  lemma PollSeesEarlierActions(w: World, levels: seq<bool>, k: nat)
    requires WF(w) && |levels| == |w.triggers| && k <= |w.triggers|
    ensures var before := Triggers.PollAll(w.triggers[..k], levels[..k], RunningSet(w));
      && Known(w, before.1)
      && Triggers.PollAll(w.triggers, levels, RunningSet(w))
         == Triggers.Join(before, Triggers.PollAll(w.triggers[k..], levels[k..], RunningSet(ApplyAll(w, before.1))))
  {
    var rs := RunningSet(w);
    var ts1, l1 := w.triggers[..k], levels[..k];
    assert w.triggers == ts1 + w.triggers[k..] && levels == l1 + levels[k..];
    var before := Triggers.PollAll(ts1, l1, rs);
    assert forall i :: 0 <= i < k ==> TriggerOk(w, ts1[i]) by {
      assert forall i :: 0 <= i < k ==> ts1[i] == w.triggers[i];
    }
    PollAllKnown(w, ts1, l1, rs);
    ApplyAllRunningSet(w, before.1);
    assert RunningSet(ApplyAll(w, before.1)) == Triggers.AfterActions(rs, before.1);
    Triggers.PollAllAppend(w.triggers[..k], w.triggers[k..], levels[..k], levels[k..], RunningSet(w));
  }

  // ---------------------------------------------------------------- reaping

  /** Every command the list names exists. */
  predicate Cmds(w: World, cs: seq<CmdId>)
  {
    forall i :: 0 <= i < |cs| ==> cs[i] < |w.cmds|
  }

  /** The commands of `cs` whose `isRunning()` holds, in their order. */
  function Live(w: World, cs: seq<CmdId>): (r: seq<CmdId>)
    requires WF(w) && Cmds(w, cs)
    ensures Cmds(w, r)
    ensures forall c :: c in r <==> c in cs && IsRunning(w, c)
    ensures forall c :: multiset(r)[c] == if c in cs && IsRunning(w, c) then multiset(cs)[c] else 0
    ensures (forall i :: 0 <= i < |cs| ==> IsRunning(w, cs[i])) ==> r == cs
  {
    if |cs| == 0 then []
    else
      var rest := Live(w, cs[1..]);
      var r := if IsRunning(w, cs[0]) then [cs[0]] + rest else rest;
      LiveCons(w, cs, rest, r);
      r
  }

  /** Everything `Live` promises, carried from the tail of the list to the whole list. */
  lemma LiveCons(w: World, cs: seq<CmdId>, rest: seq<CmdId>, r: seq<CmdId>)
    requires WF(w) && Cmds(w, cs) && |cs| > 0 && Cmds(w, rest)
    requires forall c :: c in rest <==> c in cs[1..] && IsRunning(w, c)
    requires forall c :: multiset(rest)[c] == if c in cs[1..] && IsRunning(w, c) then multiset(cs[1..])[c] else 0
    requires (forall i :: 0 <= i < |cs[1..]| ==> IsRunning(w, cs[1..][i])) ==> rest == cs[1..]
    requires r == if IsRunning(w, cs[0]) then [cs[0]] + rest else rest
    ensures Cmds(w, r)
    ensures forall c :: c in r <==> c in cs && IsRunning(w, c)
    ensures forall c :: multiset(r)[c] == if c in cs && IsRunning(w, c) then multiset(cs)[c] else 0
    ensures (forall i :: 0 <= i < |cs| ==> IsRunning(w, cs[i])) ==> r == cs
  {
    assert cs == [cs[0]] + cs[1..];
    assert multiset(cs) == multiset{cs[0]} + multiset(cs[1..]);
    assert multiset(r) == if IsRunning(w, cs[0]) then multiset{cs[0]} + multiset(rest) else multiset(rest);
  }

  /** Filtering a concatenation filters each part. */
  lemma {:induction false} LiveAppend(w: World, xs: seq<CmdId>, ys: seq<CmdId>)
    requires WF(w) && Cmds(w, xs) && Cmds(w, ys)
    ensures Cmds(w, xs + ys) && Live(w, xs + ys) == Live(w, xs) + Live(w, ys)
  {
    var zs := xs + ys;
    if |xs| > 0 {
      assert zs[0] == xs[0] && zs[1..] == xs[1..] + ys;
      LiveAppend(w, xs[1..], ys);
    } else {
      assert zs == ys;
    }
  }

  /** A command of the running list that reaping removes, with its job and subsystem. */
  predicate DeadOn(w: World, c: CmdId, s: SubsystemId)
    requires WF(w) && c < |w.cmds|
  {
    !IsRunning(w, c) && w.cmds[c].job.Some? && w.cmds[c].cfg.subsystem == Some(s)
  }

  /** Takes the job of command `c` off its subsystem's stack if `c` is dead. */
  function DetachIfDead(w: World, stacks: seq<CommandStack.Stack>, c: CmdId): (r: seq<CommandStack.Stack>)
    requires WF(w) && c < |w.cmds|
    ensures |r| == |stacks|
    ensures forall s, x :: 0 <= s < |stacks| && x in r[s] ==> x in stacks[s]
    ensures forall s, x :: 0 <= s < |stacks| && x in stacks[s] && x !in r[s] ==> DeadOn(w, c, s) && x == w.cmds[c].job.value
    ensures forall s :: 0 <= s < |stacks| && CommandStack.NoDup(stacks[s]) ==> CommandStack.NoDup(r[s])
    ensures forall s :: 0 <= s < |stacks| && CommandStack.NoDup(stacks[s]) && DeadOn(w, c, s) ==> w.cmds[c].job.value !in r[s]
    ensures forall s :: 0 <= s < |stacks| && !DeadOn(w, c, s) ==> r[s] == stacks[s]
  {
    if !IsRunning(w, c) && w.cmds[c].job.Some? then Detach(stacks, w.cmds[c].cfg.subsystem, w.cmds[c].job.value)
    else stacks
  }

  /** Takes the job of each dead command of `cs` off its subsystem's stack, in list order. */
  function DetachDead(w: World, stacks: seq<CommandStack.Stack>, cs: seq<CmdId>): (r: seq<CommandStack.Stack>)
    requires WF(w) && Cmds(w, cs)
    ensures |r| == |stacks|
    ensures forall s, x :: 0 <= s < |stacks| && x in r[s] ==> x in stacks[s]
    ensures forall s :: 0 <= s < |stacks| && CommandStack.NoDup(stacks[s]) ==> CommandStack.NoDup(r[s])
    ensures forall s :: 0 <= s < |stacks| && stacks[s] == [] ==> r[s] == []
    ensures forall s :: 0 <= s < |stacks| && (forall i :: 0 <= i < |cs| ==> !DeadOn(w, cs[i], s)) ==> r[s] == stacks[s]
    decreases |cs|
  {
    if |cs| == 0 then stacks
    else
      DetachDead(w, DetachIfDead(w, stacks, cs[0]), cs[1..])
  }

  /** Detaching dead commands removes only jobs that are cancelled or completed. */
  lemma {:induction false} DetachDeadOnlyInactive(w: World, stacks: seq<CommandStack.Stack>, cs: seq<CmdId>, s: SubsystemId, x: JobId)
    requires WF(w) && Cmds(w, cs) && s < |stacks| && x in stacks[s] && x !in DetachDead(w, stacks, cs)[s]
    ensures x < |w.jobs| && !IsActive(w.jobs[x])
    decreases |cs|
  {
    var c := cs[0];
    var next := DetachIfDead(w, stacks, c);
    assert DetachDead(w, stacks, cs) == DetachDead(w, next, cs[1..]);
    if x in next[s] {
      DetachDeadOnlyInactive(w, next, cs[1..], s, x);
    } else {
      assert x == w.cmds[c].job.value;
    }
  }

  /**
    The reaping loop of `update()`: every command whose handle is absent,
    cancelled or completed leaves the running list, and its job leaves its
    subsystem's stack.
   */
  function Reap(w: World): (r: World)
    requires WF(w)
    ensures WF(r) && r == w.(running := r.running, stacks := r.stacks) && |r.stacks| == |w.stacks|
    ensures forall i :: 0 <= i < |r.running| ==> IsRunning(r, r.running[i])
    ensures forall c :: c in r.running <==> c in w.running && IsRunning(w, c)
    ensures forall c :: multiset(r.running)[c] == if c in w.running && IsRunning(w, c) then multiset(w.running)[c] else 0
    ensures forall s, x :: 0 <= s < |w.stacks| && x in r.stacks[s] ==> x in w.stacks[s]
    ensures forall s :: 0 <= s < |w.stacks| && w.stacks[s] == [] ==> r.stacks[s] == []
    ensures forall s :: 0 <= s < |w.stacks| && (forall i :: 0 <= i < |w.running| ==> !DeadOn(w, w.running[i], s))
              ==> r.stacks[s] == w.stacks[s]
    ensures r.stacks == DetachDead(w, w.stacks, w.running)
  {
    assert Cmds(w, w.running);
    var w1 := Restack(w, DetachDead(w, w.stacks, w.running));
    var live := Live(w, w.running);
    assert Cmds(w1, live);
    var r := WithRunning(w1, live);
    assert forall c :: 0 <= c < |w.cmds| ==> IsRunning(r, c) == IsRunning(w, c) by {
      assert forall c :: 0 <= c < |w.cmds| ==> HandleOf(r, c) == HandleOf(w, c);
    }
    r
  }

  /** Replaces the stacks by ones that hold no job the old ones did not. */
  function Restack(w: World, stacks: seq<CommandStack.Stack>): (r: World)
    requires WF(w) && |stacks| == |w.stacks|
    requires forall s, x :: 0 <= s < |stacks| && x in stacks[s] ==> x in w.stacks[s]
    ensures WF(r) && r == w.(stacks := stacks)
  {
    var r := w.(stacks := stacks);
    assert forall c :: 0 <= c < |r.cmds| ==> CmdOk(w, c) ==> CmdOk(r, c);
    assert forall k :: 0 <= k < |r.jobs| ==> JobOk(w, k) ==> JobOk(r, k);
    assert forall s :: 0 <= s < |r.stacks| ==> StackOk(w, s) ==> StackOk(r, s);
    assert forall i :: 0 <= i < |r.triggers| ==> TriggerOk(w, r.triggers[i]) ==> TriggerOk(r, r.triggers[i]);
    r
  }

  /** Replaces the running list. */
  function WithRunning(w: World, cs: seq<CmdId>): (r: World)
    requires WF(w) && Cmds(w, cs)
    ensures WF(r) && r == w.(running := cs)
  {
    var r := w.(running := cs);
    assert forall c :: 0 <= c < |r.cmds| ==> CmdOk(w, c) ==> CmdOk(r, c);
    assert forall k :: 0 <= k < |r.jobs| ==> JobOk(w, k) ==> JobOk(r, k);
    assert forall s :: 0 <= s < |r.stacks| ==> StackOk(w, s) ==> StackOk(r, s);
    assert forall i :: 0 <= i < |r.triggers| ==> TriggerOk(w, r.triggers[i]) ==> TriggerOk(r, r.triggers[i]);
    r
  }

  /** Once a dead command's job is detached, later detaching never puts it back. */
  lemma {:induction false} DetachDeadRemoves(w: World, stacks: seq<CommandStack.Stack>, cs: seq<CmdId>, i: nat, s: SubsystemId)
    requires WF(w) && Cmds(w, cs) && i < |cs| && s < |stacks|
    requires DeadOn(w, cs[i], s) && CommandStack.NoDup(stacks[s])
    ensures w.cmds[cs[i]].job.value !in DetachDead(w, stacks, cs)[s]
    decreases |cs|
  {
    var c := cs[0];
    var x := w.cmds[cs[i]].job.value;
    var next := DetachIfDead(w, stacks, c);
    assert DetachDead(w, stacks, cs) == DetachDead(w, next, cs[1..]);
    assert CommandStack.NoDup(next[s]);
    if i == 0 {
      assert x !in next[s];
    } else {
      assert cs[1..][i - 1] == cs[i];
      DetachDeadRemoves(w, next, cs[1..], i - 1, s);
    }
  }

  /**
    Each reaped command's job is off its subsystem's stack afterwards
    (given the stack held it at most once).
   */
  lemma ReapDetachesDead(w: World, c: CmdId, s: SubsystemId)
    requires WF(w) && c in w.running && s < |w.stacks|
    requires DeadOn(w, c, s) && CommandStack.NoDup(w.stacks[s])
    ensures HandleOf(w, c).value !in Reap(w).stacks[s] && c !in Reap(w).running
  {
    assert Cmds(w, w.running);
    var i :| 0 <= i < |w.running| && w.running[i] == c;
    DetachDeadRemoves(w, w.stacks, w.running, i, s);
  }

  /** Reaping twice is reaping once: nothing is left to reap. */
  lemma ReapIdempotent(w: World)
    requires WF(w)
    ensures Reap(Reap(w)) == Reap(w)
  {
    var r := Reap(w);
    var r2 := Reap(r);
    assert Cmds(r, r.running);
    assert r2.running == r.running;
    assert forall s :: 0 <= s < |r.stacks| ==> r2.stacks[s] == r.stacks[s];
  }

  // ---------------------------------------------------------------- killAllCommands

  /** Every id in the list is a job. */
  predicate Jobs(w: World, js: seq<JobId>)
  {
    forall i :: 0 <= i < |js| ==> js[i] < |w.jobs|
  }

  /** Cancels each job of the list in order. */
  function CancelJobs(w: World, js: seq<JobId>): (r: World)
    requires WF(w) && Jobs(w, js)
    ensures WF(r) && r == w.(jobs := r.jobs) && |r.jobs| == |w.jobs|
    ensures forall k :: 0 <= k < |w.jobs| ==> r.jobs[k].cmd == w.jobs[k].cmd && r.jobs[k].pc == w.jobs[k].pc
    ensures forall k :: 0 <= k < |w.jobs| && w.jobs[k].cancelled ==> r.jobs[k].cancelled
    ensures forall k :: 0 <= k < |w.jobs| && k in js ==> !IsActive(r.jobs[k])
    ensures forall k :: 0 <= k < |w.jobs| && k !in js ==> r.jobs[k] == w.jobs[k]
    decreases |js|
  {
    if |js| == 0 then w
    else
      var w1 := CancelJob(w, js[0]);
      assert forall k :: k in js <==> k == js[0] || k in js[1..];
      CancelJobs(w1, js[1..])
  }

  /**
    `resetCommandQueue()` of subsystem `s` (the Subsystem class is not part
    of this model): every job on its stack is cancelled and the stack is
    emptied.
   */
  function ResetCommandQueue(w: World, s: SubsystemId): (r: World)
    requires WF(w) && s < |w.stacks|
    ensures WF(r) && r == w.(jobs := r.jobs, stacks := w.stacks[s := []]) && |r.jobs| == |w.jobs|
    ensures forall k :: 0 <= k < |w.jobs| ==> r.jobs[k].cmd == w.jobs[k].cmd && r.jobs[k].pc == w.jobs[k].pc
    ensures forall k :: 0 <= k < |w.jobs| && w.jobs[k].cancelled ==> r.jobs[k].cancelled
    ensures forall k :: 0 <= k < |w.jobs| && k in w.stacks[s] ==> !IsActive(r.jobs[k])
    ensures forall k :: 0 <= k < |w.jobs| && k !in w.stacks[s] ==> r.jobs[k] == w.jobs[k]
  {
    assert Jobs(w, w.stacks[s]) by {
      assert StackOk(w, s);
      assert forall i :: 0 <= i < |w.stacks[s]| ==> w.stacks[s][i] in w.stacks[s];
    }
    var w1 := CancelJobs(w, w.stacks[s]);
    Restack(w1, w1.stacks[s := []])
  }

  /** Resets the queues of subsystems `s`, `s + 1`, ... in registration order. */
  function KillFrom(w: World, s: nat): (r: World)
    requires WF(w) && s <= |w.stacks|
    ensures WF(r) && r == w.(jobs := r.jobs, stacks := r.stacks) && |r.jobs| == |w.jobs| && |r.stacks| == |w.stacks|
    ensures forall t :: 0 <= t < s ==> r.stacks[t] == w.stacks[t]
    ensures forall t :: s <= t < |w.stacks| ==> r.stacks[t] == []
    ensures forall k :: 0 <= k < |w.jobs| ==> r.jobs[k].cmd == w.jobs[k].cmd && r.jobs[k].pc == w.jobs[k].pc
    ensures forall k :: 0 <= k < |w.jobs| && w.jobs[k].cancelled ==> r.jobs[k].cancelled
    ensures forall k, t :: 0 <= k < |w.jobs| && s <= t < |w.stacks| && k in w.stacks[t] ==> !IsActive(r.jobs[k])
    ensures forall k :: 0 <= k < |w.jobs| && (forall t :: s <= t < |w.stacks| ==> k !in w.stacks[t])
              ==> r.jobs[k] == w.jobs[k]
    decreases |w.stacks| - s
  {
    if s == |w.stacks| then w
    else
      var w1 := ResetCommandQueue(w, s);
      var r := KillFrom(w1, s + 1);
      forall k, t | 0 <= k < |w.jobs| && s <= t < |w.stacks| && k in w.stacks[t]
        ensures !IsActive(r.jobs[k])
      {
        if t == s {
          assert !IsActive(w1.jobs[k]);
        } else {
          assert k in w1.stacks[t];
        }
      }
      r
  }

  /**
    `killAllCommands()`: every registered subsystem's queue is reset. All
    stacks end up empty and every job that was on one is no longer active;
    jobs on no stack (commands without a subsystem, jobs not yet entered)
    are untouched, and so are the running list and the dirty flag.
   */
  function KillAllCommands(w: World): (r: World)
    requires WF(w)
    ensures WF(r) && r == w.(jobs := r.jobs, stacks := r.stacks) && |r.jobs| == |w.jobs| && |r.stacks| == |w.stacks|
    ensures forall t :: 0 <= t < |w.stacks| ==> r.stacks[t] == []
    ensures forall k :: 0 <= k < |w.jobs| ==> r.jobs[k].cmd == w.jobs[k].cmd && r.jobs[k].pc == w.jobs[k].pc
    ensures forall k :: 0 <= k < |w.jobs| && w.jobs[k].cancelled ==> r.jobs[k].cancelled
    ensures forall k, t :: 0 <= k < |w.jobs| && 0 <= t < |w.stacks| && k in w.stacks[t] ==> !IsActive(r.jobs[k])
    ensures forall k :: 0 <= k < |w.jobs| && (forall t :: 0 <= t < |w.stacks| ==> k !in w.stacks[t])
              ==> r.jobs[k] == w.jobs[k]
  {
    KillFrom(w, 0)
  }

  /**
    After `killAllCommands()` and the next reap, the running list holds no
    command whose job was on a subsystem stack.
   */
  lemma KillAllThenReap(w: World)
    requires WF(w)
    ensures var r := Reap(KillAllCommands(w));
      && (forall t :: 0 <= t < |r.stacks| ==> r.stacks[t] == [])
      && (forall c :: c in r.running ==>
            c < |w.cmds| && w.cmds[c].job.Some? && forall t :: 0 <= t < |w.stacks| ==> w.cmds[c].job.value !in w.stacks[t])
  {
    var k := KillAllCommands(w);
    var r := Reap(k);
    forall t | 0 <= t < |r.stacks|
      ensures r.stacks[t] == []
    {
      assert k.stacks[t] == [];
    }
    forall c | c in r.running
      ensures c < |w.cmds| && w.cmds[c].job.Some? && forall t :: 0 <= t < |w.stacks| ==> w.cmds[c].job.value !in w.stacks[t]
    {
      assert c in k.running && IsRunning(k, c);
      KillAllSpares(w, k, c);
    }
  }

  lemma KillAllSpares(w: World, k: World, c: CmdId)
    requires WF(w) && k == KillAllCommands(w) && c in w.running && IsRunning(k, c)
    ensures c < |w.cmds| && w.cmds[c].job.Some? && forall t :: 0 <= t < |w.stacks| ==> w.cmds[c].job.value !in w.stacks[t]
  {
    var i :| 0 <= i < |w.running| && w.running[i] == c;
    assert c < |w.cmds|;
    var j := HandleOf(k, c).value;
    assert IsActive(k.jobs[j]);
  }

  // ---------------------------------------------------------------- update()

  /**
    The observable calls of one tick: a subsystem's pump and periodic
    steps (whose bodies belong to the application), the poll of one
    trigger, and the reaping loop.
   */
  datatype PhaseEvent = Pump(sub: SubsystemId) | Periodic(sub: SubsystemId) | Poll(trigger: nat) | ReapRunning

  /** The three phases of a tick, in the order they must run. */
  function Stage(e: PhaseEvent): nat
  {
    match e
    case Pump(_) => 0
    case Periodic(_) => 0
    case Poll(_) => 1
    case ReapRunning => 2
  }

  /**
    The subsystem phase for subsystems `0 .. n - 1` in registration order:
    each one's pump and then its periodic step, or in test mode only the
    periodic step.
   */
  function SubsystemPhase(n: nat, testMode: bool): (r: seq<PhaseEvent>)
    ensures forall i :: 0 <= i < |r| ==> Stage(r[i]) == 0
    ensures testMode ==> |r| == n && forall s :: 0 <= s < n ==> r[s] == Periodic(s)
    ensures !testMode ==> |r| == 2 * n && forall s :: 0 <= s < n ==> r[2 * s] == Pump(s) && r[2 * s + 1] == Periodic(s)
  {
    if n == 0 then []
    else
      var before := SubsystemPhase(n - 1, testMode);
      var step := if testMode then [Periodic(n - 1)] else [Pump(n - 1), Periodic(n - 1)];
      before + step
  }

  /** The trigger phase: every trigger in registration order, or nothing when switched off. */
  function PollPhase(m: nat, enabled: bool): (r: seq<PhaseEvent>)
    ensures |r| == if enabled then m else 0
    ensures forall i :: 0 <= i < |r| ==> r[i] == Poll(i)
  {
    if !enabled || m == 0 then [] else PollPhase(m - 1, enabled) + [Poll(m - 1)]
  }

  /** The calls of one tick over `n` subsystems and `m` triggers. */
  function PhaseLog(n: nat, m: nat, testMode: bool, enabled: bool): (r: seq<PhaseEvent>)
    ensures |r| > 0 && r[|r| - 1] == ReapRunning
  {
    SubsystemPhase(n, testMode) + PollPhase(m, enabled) + [ReapRunning]
  }

  /** The phases run in order: every subsystem step, then every poll, then the reap. */
  lemma PhasesInOrder(n: nat, m: nat, testMode: bool, enabled: bool)
    ensures var r := PhaseLog(n, m, testMode, enabled);
      forall a, b :: 0 <= a < b < |r| ==> Stage(r[a]) <= Stage(r[b])
  {
    var sub := SubsystemPhase(n, testMode);
    var polls := PollPhase(m, enabled);
    var r := sub + polls + [ReapRunning];
    forall a, b | 0 <= a < b < |r|
      ensures Stage(r[a]) <= Stage(r[b])
    {
      if b < |sub| {
        assert r[a] == sub[a] && r[b] == sub[b];
      } else if a < |sub| {
        assert r[a] == sub[a];
      } else if b < |sub| + |polls| {
        assert r[a] == polls[a - |sub|] && r[b] == polls[b - |sub|];
      } else {
        assert r[b] == ReapRunning;
      }
    }
  }

  /**
    What each position of the tick holds: each subsystem once in
    registration order (its pump only outside test mode, right before its
    periodic step), each trigger polled once in registration order if the
    switch is on, and one reap at the end.
   */
  lemma PhaseContents(n: nat, m: nat, testMode: bool, enabled: bool)
    ensures var r := PhaseLog(n, m, testMode, enabled);
      var k := if testMode then n else 2 * n;
      && |r| == k + (if enabled then m else 0) + 1
      && (testMode ==> forall s :: 0 <= s < n ==> r[s] == Periodic(s))
      && (!testMode ==> forall s :: 0 <= s < n ==> r[2 * s] == Pump(s) && r[2 * s + 1] == Periodic(s))
      && (enabled ==> forall i :: 0 <= i < m ==> r[k + i] == Poll(i))
      && (forall i :: 0 <= i < |r| ==> r[i].Pump? ==> !testMode)
  {
    LogSubsystems(n, m, testMode, enabled);
    LogPolls(n, m, testMode, enabled);
    LogPumps(n, m, testMode, enabled);
  }

  /** The log opens with the subsystem phase. */
  lemma LogSubsystems(n: nat, m: nat, testMode: bool, enabled: bool)
    ensures var r := PhaseLog(n, m, testMode, enabled);
      && (testMode ==> forall s :: 0 <= s < n ==> r[s] == Periodic(s))
      && (!testMode ==> forall s :: 0 <= s < n ==> r[2 * s] == Pump(s) && r[2 * s + 1] == Periodic(s))
  {
    var sub := SubsystemPhase(n, testMode);
    var r := sub + PollPhase(m, enabled) + [ReapRunning];
    if testMode {
      forall s | 0 <= s < n ensures r[s] == Periodic(s) {
        assert r[s] == sub[s];
      }
    } else {
      forall s | 0 <= s < n ensures r[2 * s] == Pump(s) && r[2 * s + 1] == Periodic(s) {
        assert r[2 * s] == sub[2 * s] && r[2 * s + 1] == sub[2 * s + 1];
      }
    }
  }

  /** After the subsystem phase come the polls, one per trigger when the switch is on. */
  lemma LogPolls(n: nat, m: nat, testMode: bool, enabled: bool)
    ensures var r := PhaseLog(n, m, testMode, enabled);
      var k := if testMode then n else 2 * n;
      && |r| == k + (if enabled then m else 0) + 1
      && (enabled ==> forall i :: 0 <= i < m ==> r[k + i] == Poll(i))
  {
    var sub := SubsystemPhase(n, testMode);
    var polls := PollPhase(m, enabled);
    var r := sub + polls + [ReapRunning];
    var k := |sub|;
    if enabled {
      forall i | 0 <= i < m ensures r[k + i] == Poll(i) {
        assert r[k + i] == polls[i];
      }
    }
  }

  /** `pump` appears only outside test mode. */
  lemma LogPumps(n: nat, m: nat, testMode: bool, enabled: bool)
    ensures var r := PhaseLog(n, m, testMode, enabled);
      forall i :: 0 <= i < |r| ==> r[i].Pump? ==> !testMode
  {
    var sub := SubsystemPhase(n, testMode);
    var polls := PollPhase(m, enabled);
    var r := sub + polls + [ReapRunning];
    var k := |sub|;
    forall i | 0 <= i < |r| ensures r[i].Pump? ==> !testMode {
      if i < k {
        assert r[i] == sub[i];
      } else if i < k + |polls| {
        assert r[i] == polls[i - k];
      }
    }
  }

  /**
    `update()`: the subsystem phase, then the trigger phase (gated by the
    global switch), then reaping. Answers the new world and the trigger
    actions carried out. `levels` holds the level each trigger reads this
    tick. The subsystem phase calls application code only and changes
    nothing here; the order of the calls is `PhaseLog`.
   */
  function Update(w: World, testMode: bool, levels: seq<bool>): (r: (World, seq<Triggers.Action>))
    requires WF(w) && |levels| == |w.triggers|
    ensures WF(r.0)
    ensures (r.0.triggers, r.1) == Triggers.UpdateTriggers(w.triggersEnabled, w.triggers, levels, RunningSet(w))
    // the reap sees the commands as the trigger actions left them, and changes no `isRunning()`
    ensures RunningSet(r.0) == Triggers.AfterActions(RunningSet(w), r.1)
    ensures forall c :: c in r.0.running <==> c in w.running && c in RunningSet(r.0)
    ensures forall i :: 0 <= i < |r.0.running| ==> IsRunning(r.0, r.0.running[i])
    ensures r.0.dirty == w.dirty
    // a tick never resumes a coroutine: it only dispatches new ones
    ensures |r.0.jobs| >= |w.jobs| && |r.0.cmds| == |w.cmds| && |r.0.stacks| == |w.stacks|
    ensures forall c :: 0 <= c < |w.cmds| ==> r.0.cmds[c].cfg == w.cmds[c].cfg
    ensures forall k :: 0 <= k < |w.jobs| ==> r.0.jobs[k].cmd == w.jobs[k].cmd && r.0.jobs[k].pc == w.jobs[k].pc
    ensures forall k :: |w.jobs| <= k < |r.0.jobs| ==> r.0.jobs[k].pc == Pending
  {
    var (w1, acts) := TriggerPhase(w, levels);
    ReapKeepsRunning(w1);
    (Reap(w1), acts)
  }

  /** Reaping changes no command's `isRunning()`: it touches only the list and the stacks. */
  lemma ReapKeepsRunning(w: World)
    requires WF(w)
    ensures RunningSet(Reap(w)) == RunningSet(w)
  {
    var r := Reap(w);
    assert forall c: CmdId :: c < |w.cmds| ==> IsRunning(r, c) == IsRunning(w, c);
  }
}

=== FILE: traces.dfy ===
/**
  The hook protocol over whole traces: whatever the events and their order,
  every job's hook calls follow the protocol automaton, so `initialize()`
  runs first and at most once and `end()` runs last and exactly once for a
  job whose body has finished (Command.kt, `invoke`).
 */
module Traces {
  import opened Wrappers
  import opened Commands
  import opened Lifecycle
  import opened Framework

  /** The hooks job `k` called, in order. */
  function HooksOf(log: seq<Emit>, k: JobId): (r: seq<Hook>)
    ensures |r| <= |log|
    decreases |log|
  {
    if |log| == 0 then []
    else HooksOf(log[..|log| - 1], k) + (if log[|log| - 1].job == k then [log[|log| - 1].hook] else [])
  }

  /** Job `k`'s hooks are exactly the hooks the log records for it. */
  lemma {:induction false} HooksOfMembers(log: seq<Emit>, k: JobId)
    ensures forall h :: h in HooksOf(log, k) <==> Emit(k, h) in log
    decreases |log|
  {
    if |log| > 0 {
      var n := |log|;
      HooksOfMembers(log[..n - 1], k);
      assert log == log[..n - 1] + [log[n - 1]];
    }
  }

  lemma {:induction false} HooksOfAppend(a: seq<Emit>, b: seq<Emit>, k: JobId)
    ensures HooksOf(a + b, k) == HooksOf(a, k) + HooksOf(b, k)
    decreases |b|
  {
    if |b| == 0 {
      assert a + b == a;
    } else {
      var b' := b[..|b| - 1];
      assert (a + b)[..|a + b| - 1] == a + b';
      HooksOfAppend(a, b', k);
    }
  }

  lemma {:induction false} HooksOfTag(j: JobId, hs: seq<Hook>, k: JobId)
    ensures HooksOf(Tag(j, hs), k) == if j == k then hs else []
    decreases |hs|
  {
    if |hs| > 0 {
      var n := |hs|;
      var t := Tag(j, hs);
      assert t[..n - 1] == Tag(j, hs[..n - 1]);
      assert t[n - 1] == Emit(j, hs[n - 1]);
      HooksOfTag(j, hs[..n - 1], k);
      assert HooksOf(t, k) == HooksOf(t[..n - 1], k) + (if j == k then [hs[n - 1]] else []);
      assert hs == hs[..n - 1] + [hs[n - 1]];
    }
  }

  /** A job that made no call has no hooks. */
  lemma {:induction false} HooksOfAbsent(log: seq<Emit>, k: JobId)
    requires forall i :: 0 <= i < |log| ==> log[i].job < k
    ensures HooksOf(log, k) == []
    decreases |log|
  {
    if |log| > 0 {
      HooksOfAbsent(log[..|log| - 1], k);
    }
  }

  /** The phase job `k` is in before the trace; a job created during the trace starts `Fresh`. */
  function StartPhase(w: World, k: JobId): Phase
  {
    if k < |w.jobs| then PhaseOf(w.jobs[k].pc) else Fresh
  }

  /** One event moves job `k` along the protocol by the hooks it logs for `k`. */
  lemma ExecOneFollows(w: World, e: Event, recheck: bool, k: JobId)
    requires WF(w)
    ensures var r := ExecOne(w, e, recheck);
      k < |r.0.jobs| ==> Run(StartPhase(w, k), HooksOf(r.1, k)) == Some(PhaseOf(r.0.jobs[k].pc))
  {
    var r := ExecOne(w, e, recheck);
    if k < |r.0.jobs| {
      if Framework.Stepped(w, e) == Some(k) {
        HooksOfTag(k, StepWith(w, k, e.obs, recheck).1, k);
        StepFollowsProtocol(w, k, e.obs, recheck);
      } else {
        if Framework.Stepped(w, e).Some? {
          HooksOfTag(e.job, StepWith(w, e.job, e.obs, recheck).1, k);
        }
        assert HooksOf(r.1, k) == [];
      }
    }
  }

  /** Over any trace, each job's hook calls follow the protocol, ending in the phase its program point stands for. */
  lemma {:induction false} TraceFollowsProtocol(w: World, evs: seq<Event>, recheck: bool, k: JobId)
    requires WF(w)
    ensures var r := Exec(w, evs, recheck);
      k < |r.0.jobs| ==> Run(StartPhase(w, k), HooksOf(r.1, k)) == Some(PhaseOf(r.0.jobs[k].pc))
    ensures var r := Exec(w, evs, recheck);
      k >= |r.0.jobs| ==> HooksOf(r.1, k) == []
    decreases |evs|
  {
    var r := Exec(w, evs, recheck);
    if |evs| > 0 {
      var init := evs[..|evs| - 1];
      var e := evs[|evs| - 1];
      var (w1, log1) := Exec(w, init, recheck);
      var (w2, log2) := ExecOne(w1, e, recheck);
      assert r == (w2, log1 + log2);
      TraceFollowsProtocol(w, init, recheck, k);
      HooksOfAppend(log1, log2, k);
      ExecOneFollows(w1, e, recheck, k);
      if k < |w1.jobs| {
        RunAppend(StartPhase(w, k), HooksOf(log1, k), HooksOf(log2, k));
      } else {
        HooksOfAbsent(log1, k);
        assert StartPhase(w, k) == Fresh == StartPhase(w1, k);
        if k >= |w2.jobs| {
          HooksOfAbsent(log2, k);
        }
      }
    }
  }

  /**
    For a job created during the trace: `initialize()` is its first hook
    and is called at most once, exactly when the body was entered; `end()`
    is its last hook and is called exactly once if the body finished, and
    never otherwise.
   */
  lemma EndExactlyOnce(w: World, evs: seq<Event>, recheck: bool, k: JobId)
    requires WF(w) && |w.jobs| <= k
    ensures var r := Exec(w, evs, recheck); var hs := HooksOf(r.1, k);
      && (|hs| > 0 ==> hs[0] == Initialize && k < |r.0.jobs|)
      && multiset(hs)[Initialize] == (if k < |r.0.jobs| && PhaseOf(r.0.jobs[k].pc) != Fresh then 1 else 0)
      && multiset(hs)[End] == (if k < |r.0.jobs| && r.0.jobs[k].pc == Done(true) then 1 else 0)
      && (End in hs ==> hs[|hs| - 1] == End)
  {
    var r := Exec(w, evs, recheck);
    var hs := HooksOf(r.1, k);
    TraceFollowsProtocol(w, evs, recheck, k);
    if k < |r.0.jobs| {
      var pc := r.0.jobs[k].pc;
      ProtocolCounts(hs, PhaseOf(pc));
      assert PhaseOf(pc) == Ended <==> pc == Done(true);
    } else {
      assert hs == [];
    }
  }

  /** A call sequence the automaton accepts from `Fresh` starts with `initialize()` and calls it and `end()` at most once, `end()` last. */
  lemma ProtocolCounts(hs: seq<Hook>, q: Phase)
    requires Run(Fresh, hs) == Some(q)
    ensures |hs| > 0 ==> hs[0] == Initialize
    ensures multiset(hs)[Initialize] == if q != Fresh then 1 else 0
    ensures multiset(hs)[End] == if q == Ended then 1 else 0
    ensures End in hs ==> hs[|hs| - 1] == End
  {
    RunCountsInitialize(Fresh, hs);
    RunCountsEnd(Fresh, hs);
    if End in hs {
      EndIsLast(Fresh, hs);
    }
  }

  /** Nothing follows `end()` in an accepted hook sequence. */
  lemma {:induction false} EndIsLast(p: Phase, hs: seq<Hook>)
    requires Run(p, hs).Some? && End in hs
    ensures hs[|hs| - 1] == End
    decreases |hs|
  {
    var q := Accept(p, hs[0]).value;
    if hs[0] == End {
      RunCountsEnd(q, hs[1..]);
    } else {
      assert End in hs[1..];
      EndIsLast(q, hs[1..]);
    }
  }
}

=== FILE: trigger.dfy ===
/**
  Edge detection over a polled boolean level (Trigger.kt). A trigger remembers
  the level it read last, whether a hold has started and the toggle flag, and
  can have one command bound to each of five slots. Polling compares the new
  level with the previous one and answers with the starts and cancels the
  source performs, in the order it performs them.
 */
module Triggers {
  import opened Wrappers

  type CmdId = nat

  datatype Action = Start(cmd: CmdId) | Cancel(cmd: CmdId)

  datatype Slot = Press | Release | Hold | CancelOnPress | Toggle

  datatype Bindings = Bindings(
    press: Option<CmdId>,
    release: Option<CmdId>,
    hold: Option<CmdId>,
    cancel: Option<CmdId>,
    toggle: Option<CmdId>)

  datatype Trigger = Trigger(prevState: bool, holdStarted: bool, toggleState: bool, binds: Bindings)

  /** The four transitions between the previous and the current level. */
  datatype Edge = Idle | Rising | Held | Falling

  function EdgeOf(prev: bool, cur: bool): Edge
  {
    if prev && cur then Held
    else if cur then Rising
    else if prev then Falling
    else Idle
  }

  /** A freshly constructed trigger: low, no hold, toggle off, nothing bound. */
  function NewTrigger(): Trigger
  {
    Trigger(false, false, false, Bindings(None, None, None, None, None))
  }

  function Binding(b: Bindings, slot: Slot): Option<CmdId>
  {
    match slot
    case Press => b.press
    case Release => b.release
    case Hold => b.hold
    case CancelOnPress => b.cancel
    case Toggle => b.toggle
  }

  /** Every command bound to some slot. */
  function BoundCommands(b: Bindings): set<CmdId>
  {
    AsSet(b.press) + AsSet(b.release) + AsSet(b.hold) + AsSet(b.cancel) + AsSet(b.toggle)
  }

  function AsSet(c: Option<CmdId>): set<CmdId>
  {
    if c.Some? then {c.value} else {}
  }

  /**
    The setters `whenPressed`, `whenReleased`, `whileHeld`, `cancelWhenPressed`
    and `toggleWhenPressed`: rebind one slot.
   */
  function Bind(t: Trigger, slot: Slot, c: CmdId): (r: Trigger)
    ensures Binding(r.binds, slot) == Some(c)
    ensures forall other: Slot :: other != slot ==> Binding(r.binds, other) == Binding(t.binds, other)
    ensures r.prevState == t.prevState && r.holdStarted == t.holdStarted && r.toggleState == t.toggleState
  {
    var b := t.binds;
    var b' := match slot
      case Press => b.(press := Some(c))
      case Release => b.(release := Some(c))
      case Hold => b.(hold := Some(c))
      case CancelOnPress => b.(cancel := Some(c))
      case Toggle => b.(toggle := Some(c));
    t.(binds := b')
  }

  function StartIf(c: Option<CmdId>): seq<Action>
  {
    if c.Some? then [Start(c.value)] else []
  }

  function CancelIf(c: Option<CmdId>): seq<Action>
  {
    if c.Some? then [Cancel(c.value)] else []
  }

  /**
    One poll with current level `cur`. `running` is the set of commands whose
    `isRunning()` is true when the poll begins; only the hold command is asked.
   */
  function Poll(t: Trigger, cur: bool, running: set<CmdId>): (r: (Trigger, seq<Action>))
    ensures r.0.prevState == cur && r.0.binds == t.binds
    ensures EdgeOf(t.prevState, cur) == Idle ==> r.1 == [] && r.0 == t
    ensures EdgeOf(t.prevState, cur) == Rising ==>
              r.0.toggleState == !t.toggleState && r.0.holdStarted == t.holdStarted
    ensures EdgeOf(t.prevState, cur) == Held ==>
              r.0.holdStarted && r.0.toggleState == t.toggleState
    ensures EdgeOf(t.prevState, cur) == Falling ==>
              !r.0.holdStarted && r.0.toggleState == t.toggleState
  {
    var b := t.binds;
    if cur && t.prevState then
      if !t.holdStarted then
        (t.(holdStarted := true), StartIf(b.hold))
      else if b.hold.Some? && b.hold.value in running then
        (t, [])
      else
        (t, StartIf(b.hold))
    else if cur && !t.prevState then
      var toggleActs := if t.toggleState then CancelIf(b.toggle) else StartIf(b.toggle);
      (t.(toggleState := !t.toggleState, prevState := cur),
       StartIf(b.press) + toggleActs + CancelIf(b.cancel))
    else if !cur && t.prevState then
      (t.(holdStarted := false, prevState := cur), CancelIf(b.hold) + StartIf(b.release))
    else
      (t, [])
  }

  /**
    What each slot does on each edge, read slot by slot: the press command
    starts on a rising edge; the release command starts on a falling edge;
    the hold command starts on the first held tick and on later held ticks
    only when it is not running, and is cancelled on a falling edge; the
    cancel-on-press command is cancelled on a rising edge; the toggle command
    is started or cancelled on a rising edge according to the toggle flag.
   */
  datatype Reaction = NoReaction | StartIt | CancelIt

  function ReactionOf(slot: Slot, edge: Edge, toggleState: bool, holdStarted: bool, holdRunning: bool): Reaction
  {
    match slot
    case Press => if edge == Rising then StartIt else NoReaction
    case Release => if edge == Falling then StartIt else NoReaction
    case Hold =>
      if edge == Held && (!holdStarted || !holdRunning) then StartIt
      else if edge == Falling then CancelIt
      else NoReaction
    case CancelOnPress => if edge == Rising then CancelIt else NoReaction
    case Toggle =>
      if edge != Rising then NoReaction
      else if toggleState then CancelIt
      else StartIt
  }

  /** The order in which a poll acts on the slots. */
  const SlotOrder: seq<Slot> := [Hold, Press, Toggle, CancelOnPress, Release]

  function ActionFor(c: Option<CmdId>, reaction: Reaction): seq<Action>
  {
    match reaction
    case NoReaction => []
    case StartIt => StartIf(c)
    case CancelIt => CancelIf(c)
  }

  /** The actions the reaction table prescribes for one slot. */
  function SlotActions(t: Trigger, cur: bool, running: set<CmdId>, slot: Slot): seq<Action>
  {
    var b := t.binds;
    var holdRunning := b.hold.Some? && b.hold.value in running;
    ActionFor(Binding(b, slot), ReactionOf(slot, EdgeOf(t.prevState, cur), t.toggleState, t.holdStarted, holdRunning))
  }

  /** The actions the reaction table prescribes for `slots`, in order. */
  function TableActions(t: Trigger, cur: bool, running: set<CmdId>, slots: seq<Slot>): seq<Action>
  {
    if |slots| == 0 then []
    else SlotActions(t, cur, running, slots[0]) + TableActions(t, cur, running, slots[1..])
  }

  /** The table's actions over the whole slot order, spelled out slot by slot. */
  lemma TableSpelled(t: Trigger, cur: bool, running: set<CmdId>)
    ensures TableActions(t, cur, running, SlotOrder)
         == SlotActions(t, cur, running, Hold) + (SlotActions(t, cur, running, Press)
          + (SlotActions(t, cur, running, Toggle) + (SlotActions(t, cur, running, CancelOnPress)
          + SlotActions(t, cur, running, Release))))
  {
    var hold, press, toggle := SlotActions(t, cur, running, Hold), SlotActions(t, cur, running, Press), SlotActions(t, cur, running, Toggle);
    var cancel, release := SlotActions(t, cur, running, CancelOnPress), SlotActions(t, cur, running, Release);
    var s1, s2, s3, s4 := [Press, Toggle, CancelOnPress, Release], [Toggle, CancelOnPress, Release], [CancelOnPress, Release], [Release];
    assert s4[1..] == [] && s3[1..] == s4 && s2[1..] == s3 && s1[1..] == s2 && SlotOrder[1..] == s1;
    assert TableActions(t, cur, running, s4) == release + [];
    assert TableActions(t, cur, running, s3) == cancel + release;
    assert TableActions(t, cur, running, s2) == toggle + (cancel + release);
    assert TableActions(t, cur, running, s1) == press + (toggle + (cancel + release));
    assert TableActions(t, cur, running, SlotOrder) == hold + (press + (toggle + (cancel + release)));
  }

  /** A poll performs exactly the reactions of the slot table, slot by slot. */
  lemma PollFollowsTable(t: Trigger, cur: bool, running: set<CmdId>)
    ensures Poll(t, cur, running).1 == TableActions(t, cur, running, SlotOrder)
  {
    var b := t.binds;
    var edge := EdgeOf(t.prevState, cur);
    TableSpelled(t, cur, running);
    var hold, press, toggle := SlotActions(t, cur, running, Hold), SlotActions(t, cur, running, Press), SlotActions(t, cur, running, Toggle);
    var cancel, release := SlotActions(t, cur, running, CancelOnPress), SlotActions(t, cur, running, Release);
    if edge == Rising {
      assert hold == [] && release == [];
      assert press == StartIf(b.press) && cancel == CancelIf(b.cancel);
      assert toggle == if t.toggleState then CancelIf(b.toggle) else StartIf(b.toggle);
      assert hold + (press + (toggle + (cancel + release))) == press + toggle + cancel;
    } else if edge == Falling {
      assert press == [] && toggle == [] && cancel == [];
      assert hold == CancelIf(b.hold) && release == StartIf(b.release);
      assert hold + (press + (toggle + (cancel + release))) == hold + release;
    } else if edge == Held {
      assert press == [] && toggle == [] && cancel == [] && release == [];
      assert hold + (press + (toggle + (cancel + release))) == hold;
    } else {
      assert hold == [] && press == [] && toggle == [] && cancel == [] && release == [];
    }
  }

  /** Unbound slots produce no action: every action names a bound command. */
  lemma PollActsOnlyOnBound(t: Trigger, cur: bool, running: set<CmdId>)
    ensures forall a :: a in Poll(t, cur, running).1 ==> a.cmd in BoundCommands(t.binds)
  {
  }

  /** Held ticks after the first never start a hold command that is still running. */
  lemma HeldNeverRestartsRunningHold(t: Trigger, running: set<CmdId>)
    requires t.prevState && t.holdStarted
    requires t.binds.hold.Some? && t.binds.hold.value in running
    ensures Poll(t, true, running) == (t, [])
  {
  }

  /** A rising edge starts the toggle command when the flag is off and cancels it when on. */
  lemma ToggleFollowsFlag(t: Trigger, running: set<CmdId>, c: CmdId)
    requires !t.prevState && t.binds.toggle == Some(c)
    ensures !t.toggleState ==> Start(c) in Poll(t, true, running).1
    ensures t.toggleState ==> Cancel(c) in Poll(t, true, running).1
  {
    var acts := Poll(t, true, running).1;
    var toggleActs := if t.toggleState then [Cancel(c)] else [Start(c)];
    assert acts == StartIf(t.binds.press) + toggleActs + CancelIf(t.binds.cancel);
    assert acts[|StartIf(t.binds.press)|] == toggleActs[0];
  }

  /**
    Two rising edges (with the fall between them) start and then cancel the
    toggle command, and the toggle flag returns to where it was.
   */
  lemma {:induction false} ToggleTwice(t: Trigger, c: CmdId, r1: set<CmdId>, r2: set<CmdId>, r3: set<CmdId>)
    requires !t.prevState && !t.toggleState && t.binds.toggle == Some(c)
    ensures var p1 := Poll(t, true, r1);
            var p2 := Poll(p1.0, false, r2);
            var p3 := Poll(p2.0, true, r3);
            && Start(c) in p1.1
            && Cancel(c) in p3.1
            && p3.0.toggleState == t.toggleState
  {
    var p1 := Poll(t, true, r1);
    ToggleFollowsFlag(t, r1, c);
    var p2 := Poll(p1.0, false, r2);
    assert p2.0.toggleState && !p2.0.prevState && p2.0.binds == t.binds;
    ToggleFollowsFlag(p2.0, r3, c);
  }

  /**
    The level sequence low, high, high, low with every slot bound to a
    distinct command: nothing on the first poll; press start, toggle start
    and cancel-on-press cancel on the rising edge; the hold start on the
    first held tick; hold cancel and release start on the falling edge.
   */
  lemma PressHoldRelease(p: CmdId, r: CmdId, h: CmdId, x: CmdId, g: CmdId, running: set<CmdId>)
    ensures var t0 := Trigger(false, false, false, Bindings(Some(p), Some(r), Some(h), Some(x), Some(g)));
            var q1 := Poll(t0, false, running);
            var q2 := Poll(q1.0, true, running);
            var q3 := Poll(q2.0, true, running);
            var q4 := Poll(q3.0, false, running);
            && q1.1 == []
            && q2.1 == [Start(p), Start(g), Cancel(x)]
            && q3.1 == [Start(h)]
            && q4.1 == [Cancel(h), Start(r)]
            && q4.0 == t0.(toggleState := true)
  {
  }

  /** `isRunning()` of each command after the actions are applied in order. */
  function AfterActions(running: set<CmdId>, acts: seq<Action>): (r: set<CmdId>)
    ensures |acts| > 0 && acts[|acts| - 1].Start? ==> acts[|acts| - 1].cmd in r
    ensures |acts| > 0 && acts[|acts| - 1].Cancel? ==> acts[|acts| - 1].cmd !in r
    decreases |acts|
  {
    if |acts| == 0 then running
    else
      var before := AfterActions(running, acts[..|acts| - 1]);
      var last := acts[|acts| - 1];
      if last.Start? then before + {last.cmd} else before - {last.cmd}
  }

  lemma {:induction false} AfterActionsAppend(running: set<CmdId>, a1: seq<Action>, a2: seq<Action>)
    ensures AfterActions(running, a1 + a2) == AfterActions(AfterActions(running, a1), a2)
    decreases |a2|
  {
    if |a2| == 0 {
      assert a1 + a2 == a1;
    } else {
      assert (a1 + a2)[..|a1 + a2| - 1] == a1 + a2[..|a2| - 1];
      AfterActionsAppend(running, a1, a2[..|a2| - 1]);
    }
  }

  /** Polls every trigger in registration order, each seeing the starts and cancels of those before it. */
  function PollAll(ts: seq<Trigger>, levels: seq<bool>, running: set<CmdId>): (r: (seq<Trigger>, seq<Action>))
    requires |levels| == |ts|
    ensures |r.0| == |ts|
  {
    if |ts| == 0 then ([], [])
    else
      var p := Poll(ts[0], levels[0], running);
      Cons(p, PollAll(ts[1..], levels[1..], AfterActions(running, p.1)))
  }

  /** One poll's result in front of the results of the polls after it. */
  function Cons(p: (Trigger, seq<Action>), rest: (seq<Trigger>, seq<Action>)): (r: (seq<Trigger>, seq<Action>))
    ensures |r.0| == |rest.0| + 1
  {
    ([p.0] + rest.0, p.1 + rest.1)
  }

  function Join(a: (seq<Trigger>, seq<Action>), b: (seq<Trigger>, seq<Action>)): (seq<Trigger>, seq<Action>)
  {
    (a.0 + b.0, a.1 + b.1)
  }

  lemma ConsJoin(p: (Trigger, seq<Action>), a: (seq<Trigger>, seq<Action>), b: (seq<Trigger>, seq<Action>))
    ensures Cons(p, Join(a, b)) == Join(Cons(p, a), b)
  {
    assert [p.0] + (a.0 + b.0) == ([p.0] + a.0) + b.0;
    assert p.1 + (a.1 + b.1) == (p.1 + a.1) + b.1;
  }

  /**
    `updateTriggers`: when the global switch is off nothing changes; when on,
    every trigger is polled with its own level, and its new state depends on
    nothing but its old state and that level.
   */
  function UpdateTriggers(enabled: bool, ts: seq<Trigger>, levels: seq<bool>, running: set<CmdId>): (r: (seq<Trigger>, seq<Action>))
    requires |levels| == |ts|
    ensures |r.0| == |ts|
    ensures !enabled ==> r.0 == ts && r.1 == []
    ensures enabled ==> forall i :: 0 <= i < |ts| ==> r.0[i].prevState == levels[i]
    ensures enabled ==> forall i :: 0 <= i < |ts| ==> r.0[i] == Poll(ts[i], levels[i], {}).0
  {
    if enabled then
      PollAllStates(ts, levels, running);
      PollAll(ts, levels, running)
    else (ts, [])
  }

  /** Each trigger's new state comes from its own poll alone. */
  lemma {:induction false} PollAllStates(ts: seq<Trigger>, levels: seq<bool>, running: set<CmdId>)
    requires |levels| == |ts|
    ensures forall i :: 0 <= i < |ts| ==> PollAll(ts, levels, running).0[i] == Poll(ts[i], levels[i], {}).0
  {
    if |ts| > 0 {
      var p := Poll(ts[0], levels[0], running);
      PollAllStates(ts[1..], levels[1..], AfterActions(running, p.1));
    }
  }

  /**
    Registration order: polling `ts1 + ts2` polls all of `ts1` first, then
    `ts2` starting from the running set `ts1` left behind.
   */
  lemma {:induction false} PollAllAppend(ts1: seq<Trigger>, ts2: seq<Trigger>, l1: seq<bool>, l2: seq<bool>, running: set<CmdId>)
    requires |l1| == |ts1| && |l2| == |ts2|
    ensures var a := PollAll(ts1, l1, running);
            PollAll(ts1 + ts2, l1 + l2, running) == Join(a, PollAll(ts2, l2, AfterActions(running, a.1)))
  {
    if |ts1| == 0 {
      assert ts1 + ts2 == ts2 && l1 + l2 == l2;
      var b := PollAll(ts2, l2, running);
      assert [] + b.0 == b.0 && [] + b.1 == b.1;
      assert Join(([], []), b) == b;
    } else {
      var p := Poll(ts1[0], l1[0], running);
      var r1 := AfterActions(running, p.1);
      var a' := PollAll(ts1[1..], l1[1..], r1);
      var b := PollAll(ts2, l2, AfterActions(r1, a'.1));
      var T, L := ts1 + ts2, l1 + l2;
      assert T[0] == ts1[0] && L[0] == l1[0];
      assert T[1..] == ts1[1..] + ts2 && L[1..] == l1[1..] + l2;
      assert PollAll(T, L, running) == Cons(p, PollAll(T[1..], L[1..], r1));
      assert PollAll(ts1, l1, running) == Cons(p, a');
      PollAllAppend(ts1[1..], ts2, l1[1..], l2, r1);
      ConsJoin(p, a', b);
      AfterActionsAppend(running, p.1, a'.1);
    }
  }
}

=== FILE: wrappers.dfy ===
/** Optional values, standing for Kotlin's nullable references. */
module Wrappers {

  datatype Option<+T> = None | Some(value: T)
}
